=== FILE: README.md ===
# WebCAD back end: conversion queue, folders and files

A Dafny model of the core of the WebCAD server, an Express/TypeScript
service. Users upload DWG/DXF drawings into a folder tree, and a Bull job
queue converts them into a JSON intermediate format. The model covers these
parts of the server:

- **Conversion service** (`Conversion`, `ConversionProperties`, `JobQueue`).
  `startConversion` deduplicates requests, one waiting or running job per
  file. The worker writes checkpoints 0/20/60/80/100 and a file status.
  `getConversionStatus`, `retryConversion`, `getConvertedFile` and
  `deleteConversion` each guard on the job state. `cleanOldJobs` runs at
  start-up. The Bull queue is a store of job records with a counter for ids.
- **Folder service** (`Folders`, `FolderTree`). Folders are created under
  a parent path. A rename rewrites the paths of descendants through
  `updateChildrenPaths`. A delete is refused while the folder has
  sub-folders or files. `getFolderContents` pages the children sorted by
  name.
- **File service** (`Files`). Files are created with a per-folder unique
  name, read through `mapToFile`, renamed, deleted, listed newest first and
  counted.
- **LibreDWG converter table mappings** (`LibreDwgConverter`). Units, layers
  with colour mapping, line types, text styles, and the error wrapping of
  `convert`.
- **Upload middleware** (`Upload`, `ValidateFileType`,
  `UploadErrorHandler`, `ErrorHandler`). The multer configuration (size
  limit, single `file` field, extension filter), the `validateFileType`
  guard, the upload error classification and the final error handler.
- **Date formatting** (`DateFormatter`). `toISOString` trims the ISO text to
  `YYYY-MM-DD HH:mm:ss`.

Shared pieces:

- `Errors` holds the `Result` type, which models "returns or throws".
- `Strings` holds the JavaScript string operations the code relies on.
- `Models` holds the MongoDB documents.
- `Paging` holds the `.sort().skip().limit()` semantics of a query.

Every database or queue call becomes a pure function from the old
collections to the new ones. Uuids, clocks and the current time are
parameters. Throwing is an `Err` result. A call that awaits `job.finished()`
on an unsettled job is `Waits`.

Where the code departs from what its own types and comments suggest, the
model follows the code:

- The worker has no optimisation stage. It converts, serialises and saves.
- A failed job's `finished()` rejects with the job's failure reason. So
  `getConvertedFile` and `deleteConversion` on a failed job throw that
  reason rather than an "invalid state" error.
  - `deleteConversion` on a failed job therefore never removes it
    (`FailedJobNotDeleted`).
- `retryConversion` on a job that has not failed surfaces Bull's own error
  message.
- The `status` field of a status reply is the queue state name
  (`waiting`, `active`, …), not the stored `status` field of the job data.
- In `deleteConversion`, an unlink error other than a missing file
  propagates before `job.remove()`, so the job stays. A missing blob is
  ignored, as `StorageService.deleteFile` ignores `ENOENT`.
- The one-job-per-file rule holds for `startConversion` and for the worker.
  `retryConversion` does not check it and can break it
  (`RetryBreaksOneInFlight`).
- Folder names may contain `/`. Such a name makes a later rename of another
  folder rewrite a path outside its subtree (`SlashInNameBreaksPaths`). The
  tree invariant `FolderTree.Valid` is proved preserved only for slash-free
  names.

## Model

| member | source | states |
|---|---|---|
| Conversion.OrDefault | src/services/converter/ConversionService.ts:137-142 | `options.x \|\| default`: a missing or zero option falls back to the default, any other value is kept |
| Conversion.FirstForFile | src/services/converter/ConversionService.ts:127 | finds a job of the file exactly when one exists among the jobs given, and the job found is the first of the file in the list, as `find` returns it |
| Conversion.InFlightListing | src/services/converter/ConversionService.ts:126 | `getJobs(['active', 'waiting', 'delayed'])` lists the active jobs, then the waiting ones, then the delayed ones |
| Conversion.NoneInFlight | src/services/converter/ConversionService.ts:126-128 | the duplicate check finds nothing exactly when the file has no active, waiting or delayed job |
| Conversion.FirstInFlightFound | src/services/converter/ConversionService.ts:126-129 | the job the duplicate check finds is the file's first in-flight job in the listing order: no job of the file in an earlier state, and none earlier in the store within its state |
| Conversion.StartConversion | src/services/converter/ConversionService.ts:119-149 | 404 "File not found" exactly when the file is unknown; with a waiting, delayed or active job of the file, the id of the first such job in the order active, waiting, delayed (store order within a state) is returned and nothing changes; otherwise one new waiting job is appended with the next id, data `pending`/0/0, attempts `maxAttempts \|\| 3`, timeout `timeout \|\| 300000`, the given priority, and both remove flags false |
| Conversion.Checkpoint | src/services/converter/ConversionService.ts:106-117 | `updateJobProgress` never throws: a failing `progress` write leaves the job unchanged, a failing `update` keeps the data, and otherwise both the progress and the data's progress and timestamp are set; state, options and results never change |
| Conversion.SetStatus | src/services/converter/ConversionService.ts:91 | the file status write changes the status of the file with that id and nothing else; an unknown id changes nothing |
| Conversion.Step | src/services/converter/ConversionService.ts:43 | a checkpoint appends its progress mark to the run's trace and leaves files and blobs alone |
| Conversion.Abort | src/services/converter/ConversionService.ts:98-102 | the worker's `catch` marks the file failed and rethrows the same error, leaving the job and blobs as they were |
| Conversion.Pipeline | src/services/converter/ConversionService.ts:39-103 | a run never changes the job's id, state, options, attempts or file |
| Conversion.NextWaiting | src/types/bull.d.ts:37 | the worker takes a waiting job exactly when there is one, and no waiting job is stored before the one taken |
| Conversion.Process | src/services/converter/ConversionService.ts:39-103 | processing settles exactly the job taken, moving it out of the active state, and leaves every other job untouched; with nothing waiting nothing changes |
| Conversion.StatusAsWritten | src/services/converter/ConversionService.ts:151-172 | as written, the status call reports progress 0 and stores progress 0 on the job; an unknown id gives null |
| Conversion.Report | src/services/converter/ConversionService.ts:166-171 | the reply carries the job's id and the data's file id, attempts, limits and dates; the spread data's own status and progress are overridden by the queue state's name and the progress read |
| Conversion.GetConversionStatus | src/services/converter/ConversionService.ts:151-172 | null exactly for an unknown id; otherwise a report of that job's data with its queue state and its stored progress, read without changing the queue |
| Conversion.RetryConversion | src/services/converter/ConversionService.ts:174-181 | 404 for an unknown id; Bull's error exactly when the job has not failed; files and blobs never change |
| Conversion.ResultPath | src/services/converter/ConversionService.ts:190 | a result yields a path exactly when it exists and its `outputPath` is truthy |
| Conversion.GetConvertedFile | src/services/converter/ConversionService.ts:183-195 | 404 for an unknown id; waits exactly while the job is in flight; a failed job throws its failure reason; a completed job without an output path is 400 "Conversion not completed"; a completed job whose output path is stored returns exactly those bytes, and one whose blob is missing throws the store's not-found error |
| Conversion.DeleteConversion | src/services/converter/ConversionService.ts:197-211 | 404 for an unknown id; waits exactly while the job is in flight; a failed job throws its failure reason; an unlink error other than a missing file is thrown before the job is removed; otherwise the job is removed, its output blob (if named) deleted, and files untouched |
| Conversion.CleanOldJobs | src/services/converter/ConversionService.ts:26-36 | after start-up cleanup the queue holds exactly the completed jobs, and the id counter is unchanged |
| Conversion.DoomedAreTheRest | src/services/converter/ConversionService.ts:28-31 | with unique ids, a job survives removal by id exactly when it is completed |
| Conversion.RemoveEach | src/services/converter/ConversionService.ts:29-31 | removing each listed job keeps exactly the jobs whose ids are not listed |
| ConversionProperties.StartTwiceSameJob | src/services/converter/ConversionService.ts:125-130 | asking again for the same file returns the same job id and changes nothing |
| ConversionProperties.StartKeepsOneInFlight | src/services/converter/ConversionService.ts:119-149 | `startConversion` preserves "at most one waiting or running job per file" |
| ConversionProperties.ProcessKeepsOneInFlight | src/services/converter/ConversionService.ts:39-103 | a worker run preserves "at most one waiting or running job per file" |
| ConversionProperties.StartPrefersActive | src/services/converter/ConversionService.ts:126-129 | with a waiting job of the file stored before an active one, `startConversion` returns the active job's id: state order beats store order |
| ConversionProperties.RetryBreaksOneInFlight | src/services/converter/ConversionService.ts:174-181 | when a file's only job has failed and a new conversion is started, retrying the failed job leaves two in-flight jobs of that file |
| ConversionProperties.PipelineTraces | src/services/converter/ConversionService.ts:42-102 | a successful run marks 0, 20, 60, 80, writes `completed`, then marks 100; a failed run stops after 0, 20 or 60 and writes `failed` |
| ConversionProperties.PipelineProgressMonotone | src/services/converter/ConversionService.ts:43-92 | every run's checkpoints are a strictly increasing prefix of 0, 20, 60, 80, 100, all five when it succeeds, and it writes exactly one file status: completed on success, failed otherwise |
| ConversionProperties.TraceProgress | src/services/converter/ConversionService.ts:43-100 | the checkpoint and status-write facts for each of the four trace shapes |
| ConversionProperties.StepsIncreasing | src/services/converter/ConversionService.ts:43-92 | progress rising from each checkpoint to the next rises throughout |
| ConversionProperties.CheckpointPrefixIncreasing | src/services/converter/ConversionService.ts:43-92 | every prefix of the checkpoint list is strictly increasing |
| ConversionProperties.FailureTraceParts | src/services/converter/ConversionService.ts:98-102 | a failed run's marks are a prefix of the checkpoints of length 1 to 3 and its only status write is `failed` |
| ConversionProperties.SuccessTraceParts | src/services/converter/ConversionService.ts:43-92 | a successful run marks all five checkpoints and writes only `completed` |
| ConversionProperties.PipelineOutcome | src/services/converter/ConversionService.ts:39-103 | a run succeeds exactly when the file is known, its blob is stored, the conversion succeeds and the save succeeds; success stores the JSON at `converted/<id>/data.json`, returns that path and marks the file completed; failure leaves the blobs and marks the file failed; an unknown file fails with "File not found: <id>" |
| ConversionProperties.CheckpointFaultsIrrelevant | src/services/converter/ConversionService.ts:106-117 | whether checkpoint writes fail does not change a run's result, files, blobs or trace |
| ConversionProperties.SuccessEndsAtHundred | src/services/converter/ConversionService.ts:92 | with all checkpoint writes succeeding, a successful run leaves the job at progress 100 in its record and its data |
| ConversionProperties.ConvertThenDownload | src/services/converter/ConversionService.ts:183-195 | after the worker converts the next waiting job successfully, downloading through that job returns the converted bytes |
| ConversionProperties.DeleteThenNotFound | src/services/converter/ConversionService.ts:197-211 | after a delete, status, download, a second delete and retry of that id all report it as not found |
| ConversionProperties.FailedJobNotDeleted | src/services/converter/ConversionService.ts:189-210 | deleting or downloading a failed job throws its failure reason whatever the blob store does, so the job stays |
| ConversionProperties.StatusNamesState | src/services/converter/ConversionService.ts:155-167 | the `status` of a status reply is the name of the job's queue state and of no other state, so the reply identifies the state |
| ConversionProperties.CleanLeavesOnlyCompleted | src/services/converter/ConversionService.ts:26-36 | after cleanup nothing is in flight, the one-job-per-file rule holds, and every completed job is kept |
| ConversionProperties.StatusAsWrittenLosesProgress | src/services/converter/ConversionService.ts:158-161 | the status call as written reports 0 and overwrites the stored progress with 0, while the read-only call reports the stored progress |
| ConversionProperties.StatusAsWrittenExample | src/services/converter/ConversionService.ts:158-161 | a job left at 60 reads back as 0 and is stored as 0 afterwards; the read-only call reports 60 |
| JobQueue.StateName | src/types/bull.d.ts:29 | `getState()` names each state by its own word, and a name determines the state |
| JobQueue.Add | src/types/bull.d.ts:38 | `add` appends one waiting job with the next id, the given data and options, no progress and no result, and keeps ids unique |
| JobQueue.Find | src/types/bull.d.ts:39 | locates the first job with that id, or reports none has it |
| JobQueue.GetJob | src/types/bull.d.ts:39 | `getJob` finds a job exactly when one has the id, and the job found has it |
| JobQueue.InState | src/types/bull.d.ts:40 | the jobs in one state are exactly the stored jobs in that state |
| JobQueue.GetJobs | src/types/bull.d.ts:40 | `getJobs(states)` lists exactly the stored jobs whose state is listed |
| JobQueue.Update | src/types/bull.d.ts:28 | an update changes only the job with that id |
| JobQueue.Remove | src/types/bull.d.ts:32 | `remove` drops exactly the job with that id, keeps ids valid, and the id is then unknown |
| JobQueue.RemoveAll | src/types/bull.d.ts:32 | dropping an id keeps exactly the other jobs and keeps ids unique |
| JobQueue.Retry | src/types/bull.d.ts:31 | `retry` is refused with Bull's message exactly when the job has not failed; otherwise only that job goes back to waiting with its failure cleared |
| JobQueue.Finish | src/types/bull.d.ts:30 | `finished()` resolves with the return value exactly for a completed job and rejects exactly for a failed one, with its failure reason |
| JobQueue.Complete | src/types/bull.d.ts:37 | a job whose processing returned is completed with that value, and `finished()` then resolves to it |
| JobQueue.FailAttempt | src/services/converter/ConversionService.ts:141 | a thrown attempt is counted; the job waits again exactly while attempts remain, and otherwise fails with the thrown message |
| JobQueue.AttemptsExhausted | src/services/converter/ConversionService.ts:141 | a job whose every attempt throws is tried until its attempt budget is spent and then stays failed with that reason |
| Folders.CreateFolder | src/services/folder/FolderService.ts:15-70 | 404 for a truthy unknown parent; 400 for a taken name, with the message that matches parent or root; after the guards an empty name fails the schema's `required` check (src/models/folder.model.ts:8); succeeds exactly otherwise, appending one folder with the fresh id, the name, the stored parent, the creation time and the path `/name` or `<parent path>/name` |
| Folders.ParentPath | src/services/folder/FolderService.ts:194-200 | 404 "Parent folder not found" exactly for an unknown id; otherwise that folder's path |
| Folders.RewritePath | src/services/folder/FolderService.ts:207-209 | a path under `oldPath/` has its leading `oldPath` replaced by `newPath`; any other folder is unchanged |
| Folders.UpdateChildrenPaths | src/services/folder/FolderService.ts:202-211 | only paths change, only under `oldPath/`, and ids, names and parents never change |
| Folders.NewPath | src/services/folder/FolderService.ts:92-94 | the renamed path is `/name` at the root, `<parent path>/name` under a known parent, and 404 under an unknown one |
| Folders.RenameFolder | src/services/folder/FolderService.ts:72-118 | 404 for an unknown folder; 400 when another sibling has the name; 404 for a lost parent; succeeds exactly otherwise, renaming the folder, giving it its new path and time, and moving every path under the old one |
| Folders.DeleteFolder | src/services/folder/FolderService.ts:120-144 | 404 for an unknown folder; 400 while it has sub-folders, then 400 while it holds files; succeeds exactly otherwise, removing only that folder |
| Folders.FolderPage | src/services/folder/FolderService.ts:150-153 | a negative skip is refused; otherwise the page is the window of the sub-folders sorted by name that starts at `skip`, as long as the limit and the count allow, each entry a child of the folder |
| Folders.FilePage | src/services/folder/FolderService.ts:155-158 | a negative skip is refused; otherwise the page is the window of the folder's files sorted by name that starts at `skip`, as long as the limit and the count allow, each entry a file of the folder |
| Folders.Views | src/services/folder/FolderService.ts:172-179 | the listed file shape is taken entry for entry and keeps the name order |
| Folders.GetFolderContents | src/services/folder/FolderService.ts:146-192 | refused exactly when `(page-1)*limit` is negative; otherwise both lists are the windows at `(page-1)*limit` of the sub-folders and of the file views sorted by name, each of the length the limit and the count allow; the totals count every child folder and file, and `total` is their sum |
| Folders.ViewsOfWindow | src/services/folder/FolderService.ts:172-179 | the file views of a window of documents are the same window of their views |
| Folders.ContentsAreWindows | src/services/folder/FolderService.ts:146-158 | page `p` of a positive limit always succeeds, and its lists are the windows at `(p-1)*limit` of the sorted sub-folders and file views |
| Folders.ListedFoldersArePages | src/services/folder/FolderService.ts:148-153 | the sub-folders of pages 1 to k are pages 1 to k of the sorted sub-folders |
| Folders.ListedFilesArePages | src/services/folder/FolderService.ts:148-158 | the files of pages 1 to k are pages 1 to k of the sorted file views |
| Folders.PagesListAllFolders | src/services/folder/FolderService.ts:146-192 | pages 1 to k list the first `k*limit` sub-folders in name order, none twice; once `k*limit` reaches `totalFolders`, every sub-folder has been listed exactly once |
| Folders.PagesListAllFiles | src/services/folder/FolderService.ts:146-192 | pages 1 to k list the first `k*limit` files in name order, none twice; once `k*limit` reaches `totalFiles`, the pages list every file view |
| FolderTree.PathsUnique | src/services/folder/FolderService.ts:18-25 | in a valid tree no two folders share a path |
| FolderTree.FindIsUnique | src/services/folder/FolderService.ts:74 | with unique ids, the lookup by id lands on the one folder with that id |
| FolderTree.SplitAtLastSlash | src/services/folder/FolderService.ts:25 | a path `a/n` with a slash-free `n` determines both `a` and `n` |
| FolderTree.ChildPathUnder | src/services/folder/FolderService.ts:203-205 | a child path lies under `base/` exactly when its parent's path is `base` or lies under `base/` |
| FolderTree.AppendPreservesValid | src/services/folder/FolderService.ts:48-55 | appending a folder with a fresh id, a free slash-free name and the path its parent dictates keeps the tree valid |
| FolderTree.CreatePreservesValid | src/services/folder/FolderService.ts:15-70 | `createFolder` of a slash-free name keeps the tree valid |
| FolderTree.MovedFolderPlaced | src/services/folder/FolderService.ts:90-103 | the renamed folder still sits under its parent |
| FolderTree.MovedRootPlaced | src/services/folder/FolderService.ts:202-211 | other root folders keep their places through a rename |
| FolderTree.ChildOfMovedFollows | src/services/folder/FolderService.ts:207-209 | a child of the renamed folder moves to the new path |
| FolderTree.ChildOfDescendantFollows | src/services/folder/FolderService.ts:207-209 | a deeper descendant follows its rewritten parent |
| FolderTree.ChildOutsideStays | src/services/folder/FolderService.ts:203-205 | a folder outside the renamed subtree is not touched |
| FolderTree.MovedChildPlaced | src/services/folder/FolderService.ts:202-211 | every non-root folder stays under its parent after a rename |
| FolderTree.MovePreservesValid | src/services/folder/FolderService.ts:72-118 | an allowed rename-with-move keeps the tree valid |
| FolderTree.RenameIsMove | src/services/folder/FolderService.ts:72-118 | a successful `renameFolder` of a slash-free name is an allowed move |
| FolderTree.RenamePreservesValid | src/services/folder/FolderService.ts:72-118 | `renameFolder` of a slash-free name keeps the tree valid |
| FolderTree.RemovedPlaced | src/services/folder/FolderService.ts:127-139 | once a folder without sub-folders is removed, every other folder keeps its place |
| FolderTree.RemoveLeafPreservesValid | src/services/folder/FolderService.ts:127-139 | removing a folder without sub-folders keeps the tree valid |
| FolderTree.DeletePreservesValid | src/services/folder/FolderService.ts:120-144 | `deleteFolder` keeps the tree valid |
| FolderTree.SiblingWithSharedPrefixUntouched | src/services/folder/FolderService.ts:202-211 | renaming root `n` leaves the sibling `n+s` alone and moves its child `x` to `/m/x` |
| FolderTree.CreateSlashedName | src/services/folder/FolderService.ts:15-70 | a root folder named `n/x` is accepted beside a root folder `n` |
| FolderTree.RenameMovesSlashedName | src/services/folder/FolderService.ts:202-211 | renaming root `n` to `m` then moves the unrelated root folder `n/x` |
| FolderTree.SlashInNameBreaksPaths | src/services/folder/FolderService.ts:202-211 | starting from a valid tree, creating `n/x` and then renaming `n` leaves `n/x` at `/m/x`, which is no longer its place |
| FolderTree.SlashedPathMoved | src/services/folder/FolderService.ts:208 | the rewritten path differs from the folder's own `/` plus name |
| Files.RequiredMissing | src/services/file/FileService.ts:33-49 | the schema's required string paths that are empty, in schema order; none exactly when every required string is non-empty |
| Files.CreateFile | src/services/file/FileService.ts:64-108 | 404 for an unknown folder; 400 for a name taken in that folder; after the guards, an empty original name or type fails the schema's `required` check with Mongoose's validation message naming those paths; succeeds exactly otherwise, appending one pending document with the fresh id, the upload's name, type and size, the path `<folder path>/<name>` and the creation time, and returning its view |
| Files.MapToFile | src/services/file/FileService.ts:111-123 | the stored name is reported as `filename`, with the original name, type, size, path, status and creation time carried over |
| Files.GetFile | src/services/file/FileService.ts:126-134 | null exactly for an unknown id; otherwise the mapped document with that id |
| Files.UpdateFileName | src/services/file/FileService.ts:136-151 | null and no change exactly for an unknown id; otherwise only that document's name and update time change, and the new document is returned mapped |
| Files.DeleteFile | src/services/file/FileService.ts:153-160 | removes the document with that id, and an unknown id changes nothing |
| Files.Selection | src/services/file/FileService.ts:165 | a falsy folder id selects every file; a truthy one selects exactly the files of that folder |
| Files.MapAll | src/services/file/FileService.ts:169 | the mapped list matches the documents entry for entry |
| Files.NewestPage | src/services/file/FileService.ts:165-168 | the page is the window at `skip` of the selection sorted newest first: as long as the window allows, newest first, drawn from the selection |
| Files.MapAllOfWindow | src/services/file/FileService.ts:165-169 | mapping a window gives the same window of the mapped documents |
| Files.ListFiles | src/services/file/FileService.ts:163-174 | a negative skip is refused; otherwise the page is the window at `skip` of the mapped selection sorted newest first, as long as the window over the count allows, and every entry is a mapped document of the folder |
| Files.MappedPage | src/services/file/FileService.ts:165-169 | a mapped page keeps the newest-first order, comes from the folder's documents and is the window of the mapped listing |
| Files.CountFiles | src/services/file/FileService.ts:177-184 | the count never exceeds the collection and is all of it without a folder |
| Files.ListAllMatchesCount | src/services/file/FileService.ts:163-184 | the unlimited first page lists exactly as many files as the count, including every matching document |
| Files.ListedUploadsArePages | src/services/file/FileService.ts:163-174 | the files of pages 1 to k of `listFiles` (skip `(p-1)*limit`) are pages 1 to k of the newest-first listing |
| Files.PagesListAllUploads | src/services/file/FileService.ts:163-184 | pages 1 to k of `listFiles` list the first `k*limit` selected files newest first, none twice; once `k*limit` reaches `countFiles`, they list every selected file exactly once |
| Files.CreateThenGet | src/services/file/FileService.ts:64-134 | a created file is found by its id with its name, pending status and folder path |
| Files.CreateTwiceRejected | src/services/file/FileService.ts:71-78 | uploading the same name into the same folder twice is refused with 400 |
| Files.RenameThenGet | src/services/file/FileService.ts:126-151 | after a rename `getFile` reports the new name and the original upload name |
| Files.DeleteThenGone | src/services/file/FileService.ts:153-160 | after a delete the id is unknown, and deleting again changes nothing |
| LibreDwgConverter.ExtractUnits | src/services/converter/LibreDWGConverter.ts:78-80 | `Metric` exactly for a metric header, `Imperial` otherwise |
| LibreDwgConverter.ConvertColor | src/services/converter/LibreDWGConverter.ts:95-104 | colours 1, 2 and 3 map to red, yellow and green, and every other index to white |
| LibreDwgConverter.ColorIsHex | src/services/converter/LibreDWGConverter.ts:95-104 | every mapped colour is a seven-character `#RRGGBB` text |
| LibreDwgConverter.ExtractLayers | src/services/converter/LibreDWGConverter.ts:82-93 | one layer per table entry, named and keyed by the entry's name, visible exactly when not frozen, with mapped colour and the entry's line type and weight |
| LibreDwgConverter.ExtractLineTypes | src/services/converter/LibreDWGConverter.ts:136-143 | one line type per table entry, keyed by name, with pattern and description kept |
| LibreDwgConverter.ExtractTextStyles | src/services/converter/LibreDWGConverter.ts:145-154 | one text style per table entry, keyed by name, with font, height, bold and italic kept |
| LibreDwgConverter.Convert | src/services/converter/LibreDWGConverter.ts:33-71 | succeeds exactly when the file reads, with version 1.0, the file path and units as metadata, the extracted layer, line-type and text-style tables, and no geometry, attributes or blocks; a thrown Error gives "Failed to convert DWG file: " and its message, anything else thrown the bare prefix |
| LibreDwgConverter.LayerNamesPreserved | src/services/converter/LibreDWGConverter.ts:82-93 | the converted layers carry exactly the table's layer names, in order |
| LibreDwgConverter.ConvertKeepsTables | src/services/converter/LibreDWGConverter.ts:33-154 | a conversion keeps every table entry for entry, in order: each layer, line type and text style is its table entry under the field mapping; a thrown Error's message follows the prefix, and anything else thrown gives the bare prefix |
| Upload.FileFilter | src/middleware/multer.ts:16-35 | a name that fails to decode is refused with the encoding message; a decoded name passes exactly when its extension is `dwg` or `dxf`, and then replaces the original name |
| Upload.Named | src/middleware/multer.ts:36 | the parts multer looks at are exactly the parts with a non-empty file name; the others are dropped unseen |
| Upload.Receive | src/middleware/multer.ts:11-36 | a part with an empty file name is skipped before any check; no error exactly when no named part remains, or one named part in field `file` that the filter admits and that is within 50 MiB, which is then stored under its decoded name; otherwise the first offending named part decides the error: `LIMIT_UNEXPECTED_FILE` for another field or a second file, the filter's error for a refused name, `LIMIT_FILE_SIZE` above 50 MiB; an oversized named part anywhere always gives an error |
| Upload.NamelessPartsIgnored | src/middleware/multer.ts:36 | multer's answer to a request is its answer to the request's named parts alone |
| Upload.UploadMiddleware | src/middleware/multer.ts:39-56 | an upload error goes on as `ApiError(400, err.message)`; a request with no named part, such as a form sent with no file chosen, is 400 "No file uploaded"; an error-free upload with a file calls `next()` with that file, which happens exactly when the one named part is a storable `file` part, under its decoded name |
| Upload.SinglePartAccepted | src/middleware/multer.ts:11-56 | one `.dwg`/`.dxf` part proceeds exactly when it has a file name and is within 50 MiB, under its decoded name; a larger one is 400 "File too large"; a nameless one is 400 "No file uploaded"; a nameless part in front of it changes nothing |
| Upload.WrongExtensionNeverProceeds | src/middleware/multer.ts:16-36 | whatever else a request holds, a stored file always has a `dwg` or `dxf` extension |
| UploadErrorHandler.Classify | src/middleware/uploadErrorHandler.ts:8-33 | no error means a bare `next()`; multer errors become 400, ApiErrors pass through, and anything else becomes a 500 |
| UploadErrorHandler.MulterMessages | src/middleware/uploadErrorHandler.ts:15-26 | the three known multer codes get fixed messages; any other code keeps multer's message behind "File upload error: " |
| UploadErrorHandler.ResponseStatus | src/middleware/uploadErrorHandler.ts:8-33 | chained into the final handler, multer errors answer 400, ApiErrors their own status and message, and others 500 with a fixed message |
| ErrorHandler.Handle | src/middleware/errorHandler.ts:7-26 | an ApiError is answered with its own status and message, anything else with 500 "Internal Server Error"; `success` is always false |
| ErrorHandler.NonApiErrorsIndistinguishable | src/middleware/errorHandler.ts:15-25 | any two non-ApiErrors get identical responses, so nothing of them leaks |
| ValidateFileType.Extension | src/middleware/validateFileType.ts:10 | the extension is the lower-cased text after the last `.`, or the whole name without a dot |
| ValidateFileType.Validate | src/middleware/validateFileType.ts:4-17 | 400 "No file uploaded" without a file; `next()` is called once exactly when the extension is non-empty and allowed, and otherwise 400 lists the allowed types |
| ValidateFileType.AcceptedIffAllowedTail | src/middleware/validateFileType.ts:10-13 | a name is accepted exactly when some dot-free tail after a dot (or the whole name) is allowed in lower case |
| ValidateFileType.UpperCaseExtensionAccepted | src/middleware/validateFileType.ts:10 | `.DWG` passes when `dwg` is allowed |
| ValidateFileType.TrailingDotRejected | src/middleware/validateFileType.ts:11 | a name ending in `.` is always refused |
| ValidateFileType.NoDotNameIsExtension | src/middleware/validateFileType.ts:10 | a name without a dot is its own extension |
| DateFormatter.ToIsoString | src/utils/dateFormatter.ts:13-15 | the result is the ISO text up to its first `.`, with its first `T` turned into a space |
| DateFormatter.IsoInstantTrimmed | src/utils/dateFormatter.ts:13-15 | for every `YYYY-MM-DDTHH:mm:ss.sssZ` instant the result is `YYYY-MM-DD HH:mm:ss`, 19 characters |
| Strings.IndexOfString | src/services/folder/FolderService.ts:208 | `indexOf(pattern)` is the first position where the pattern occurs, and -1 exactly when it occurs nowhere |
| Strings.ToLower | src/middleware/validateFileType.ts:10 | lower-casing keeps the length and lowers each ASCII capital, position by position |
| Models.ViewOf | src/services/file/FileService.ts:96-103 | the returned `File` shape carries the document's id, name, path, folder and timestamps |
| Models.FindById | src/services/folder/FolderService.ts:74 | `findOne({ id })` finds the first document with that id, or none when no document has it |
| Models.FindFolder | src/services/folder/FolderService.ts:74 | `FolderModel.findOne({ id })` finds the first folder with that id, or none when no folder has it |
| Models.FindFile | src/services/file/FileService.ts:128 | `FileModel.findOne({ id })` finds the first file with that id, or none when no file has it |
| Models.Filter | src/services/folder/FolderService.ts:150 | a query keeps exactly the matching documents, each from the collection, never more often than stored |
| Paging.StrLeTotal | src/services/folder/FolderService.ts:151 | the name order compares any two names |
| Paging.SortByName | src/services/folder/FolderService.ts:151 | `.sort({ name: 1 })` returns the same documents, as a permutation, in ascending name order |
| Paging.SortDescending | src/services/file/FileService.ts:166 | `.sort({ createdAt: -1 })` returns the same documents, as a permutation, newest first |
| Paging.Window | src/services/file/FileService.ts:167-168 | `.skip(s).limit(l)` is refused for a negative skip; otherwise it returns the documents from position `s` on, as many as the limit allows, with 0 meaning no limit |
| Paging.WindowUnique | src/services/folder/FolderService.ts:152-153 | a sequence that is the window at `skip` of some documents is what `.skip().limit()` returns |
| Paging.PagesArePrefix | src/services/folder/FolderService.ts:148-153 | pages 1 to k of a positive limit, read in order, are the first `k*limit` documents, each once, and all of them once `k*limit` reaches the count |
| Paging.WindowsTile | src/services/folder/FolderService.ts:148-153 | each page of a positive limit holds at most `limit` entries, and a short page is the last non-empty one |
| Strings.FirstSegment | src/utils/dateFormatter.ts:14 | `split(c)[0]` is the `c`-free prefix that stops at the first `c`, or all of a string without `c` |
| Strings.LastSegment | src/middleware/validateFileType.ts:10 | `split(c).pop()` is the `c`-free suffix after the last `c`, or all of a string without `c` |
| Strings.ReplaceFirst | src/services/folder/FolderService.ts:208 | `replace(pattern, rep)` leaves a string without the pattern unchanged, and otherwise swaps the pattern's first occurrence for `rep`, keeping the text around it |
| Strings.Join | src/middleware/validateFileType.ts:12 | `join(sep)` of nothing is empty and of one entry is that entry; it starts with the first entry, and its length is the entries' total plus one separator between each two |
| Strings.JoinAppend | src/middleware/validateFileType.ts:12 | one more entry adds the separator and that entry at the end |
| Strings.ReplaceFirstPrefix | src/services/folder/FolderService.ts:208 | `replace` on a string that starts with the pattern swaps exactly that prefix |
| Strings.ReplaceFirstChar | src/utils/dateFormatter.ts:14 | `replace('T', ' ')` swaps only the first `T` |

## Left out

- Networking, Express routing, controllers, Swagger, logging and the Redis
  and MinIO clients are not modelled. Logging calls are dropped.
- `formatDate` depends on the `zh-CN` locale and is not modelled.
- The converter's `calculateBounds` and `extractStyles` are left out. The
  former uses floating point and the latter is only a wrapper. Geometries,
  attributes and blocks are modelled as the empty lists the code produces.
- `DWGConverter`, `ODAConverter` and `DataOptimizer` are not part of this
  model.
- The worker runs the converter and `JSON.stringify` as one parameter,
  `Env.convert`, from bytes to bytes. The `IConverter` contract takes a file
  path, while the worker passes it a buffer. That type mismatch is not
  modelled.
- `StorageService` declares no `getFile`. The blob read in the worker and in
  `getConvertedFile` is modelled as a map lookup whose miss throws the
  message `downloadFile` of `MinioService.ts` throws. Saving the converted
  blob is a map update, and a failing save is the parameter
  `Env.saveError`.
- `FileService` declares no `updateFileStatus`. `Conversion.SetStatus`
  stands for the status write the worker evidently intends.
- The converted-file record built in the worker (id `<id>_converted`,
  metadata, layer names) is never stored, so it is not modelled.
- From Bull, the following are not modelled: priorities, timeouts, delays,
  backoff, job locks, stalled-job detection, concurrency and event
  listeners. Jobs run one at a time, first waiting job first. `getJobs`
  keeps store order within a state.
- Bull job ids are strings drawn from a counter. The model uses the counter
  value.
- Uuids and `new Date()` are parameters (`freshId`, `now`). A fresh id is
  required to be unused. Dates are integers, and a `Date` is represented by
  the ISO text of `toISOString`.
- Decoding a latin1 file name as UTF-8 is a parameter,
  `decode: string -> Option<string>`. `None` is a decode that throws.
- `toLowerCase` is modelled for ASCII letters only.
- The converter's numbers (colour index, line weight, text height, line
  pattern) are modelled as integers, not JavaScript numbers. A fractional
  colour index, which `convertColor` maps to `#FFFFFF` like any other
  unknown index, cannot be expressed.
- `String.replace` treats `$` patterns in the replacement specially. The
  model does not.
- The MongoDB `$regex` in `updateChildrenPaths` is taken as a literal
  prefix. Regular-expression metacharacters in a path are not modelled.
- Equal sort keys may come out of MongoDB in any order. The model fixes one
  order (insertion sort, stable), so the page lemmas speak of that order.
  Which of several equally named entries falls on which page is not a
  property of the source.
- `StorageService.saveFile` (src/services/storage/StorageService.ts:23-42)
  ignores the buffer it is given: it renames the file at `file.path` to a
  fresh `<uuid>.json` in the upload directory. The worker passes a buffer
  with path `converted/<id>/data.json`, so, as written, the converted bytes
  never reach `outputPath`. The model stores them at `outputPath`, as the
  worker evidently intends. `ConvertThenDownload` rests on that choice.
- Folders.RenameFolder: accepts an empty name. In the source,
  `renameFolder` to an empty name fails the schema's `required` check at
  `folder.save()`, after `updateChildrenPaths` has already rewritten the
  descendants' paths. A result that carries such a partial write is not
  modelled.
- The folder service's file queries use the file schema of
  src/models/file.model.ts, while the file service registers its own,
  fuller schema under the same model name `File`
  (src/services/file/FileService.ts:33-55). Both are modelled as one file
  collection with the fuller document. Mongoose's refusal to register one
  model name twice is not modelled.
- Files.CountFiles: its own contract gives only bounds. The link to the
  listing is stated by `Files.ListAllMatchesCount`.
- multer's `LIMIT_FILE_COUNT` path is not reachable with `.single('file')`,
  so it is not modelled. A second file is `LIMIT_UNEXPECTED_FILE`, as
  multer reports it.

## Findings

| source | as written | input that shows it | evidently intended | confidence | as-written member | corrected member |
|---|---|---|---|---|---|---|
| src/services/converter/ConversionService.ts:158-161 | `job.progress(0)` is the setter: it stores progress 0 and resolves to a non-number, so the status reports progress 0 and erases the progress the worker wrote | a job the worker left at progress 60 (job 7 in `StatusAsWrittenExample`): the reply says 0 and the job now records 0 | read the progress without writing it and report the stored value | not executed | Conversion.StatusAsWritten, ConversionProperties.StatusAsWrittenLosesProgress | Conversion.Report | src/services/converter/ConversionService.ts:166-171 | the reply carries the job's id and the data's file id, attempts, limits and dates; the spread data's own status and progress are overridden by the queue state's name and the progress read |
| Conversion.GetConversionStatus |

=== FILE: conversion.dfy ===
/** The conversion service of src/services/converter/ConversionService.ts:
    starting a conversion job, the worker that runs it, and the status,
    retry, download, delete and start-up cleanup operations, over the job
    queue, the file collection and a blob store. */
module Conversion {
  import opened Errors
  import opened Models
  import opened Files
  import JobQueue

  newtype byte = x: int | 0 <= x < 256
  type Bytes = seq<byte>

  type Job = JobQueue.Job
  type Queue = JobQueue.Queue

  const DefaultMaxAttempts := 3
  const DefaultTimeout := 300000

  /** Everything the service reads and writes: the Bull queue, the file
      documents and the stored blobs by path. */
  datatype Service = Service(queue: Queue, files: seq<FileDoc>, blobs: map<string, Bytes>)

  datatype ConversionOptions = ConversionOptions(maxAttempts: Option<int>, timeout: Option<int>, priority: Option<int>)

  /** JavaScript `value || fallback` for an optional number: a missing
      value and `0` both give the fallback. */
  function OrDefault(value: Option<int>, fallback: int): (r: int)
    ensures value.Some? && value.value != 0 ==> r == value.value
    ensures value.None? || value.value == 0 ==> r == fallback
  {
    if value.Some? && value.value != 0 then value.value else fallback
  }

  /** A job in one of the states the duplicate check looks at. */
  predicate InFlight(j: Job) {
    j.state == JobQueue.Active || j.state == JobQueue.Waiting || j.state == JobQueue.Delayed
  }

  const InFlightStates := [JobQueue.Active, JobQueue.Waiting, JobQueue.Delayed]

  /** `jobs.find(job => job.data.fileId === fileId)` */
  function FirstForFile(jobs: seq<Job>, fileId: string): (r: Option<Job>)
    ensures r.None? <==> forall i :: 0 <= i < |jobs| ==> jobs[i].data.fileId != fileId
    ensures r.Some? ==> r.value in jobs && r.value.data.fileId == fileId
    ensures r.Some? ==> exists k :: FirstOfFileAt(jobs, fileId, k) && jobs[k] == r.value
  {
    if |jobs| == 0 then None
    else if jobs[0].data.fileId == fileId then Some(jobs[0])
    else
      var r := FirstForFile(jobs[1..], fileId);
      if r.None? then r
      else
        var k' :| FirstOfFileAt(jobs[1..], fileId, k') && jobs[1..][k'] == r.value;
        assert FirstOfFileAt(jobs, fileId, k' + 1) by {
          forall i | 0 < i < k' + 1 ensures jobs[i].data.fileId != fileId {
            assert jobs[i] == jobs[1..][i - 1];
          }
        }
        r
  }

  /** `jobs[k]` is the first job of the file in `jobs`. */
  predicate FirstOfFileAt(jobs: seq<Job>, fileId: string, k: int) {
    0 <= k < |jobs| && jobs[k].data.fileId == fileId && forall i :: 0 <= i < k ==> jobs[i].data.fileId != fileId
  }

  /** Where `getJobs(['active', 'waiting', 'delayed'])` lists a job's
      state: active jobs first, then waiting, then delayed. */
  function InFlightRank(s: JobQueue.JobState): nat {
    match s
    case Active => 0
    case Waiting => 1
    case _ => 2
  }

  /** `jobs[k]` is the in-flight job of the file that the duplicate check
      meets first: none of the file's in-flight jobs lies in an earlier
      state of the listing, or earlier in the store within its state. */
  ghost predicate FirstInFlight(jobs: seq<Job>, fileId: string, k: int) {
    && 0 <= k < |jobs| && InFlight(jobs[k]) && jobs[k].data.fileId == fileId
    && forall i :: 0 <= i < |jobs| && InFlight(jobs[i]) && jobs[i].data.fileId == fileId ==>
         InFlightRank(jobs[k].state) < InFlightRank(jobs[i].state)
         || (jobs[i].state == jobs[k].state && k <= i)
  }

  lemma FirstForFileAppend(a: seq<Job>, b: seq<Job>, fileId: string)
    ensures FirstForFile(a + b, fileId) == if FirstForFile(a, fileId).Some? then FirstForFile(a, fileId) else FirstForFile(b, fileId)
    decreases |a|
  {
    if |a| == 0 {
      assert a + b == b;
    } else {
      assert (a + b)[1..] == a[1..] + b;
      FirstForFileAppend(a[1..], b, fileId);
    }
  }

  /** `jobs[k]` is the first job in the store that is in state `s` and
      belongs to the file. */
  ghost predicate FirstInStateAt(jobs: seq<Job>, s: JobQueue.JobState, fileId: string, k: int) {
    && 0 <= k < |jobs| && jobs[k].state == s && jobs[k].data.fileId == fileId
    && forall i :: 0 <= i < k && jobs[i].state == s ==> jobs[i].data.fileId != fileId
  }

  /** No job of the file is found among the jobs in state `s` exactly when
      none is in that state. */
  lemma NoneInState(jobs: seq<Job>, s: JobQueue.JobState, fileId: string)
    ensures FirstForFile(JobQueue.InState(jobs, s), fileId).None? <==>
      forall i :: 0 <= i < |jobs| && jobs[i].state == s ==> jobs[i].data.fileId != fileId
  {
    var xs := JobQueue.InState(jobs, s);
    if FirstForFile(xs, fileId).Some? {
      var x := FirstForFile(xs, fileId).value;
      var i :| 0 <= i < |jobs| && jobs[i] == x;
    } else {
      forall i | 0 <= i < |jobs| && jobs[i].state == s ensures jobs[i].data.fileId != fileId {
        assert jobs[i] in xs;
      }
    }
  }

  /** The first job of the file among the jobs in state `s` is the first
      one in the store that is in that state and belongs to the file. */
  lemma {:induction false} FirstInState(jobs: seq<Job>, s: JobQueue.JobState, fileId: string)
    requires FirstForFile(JobQueue.InState(jobs, s), fileId).Some?
    ensures exists k :: FirstInStateAt(jobs, s, fileId, k) && jobs[k] == FirstForFile(JobQueue.InState(jobs, s), fileId).value
    decreases |jobs|
  {
    var xs := JobQueue.InState(jobs, s);
    var f := FirstForFile(xs, fileId);
    var head := if jobs[0].state == s then [jobs[0]] else [];
    var rest := JobQueue.InState(jobs[1..], s);
    assert xs == head + rest;
    FirstForFileAppend(head, rest, fileId);
    if jobs[0].state == s && jobs[0].data.fileId == fileId {
      assert FirstForFile(head, fileId) == Some(jobs[0]);
      assert FirstInStateAt(jobs, s, fileId, 0);
    } else {
      assert FirstForFile(head, fileId).None? by {
        if jobs[0].state == s { assert head[1..] == []; }
      }
      FirstInState(jobs[1..], s, fileId);
      var k' :| FirstInStateAt(jobs[1..], s, fileId, k') && jobs[1..][k'] == f.value;
      assert FirstInStateAt(jobs, s, fileId, k' + 1) by {
        forall i | 0 < i < k' + 1 && jobs[i].state == s ensures jobs[i].data.fileId != fileId {
          assert jobs[i] == jobs[1..][i - 1];
        }
      }
    }
  }

  /** `getJobs(['active', 'waiting', 'delayed'])` lists the active jobs,
      then the waiting ones, then the delayed ones. */
  lemma InFlightListing(q: Queue)
    ensures JobQueue.GetJobs(q, InFlightStates) ==
      JobQueue.InState(q.jobs, JobQueue.Active) + (JobQueue.InState(q.jobs, JobQueue.Waiting) + JobQueue.InState(q.jobs, JobQueue.Delayed))
  {
    var st := InFlightStates;
    var del := JobQueue.InState(q.jobs, JobQueue.Delayed);
    assert st[0] == JobQueue.Active && st[1..][0] == JobQueue.Waiting && st[1..][1..][0] == JobQueue.Delayed;
    assert |st[1..][1..][1..]| == 0;
    assert JobQueue.GetJobs(q, st[1..][1..]) == del + [];
    assert del + [] == del;
  }

  /** The duplicate check looks among the active jobs first, then the
      waiting ones, then the delayed ones. */
  lemma InFlightSearch(q: Queue, fileId: string)
    ensures var fa := FirstForFile(JobQueue.InState(q.jobs, JobQueue.Active), fileId);
      var fw := FirstForFile(JobQueue.InState(q.jobs, JobQueue.Waiting), fileId);
      var fd := FirstForFile(JobQueue.InState(q.jobs, JobQueue.Delayed), fileId);
      FirstForFile(JobQueue.GetJobs(q, InFlightStates), fileId) == if fa.Some? then fa else if fw.Some? then fw else fd
  {
    var act := JobQueue.InState(q.jobs, JobQueue.Active);
    var wai := JobQueue.InState(q.jobs, JobQueue.Waiting);
    var del := JobQueue.InState(q.jobs, JobQueue.Delayed);
    InFlightListing(q);
    FirstForFileAppend(act, wai + del, fileId);
    FirstForFileAppend(wai, del, fileId);
  }

  /** The duplicate check finds nothing exactly when the file has no
      in-flight job. */
  lemma NoneInFlight(q: Queue, fileId: string)
    ensures FirstForFile(JobQueue.GetJobs(q, InFlightStates), fileId).None? <==>
      forall i :: 0 <= i < |q.jobs| && InFlight(q.jobs[i]) ==> q.jobs[i].data.fileId != fileId
  {
    var jobs := q.jobs;
    InFlightSearch(q, fileId);
    NoneInState(jobs, JobQueue.Active, fileId);
    NoneInState(jobs, JobQueue.Waiting, fileId);
    NoneInState(jobs, JobQueue.Delayed, fileId);
    if FirstForFile(JobQueue.GetJobs(q, InFlightStates), fileId).None? {
      forall i | 0 <= i < |jobs| && InFlight(jobs[i]) ensures jobs[i].data.fileId != fileId {
        assert jobs[i].state == JobQueue.Active || jobs[i].state == JobQueue.Waiting || jobs[i].state == JobQueue.Delayed;
      }
    }
  }

  /** The first job of the file in an in-flight state `s`, when the
      earlier states hold no job of the file, is first in the listing. */
  lemma RankedFirst(jobs: seq<Job>, fileId: string, s: JobQueue.JobState, f: Job)
    requires s == JobQueue.Active || s == JobQueue.Waiting || s == JobQueue.Delayed
    requires FirstForFile(JobQueue.InState(jobs, s), fileId) == Some(f)
    requires s != JobQueue.Active ==> FirstForFile(JobQueue.InState(jobs, JobQueue.Active), fileId).None?
    requires s == JobQueue.Delayed ==> FirstForFile(JobQueue.InState(jobs, JobQueue.Waiting), fileId).None?
    ensures exists k :: FirstInFlight(jobs, fileId, k) && jobs[k] == f
  {
    FirstInState(jobs, s, fileId);
    var k :| FirstInStateAt(jobs, s, fileId, k) && jobs[k] == f;
    forall i | 0 <= i < |jobs| && InFlight(jobs[i]) && jobs[i].data.fileId == fileId
      ensures InFlightRank(s) < InFlightRank(jobs[i].state) || (jobs[i].state == s && k <= i)
    {
      var t := jobs[i].state;
      if t == s {
      } else if t == JobQueue.Active {
        NoneInState(jobs, JobQueue.Active, fileId);
      } else if t == JobQueue.Waiting && s == JobQueue.Delayed {
        NoneInState(jobs, JobQueue.Waiting, fileId);
      }
    }
  }

  /** What the duplicate check finds is the file's first in-flight job in
      the listing order: by state, then by place in the store. */
  lemma FirstInFlightFound(q: Queue, fileId: string)
    requires FirstForFile(JobQueue.GetJobs(q, InFlightStates), fileId).Some?
    ensures exists k :: FirstInFlight(q.jobs, fileId, k) && q.jobs[k] == FirstForFile(JobQueue.GetJobs(q, InFlightStates), fileId).value
  {
    var jobs := q.jobs;
    var f := FirstForFile(JobQueue.GetJobs(q, InFlightStates), fileId).value;
    var fa := FirstForFile(JobQueue.InState(jobs, JobQueue.Active), fileId);
    var fw := FirstForFile(JobQueue.InState(jobs, JobQueue.Waiting), fileId);
    InFlightSearch(q, fileId);
    if fa.Some? {
      RankedFirst(jobs, fileId, JobQueue.Active, f);
    } else if fw.Some? {
      RankedFirst(jobs, fileId, JobQueue.Waiting, f);
    } else {
      RankedFirst(jobs, fileId, JobQueue.Delayed, f);
    }
  }

  datatype Started = Started(service: Service, jobId: nat)

  /** `startConversion(fileId, options)` at time `now`. */
  function StartConversion(svc: Service, fileId: string, options: ConversionOptions, now: int): (r: Result<Started>)
    ensures GetFile(svc.files, fileId).None? <==> r == Fail(404, "File not found")
    ensures r.Ok? ==> r.value.service.files == svc.files && r.value.service.blobs == svc.blobs
    ensures GetFile(svc.files, fileId).Some? && (exists j :: j in svc.queue.jobs && InFlight(j) && j.data.fileId == fileId) ==>
      && r.Ok? && r.value.service == svc
      && exists j :: j in svc.queue.jobs && InFlight(j) && j.data.fileId == fileId && j.id == r.value.jobId
    // with several in-flight jobs of the file, the first in the listing order
    ensures GetFile(svc.files, fileId).Some? && (exists j :: j in svc.queue.jobs && InFlight(j) && j.data.fileId == fileId) ==>
      exists k :: FirstInFlight(svc.queue.jobs, fileId, k) && svc.queue.jobs[k].id == r.value.jobId
    ensures GetFile(svc.files, fileId).Some? && !(exists j :: j in svc.queue.jobs && InFlight(j) && j.data.fileId == fileId) ==>
      && r.Ok?
      && r.value.jobId == svc.queue.nextId
      && var q' := r.value.service.queue;
      && q'.nextId == svc.queue.nextId + 1
      && |q'.jobs| == |svc.queue.jobs| + 1
      && q'.jobs == svc.queue.jobs + [q'.jobs[|svc.queue.jobs|]]
      && var j := q'.jobs[|svc.queue.jobs|];
      && j.id == r.value.jobId && j.state == JobQueue.Waiting && j.attemptsMade == 0
      && j.data == JobQueue.JobData(fileId, "pending", 0, 0, OrDefault(options.maxAttempts, DefaultMaxAttempts), now, now)
      && j.opts.attempts == j.data.maxAttempts
      && j.opts.timeout == OrDefault(options.timeout, DefaultTimeout)
      && j.opts.priority == options.priority
      && !j.opts.removeOnComplete && !j.opts.removeOnFail
  {
    if GetFile(svc.files, fileId).None? then Fail(404, "File not found")
    else
      var existing := JobQueue.GetJobs(svc.queue, InFlightStates);
      NoneInFlight(svc.queue, fileId);
      match FirstForFile(existing, fileId)
      case Some(j) => FirstInFlightFound(svc.queue, fileId); Ok(Started(svc, j.id))
      case None =>
        var maxAttempts := OrDefault(options.maxAttempts, DefaultMaxAttempts);
        var data := JobQueue.JobData(fileId, "pending", 0, 0, maxAttempts, now, now);
        var opts := JobQueue.JobOptions(maxAttempts, OrDefault(options.timeout, DefaultTimeout), options.priority, false, false);
        var added := JobQueue.Add(svc.queue, data, opts);
        Ok(Started(svc.(queue := added.queue), added.job.id))
  }

  // The worker

  /** How one progress checkpoint write goes: `job.progress(p)` may throw
      (and then `job.update` is skipped), or `job.update(...)` may throw. */
  datatype CheckpointFault = NoFault | ProgressThrows | UpdateThrows

  /** The collaborators of the worker.  `convert` stands for the converter
      followed by `JSON.stringify`; `saveError` is the message the blob
      store throws on save, if it does; `fault` says how the write at each
      checkpoint goes. */
  datatype Env = Env(convert: Bytes -> Result<Bytes>, saveError: Option<string>, fault: int -> CheckpointFault)

  /** `updateJobProgress(job, progress)`: a failed write is swallowed, so
      the result is a job, never an error. */
  function Checkpoint(j: Job, progress: int, fault: CheckpointFault, now: int): (k: Job)
    ensures k.id == j.id && k.state == j.state && k.opts == j.opts && k.attemptsMade == j.attemptsMade
    ensures k.returnValue == j.returnValue && k.failedReason == j.failedReason
    ensures k.progress == (if fault == ProgressThrows then j.progress else progress)
    ensures k.data == (if fault == NoFault then j.data.(progress := progress, updatedAt := now) else j.data)
  {
    match fault
    case ProgressThrows => j
    case UpdateThrows => j.(progress := progress)
    case NoFault => j.(progress := progress, data := j.data.(progress := progress, updatedAt := now))
  }

  /** The file status write the worker performs.  FileService.ts declares
      no `updateFileStatus`; this is the write it evidently stands for:
      the status of the document with that id, nothing else. */
  function SetStatus(files: seq<FileDoc>, fileId: string, status: FileStatus): (r: seq<FileDoc>)
    ensures |r| == |files|
    ensures FindFile(files, fileId).None? ==> r == files
    ensures FindFile(files, fileId).Some? ==>
      var k := FindFile(files, fileId).value;
      r == files[k := files[k].(status := status)]
  {
    match FindFile(files, fileId)
    case None => files
    case Some(k) => files[k := files[k].(status := status)]
  }

  datatype Event = Mark(progress: int) | StatusWrite(status: FileStatus)

  datatype Run = Run(job: Job, files: seq<FileDoc>, blobs: map<string, Bytes>, trace: seq<Event>)
  datatype Outcome = Outcome(run: Run, result: Result<JobQueue.JobResult>)

  function BlobMissing(path: string): string { "File not found in storage: " + path }

  function OutputPath(fileId: string): string { "converted/" + fileId + "/data.json" }

  /** A checkpoint of the run: the job's progress is written and the
      mark recorded; files and blobs stay. */
  function Step(r: Run, progress: int, env: Env, now: int): (r': Run)
    ensures r'.trace == r.trace + [Mark(progress)] && r'.files == r.files && r'.blobs == r.blobs
  {
    r.(job := Checkpoint(r.job, progress, env.fault(progress), now), trace := r.trace + [Mark(progress)])
  }

  /** The `catch` of the worker: the file is marked failed and the error
      re-thrown. */
  function Abort(r: Run, fileId: string, e: Thrown): (o: Outcome)
    ensures o.result == Err(e)
    ensures o.run.trace == r.trace + [StatusWrite(Failed)]
    ensures o.run.job == r.job && o.run.blobs == r.blobs
  {
    Outcome(r.(files := SetStatus(r.files, fileId, Failed), trace := r.trace + [StatusWrite(Failed)]), Err(e))
  }

  /** The processing function registered in `initializeQueue`, run on job
      `j` at time `now`. */
  function Pipeline(env: Env, j: Job, files: seq<FileDoc>, blobs: map<string, Bytes>, now: int): (o: Outcome)
    ensures o.run.job.id == j.id && o.run.job.state == j.state && o.run.job.opts == j.opts
    ensures o.run.job.attemptsMade == j.attemptsMade
    ensures o.run.job.data.fileId == j.data.fileId
  {
    var fileId := j.data.fileId;
    var r0 := Step(Run(j, files, blobs, []), 0, env, now);
    match GetFile(files, fileId)
    case None => Abort(r0, fileId, Plain("File not found: " + fileId))
    case Some(file) =>
      if file.path !in blobs then Abort(r0, fileId, Plain(BlobMissing(file.path)))
      else
        var r1 := Step(r0, 20, env, now);
        match env.convert(blobs[file.path])
        case Err(e) => Abort(r1, fileId, e)
        case Ok(json) =>
          var r2 := Step(r1, 60, env, now);
          var outputPath := OutputPath(file.id);
          match env.saveError
          case Some(m) => Abort(r2, fileId, Plain(m))
          case None =>
            var r3 := Step(r2.(blobs := r2.blobs[outputPath := json]), 80, env, now);
            var r4 := r3.(files := SetStatus(r3.files, fileId, Completed), trace := r3.trace + [StatusWrite(Completed)]);
            var r5 := Step(r4, 100, env, now);
            Outcome(r5, Ok(JobQueue.JobResult("completed", Some(outputPath))))
  }

  /** The first waiting job, the one the worker takes next. */
  function NextWaiting(jobs: seq<Job>): (k: Option<nat>)
    ensures k.None? <==> forall i :: 0 <= i < |jobs| ==> jobs[i].state != JobQueue.Waiting
    ensures k.Some? ==> k.value < |jobs| && jobs[k.value].state == JobQueue.Waiting
    ensures k.Some? ==> forall i :: 0 <= i < k.value ==> jobs[i].state != JobQueue.Waiting
  {
    if |jobs| == 0 then None
    else if jobs[0].state == JobQueue.Waiting then Some(0)
    else match NextWaiting(jobs[1..])
      case None => None
      case Some(k) => Some(k + 1)
  }

  /** The queue takes the next waiting job, makes it active, runs the
      worker on it and settles it with the worker's outcome. */
  function Process(svc: Service, env: Env, now: int): (r: Service)
    ensures |r.queue.jobs| == |svc.queue.jobs| && r.queue.nextId == svc.queue.nextId
    ensures NextWaiting(svc.queue.jobs).None? ==> r == svc
    ensures NextWaiting(svc.queue.jobs).Some? ==>
      var k := NextWaiting(svc.queue.jobs).value;
      && (forall i :: 0 <= i < |svc.queue.jobs| && i != k ==> r.queue.jobs[i] == svc.queue.jobs[i])
      && r.queue.jobs[k].id == svc.queue.jobs[k].id
      && r.queue.jobs[k].data.fileId == svc.queue.jobs[k].data.fileId
      && r.queue.jobs[k].state != JobQueue.Active
  {
    match NextWaiting(svc.queue.jobs)
    case None => svc
    case Some(k) =>
      var j := svc.queue.jobs[k].(state := JobQueue.Active);
      var o := Pipeline(env, j, svc.files, svc.blobs, now);
      var settled := match o.result
        case Ok(v) => JobQueue.Complete(o.run.job, v)
        case Err(e) => JobQueue.FailAttempt(o.run.job, e.Message());
      Service(svc.queue.(jobs := svc.queue.jobs[k := settled]), o.run.files, o.run.blobs)
  }

  // Status, retry, download, delete, cleanup

  /** The `ConversionJob` that `getConversionStatus` returns: the job's
      data with the queue state as status and the progress read. */
  datatype ConversionJob = ConversionJob(
    id: nat, fileId: string, status: string, progress: int, attempts: int, maxAttempts: int,
    createdAt: int, updatedAt: int)

  function Report(j: Job, progress: int): (c: ConversionJob)
    ensures c.id == j.id && c.fileId == j.data.fileId
    ensures c.attempts == j.data.attempts && c.maxAttempts == j.data.maxAttempts
    ensures c.createdAt == j.data.createdAt && c.updatedAt == j.data.updatedAt
    // the spread data's own status and progress are overridden
    ensures c.status == JobQueue.StateName(j.state) && c.progress == progress
  {
    ConversionJob(j.id, j.data.fileId, JobQueue.StateName(j.state), progress,
      j.data.attempts, j.data.maxAttempts, j.data.createdAt, j.data.updatedAt)
  }

  datatype StatusReply = StatusReply(queue: Queue, job: Option<ConversionJob>)

  /** `getConversionStatus(jobId)` as written: `job.progress(0)` stores
      progress 0 and resolves to something that is not a number, so the
      reported progress is always 0. */
  function StatusAsWritten(q: Queue, jobId: nat): (r: StatusReply)
    ensures JobQueue.GetJob(q, jobId).None? ==> r == StatusReply(q, None)
    ensures JobQueue.GetJob(q, jobId).Some? ==>
      && r.queue == JobQueue.Update(q, jobId, (j: Job) => j.(progress := 0))
      && r.job == Some(Report(JobQueue.GetJob(q, jobId).value, 0))
  {
    match JobQueue.GetJob(q, jobId)
    case None => StatusReply(q, None)
    case Some(j) => StatusReply(JobQueue.Update(q, jobId, (j: Job) => j.(progress := 0)), Some(Report(j, 0)))
  }

  /** `getConversionStatus(jobId)` as intended: the progress is read, not
      written, and the queue is left alone. */
  function GetConversionStatus(q: Queue, jobId: nat): (r: Option<ConversionJob>)
    ensures r.None? <==> JobQueue.GetJob(q, jobId).None?
    ensures r.Some? ==> r.value.id == jobId
    ensures r.Some? ==> exists j :: j in q.jobs && j.id == jobId && r.value == Report(j, j.progress)
  {
    match JobQueue.GetJob(q, jobId)
    case None => None
    case Some(j) => Some(Report(j, j.progress))
  }

  /** `retryConversion(jobId)` */
  function RetryConversion(svc: Service, jobId: nat): (r: Result<Service>)
    ensures JobQueue.GetJob(svc.queue, jobId).None? ==> r == Fail(404, "Conversion job not found")
    ensures JobQueue.GetJob(svc.queue, jobId).Some? ==>
      && (r.Err? <==> JobQueue.GetJob(svc.queue, jobId).value.state != JobQueue.Failed)
      && (r.Err? ==> r.error == Plain(JobQueue.NotFailedMessage))
    ensures r.Ok? ==> r.value.files == svc.files && r.value.blobs == svc.blobs
  {
    if JobQueue.GetJob(svc.queue, jobId).None? then Fail(404, "Conversion job not found")
    else
      var q :- JobQueue.Retry(svc.queue, jobId);
      Ok(svc.(queue := q))
  }

  /** A call that awaits `job.finished()` returns, throws, or waits for the
      job to settle. */
  datatype Reply<+T> = Returns(value: T) | Fails(error: Thrown) | Waits

  /** The output path a settled result carries, when it is truthy. */
  function ResultPath(v: Option<JobQueue.JobResult>): (p: Option<string>)
    ensures p.Some? <==> v.Some? && Truthy(v.value.outputPath)
    ensures p.Some? ==> p == v.value.outputPath
  {
    if v.Some? && Truthy(v.value.outputPath) then v.value.outputPath else None
  }

  /** `getConvertedFile(jobId)` */
  function GetConvertedFile(svc: Service, jobId: nat): (r: Reply<Bytes>)
    ensures JobQueue.GetJob(svc.queue, jobId).None? ==> r == Fails(Api(ApiError(404, "Conversion job not found")))
    ensures r.Returns? ==>
      exists j :: j in svc.queue.jobs && j.id == jobId && j.state == JobQueue.Completed
        && ResultPath(j.returnValue).Some? && ResultPath(j.returnValue).value in svc.blobs
        && r.value == svc.blobs[ResultPath(j.returnValue).value]
    ensures JobQueue.GetJob(svc.queue, jobId).Some? ==>
      var j := JobQueue.GetJob(svc.queue, jobId).value;
      && (r.Waits? <==> InFlight(j))
      && (j.state == JobQueue.Completed && ResultPath(j.returnValue).None? ==>
            r == Fails(Api(ApiError(400, "Conversion not completed"))))
      && (j.state == JobQueue.Failed ==> r == Fails(Plain(JobQueue.FailureReason(j))))
      && (j.state == JobQueue.Completed && ResultPath(j.returnValue).Some? ==>
            var path := ResultPath(j.returnValue).value;
            && (path in svc.blobs ==> r == Returns(svc.blobs[path]))
            && (path !in svc.blobs ==> r == Fails(Plain(BlobMissing(path)))))
  {
    match JobQueue.GetJob(svc.queue, jobId)
    case None => Fails(Api(ApiError(404, "Conversion job not found")))
    case Some(j) =>
      match JobQueue.Finish(j)
      case Pending => Waits
      case Rejected(reason) => Fails(Plain(reason))
      case Resolved(v) =>
        match ResultPath(v)
        case None => Fails(Api(ApiError(400, "Conversion not completed")))
        case Some(path) =>
          if path in svc.blobs then Returns(svc.blobs[path]) else Fails(Plain(BlobMissing(path)))
  }

  /** `deleteConversion(jobId)`: once the job has settled successfully, its
      output blob (if the result names one) and the job are removed.
      `unlinkError` is the error the blob store throws when unlinking, other
      than a missing file (which it ignores); it stops the delete before
      the job is removed. */
  function DeleteConversion(svc: Service, jobId: nat, unlinkError: Option<string>): (r: Reply<Service>)
    ensures JobQueue.GetJob(svc.queue, jobId).None? ==> r == Fails(Api(ApiError(404, "Conversion job not found")))
    ensures JobQueue.GetJob(svc.queue, jobId).Some? ==>
      var j := JobQueue.GetJob(svc.queue, jobId).value;
      && (r.Waits? <==> InFlight(j))
      && (r.Fails? <==>
            (j.state == JobQueue.Failed || (j.state == JobQueue.Completed && ResultPath(j.returnValue).Some? && unlinkError.Some?)))
      && (j.state == JobQueue.Failed ==> r == Fails(Plain(JobQueue.FailureReason(j))))
      && (j.state == JobQueue.Completed && ResultPath(j.returnValue).Some? && unlinkError.Some? ==>
            r == Fails(Plain(unlinkError.value)))
    ensures r.Returns? ==>
      var j := JobQueue.GetJob(svc.queue, jobId).value;
      && r.value.queue == JobQueue.Remove(svc.queue, jobId)
      && r.value.files == svc.files
      && r.value.blobs == (if ResultPath(j.returnValue).Some? then svc.blobs - {ResultPath(j.returnValue).value} else svc.blobs)
  {
    match JobQueue.GetJob(svc.queue, jobId)
    case None => Fails(Api(ApiError(404, "Conversion job not found")))
    case Some(j) =>
      match JobQueue.Finish(j)
      case Pending => Waits
      case Rejected(reason) => Fails(Plain(reason))
      case Resolved(v) =>
        match ResultPath(v)
        case None => Returns(Service(JobQueue.Remove(svc.queue, jobId), svc.files, svc.blobs))
        case Some(path) =>
          if unlinkError.Some? then Fails(Plain(unlinkError.value))
          else Returns(Service(JobQueue.Remove(svc.queue, jobId), svc.files, svc.blobs - {path}))
  }

  /** `cleanOldJobs()` at start-up: every active, waiting, delayed and
      failed job is removed.  Job ids are unique, as Bull keeps them. */
  function CleanOldJobs(q: Queue): (r: Queue)
    requires JobQueue.IdsUnique(q.jobs)
    ensures r.nextId == q.nextId
    ensures forall x :: x in r.jobs <==> x in q.jobs && x.state == JobQueue.Completed
  {
    var doomed := JobQueue.GetJobs(q, [JobQueue.Active, JobQueue.Waiting, JobQueue.Delayed, JobQueue.Failed]);
    DoomedAreTheRest(q.jobs, doomed);
    RemoveEach(q, doomed)
  }

  /** With unique ids, a job is spared by id exactly when it is completed. */
  lemma DoomedAreTheRest(jobs: seq<Job>, doomed: seq<Job>)
    requires JobQueue.IdsUnique(jobs)
    requires forall x :: x in doomed <==> x in jobs && x.state != JobQueue.Completed
    ensures forall x :: x in jobs ==>
      (x.state == JobQueue.Completed <==> forall i :: 0 <= i < |doomed| ==> x.id != doomed[i].id)
  {
    forall x | x in jobs
      ensures x.state == JobQueue.Completed <==> forall i :: 0 <= i < |doomed| ==> x.id != doomed[i].id
    {
      if x.state != JobQueue.Completed {
        var i :| 0 <= i < |doomed| && doomed[i] == x;
      } else {
        SameIdSameJob(jobs, x, doomed);
      }
    }
  }

  lemma SameIdSameJob(jobs: seq<Job>, x: Job, doomed: seq<Job>)
    requires JobQueue.IdsUnique(jobs)
    requires x in jobs && forall y :: y in doomed ==> y in jobs && y.state != x.state
    ensures forall i :: 0 <= i < |doomed| ==> x.id != doomed[i].id
  {
    forall i | 0 <= i < |doomed| ensures x.id != doomed[i].id {
      var a :| 0 <= a < |jobs| && jobs[a] == x;
      var b :| 0 <= b < |jobs| && jobs[b] == doomed[i];
      assert a != b;
    }
  }

  /** `for (const job of jobs) await job.remove()` */
  function RemoveEach(q: Queue, doomed: seq<Job>): (r: Queue)
    ensures r.nextId == q.nextId
    ensures forall x :: x in r.jobs <==> x in q.jobs && forall i :: 0 <= i < |doomed| ==> x.id != doomed[i].id
    decreases |doomed|
  {
    if |doomed| == 0 then q
    else RemoveEach(JobQueue.Remove(q, doomed[0].id), doomed[1..])
  }
}

=== FILE: conversion_props.dfy ===
/** Properties of the conversion service that relate several calls: the
    duplicate check, the one-job-per-file rule, the worker's checkpoint
    order, download after a successful run, deletion and start-up cleanup. */
module ConversionProperties {
  import opened Errors
  import opened Models
  import opened Files
  import JobQueue
  import opened Conversion

  /** No two jobs waiting or running for the same file. */
  ghost predicate AtMostOneInFlight(q: Queue) {
    forall i, j :: 0 <= i < j < |q.jobs| && InFlight(q.jobs[i]) && InFlight(q.jobs[j]) ==>
      q.jobs[i].data.fileId != q.jobs[j].data.fileId
  }

  /** Asking twice for the same file yields the same job and the second
      call changes nothing. */
  lemma StartTwiceSameJob(svc: Service, fileId: string, o1: ConversionOptions, o2: ConversionOptions, t1: int, t2: int)
    requires StartConversion(svc, fileId, o1, t1).Ok?
    ensures var s1 := StartConversion(svc, fileId, o1, t1).value;
      var s2 := StartConversion(s1.service, fileId, o2, t2);
      s2 == Ok(Started(s1.service, s1.jobId))
  {
    var s1 := StartConversion(svc, fileId, o1, t1).value;
    var existing := JobQueue.GetJobs(svc.queue, InFlightStates);
    var existing1 := JobQueue.GetJobs(s1.service.queue, InFlightStates);
    match FirstForFile(existing, fileId)
    case Some(j) =>
    case None =>
      var q := svc.queue;
      var q1 := s1.service.queue;
      var nj := q1.jobs[|q.jobs|];
      assert nj in q1.jobs && InFlight(nj);
      assert forall x :: x in existing1 && x.data.fileId == fileId ==> x == nj by {
        forall x | x in existing1 && x.data.fileId == fileId ensures x == nj {
          assert x in q1.jobs;
          assert x in q.jobs ==> x in existing;
        }
      }
      assert nj in existing1;
  }

  /** `startConversion` keeps at most one waiting or running job per file. */
  lemma StartKeepsOneInFlight(svc: Service, fileId: string, options: ConversionOptions, now: int)
    requires AtMostOneInFlight(svc.queue)
    requires StartConversion(svc, fileId, options, now).Ok?
    ensures AtMostOneInFlight(StartConversion(svc, fileId, options, now).value.service.queue)
  {
    var q := svc.queue;
    var q1 := StartConversion(svc, fileId, options, now).value.service.queue;
    if q1 != q {
      assert !(exists j :: j in q.jobs && InFlight(j) && j.data.fileId == fileId);
      forall i, j | 0 <= i < j < |q1.jobs| && InFlight(q1.jobs[i]) && InFlight(q1.jobs[j])
        ensures q1.jobs[i].data.fileId != q1.jobs[j].data.fileId
      {
        if j == |q.jobs| {
          assert q1.jobs[i] == q.jobs[i];
          assert q.jobs[i] in q.jobs;
        }
      }
    }
  }

  /** Running the worker keeps at most one waiting or running job per
      file: it only moves the job it took out of the active state. */
  lemma ProcessKeepsOneInFlight(svc: Service, env: Env, now: int)
    requires AtMostOneInFlight(svc.queue)
    ensures AtMostOneInFlight(Process(svc, env, now).queue)
  {
    var q1 := Process(svc, env, now).queue;
    match NextWaiting(svc.queue.jobs)
    case None =>
    case Some(k) =>
      forall i, j | 0 <= i < j < |q1.jobs| && InFlight(q1.jobs[i]) && InFlight(q1.jobs[j])
        ensures q1.jobs[i].data.fileId != q1.jobs[j].data.fileId
      {
        assert InFlight(svc.queue.jobs[i]) && InFlight(svc.queue.jobs[j]);
      }
  }

  /** Retrying a failed job does not look for other jobs of its file: when
      the only job of a file has failed and a new conversion of the file
      is started, retrying the failed job leaves two jobs of that file in
      flight. */
  lemma RetryBreaksOneInFlight(svc: Service, fileId: string, k: nat, options: ConversionOptions, now: int)
    requires JobQueue.Valid(svc.queue)
    requires GetFile(svc.files, fileId).Some?
    requires k < |svc.queue.jobs| && svc.queue.jobs[k].state == JobQueue.Failed
    requires svc.queue.jobs[k].data.fileId == fileId
    requires forall x :: x in svc.queue.jobs && InFlight(x) ==> x.data.fileId != fileId
    ensures var s1 := StartConversion(svc, fileId, options, now);
      && s1.Ok? && s1.value.jobId == svc.queue.nextId
      && var s2 := RetryConversion(s1.value.service, svc.queue.jobs[k].id);
      && s2.Ok? && !AtMostOneInFlight(s2.value.queue)
  {
    var jobs := svc.queue.jobs;
    var n := |jobs|;
    var id := jobs[k].id;
    var q1 := StartConversion(svc, fileId, options, now).value.service.queue;
    assert q1.jobs[..n] == jobs;
    assert q1.jobs[k] == jobs[k];
    assert q1.jobs[n].id == svc.queue.nextId != id;
    var kk := JobQueue.Find(q1.jobs, id).value;
    assert kk == k;
    assert JobQueue.GetJob(q1, id) == Some(jobs[k]);
    var q2 := RetryConversion(Service(q1, svc.files, svc.blobs), id).value.queue;
    assert InFlight(q2.jobs[k]) && InFlight(q2.jobs[n]);
  }

  /** With a waiting job of the file stored before an active one, a new
      start returns the active job: the listing puts state before store
      order. */
  lemma StartPrefersActive(svc: Service, fileId: string, options: ConversionOptions, now: int)
    requires GetFile(svc.files, fileId).Some?
    requires |svc.queue.jobs| == 2
    requires svc.queue.jobs[0].state == JobQueue.Waiting && svc.queue.jobs[1].state == JobQueue.Active
    requires svc.queue.jobs[0].data.fileId == fileId && svc.queue.jobs[1].data.fileId == fileId
    ensures StartConversion(svc, fileId, options, now) == Ok(Started(svc, svc.queue.jobs[1].id))
  {
    var jobs := svc.queue.jobs;
    InFlightSearch(svc.queue, fileId);
    assert jobs[1..][0] == jobs[1] && |jobs[1..][1..]| == 0;
    assert JobQueue.InState(jobs[1..][1..], JobQueue.Active) == [];
    assert JobQueue.InState(jobs, JobQueue.Active) == [jobs[1]];
    assert FirstForFile([jobs[1]], fileId) == Some(jobs[1]);
  }

  const SuccessTrace := [Mark(0), Mark(20), Mark(60), Mark(80), StatusWrite(Completed), Mark(100)]

  /** The traces of the runs that fail: before the fetch, in the
      conversion, or in the save. */
  predicate FailureTrace(t: seq<Event>) {
    || t == [Mark(0), StatusWrite(Failed)]
    || t == [Mark(0), Mark(20), StatusWrite(Failed)]
    || t == [Mark(0), Mark(20), Mark(60), StatusWrite(Failed)]
  }

  /** The four ways a run of the worker can go, by the checkpoints and file
      status writes it makes: a successful run marks 0, 20, 60 and 80,
      completes the file and then marks 100; a failed one stops at the
      stage that threw and marks the file failed. */
  lemma PipelineTraces(env: Env, j: Job, files: seq<FileDoc>, blobs: map<string, Bytes>, now: int)
    ensures var o := Pipeline(env, j, files, blobs, now);
      && (o.result.Ok? ==> o.run.trace == SuccessTrace)
      && (o.result.Err? ==> FailureTrace(o.run.trace))
  {
    var fileId := j.data.fileId;
    var r0 := Step(Run(j, files, blobs, []), 0, env, now);
    assert r0.trace == [Mark(0)];
    match GetFile(files, fileId)
    case None =>
    case Some(file) =>
      if file.path in blobs {
        var r1 := Step(r0, 20, env, now);
        assert r1.trace == [Mark(0), Mark(20)];
        match env.convert(blobs[file.path])
        case Err(_) =>
        case Ok(json) =>
          var r2 := Step(r1, 60, env, now);
          assert r2.trace == [Mark(0), Mark(20), Mark(60)];
          if env.saveError.None? {
            var r3 := Step(r2.(blobs := r2.blobs[OutputPath(file.id) := json]), 80, env, now);
            assert r3.trace + [StatusWrite(Completed)] + [Mark(100)] == SuccessTrace;
          }
      }
  }

  /** The progress values a trace checkpoints, in order. */
  function Marks(t: seq<Event>): seq<int> {
    if |t| == 0 then [] else (if t[0].Mark? then [t[0].progress] else []) + Marks(t[1..])
  }

  /** The file statuses a trace writes, in order. */
  function StatusWrites(t: seq<Event>): seq<FileStatus> {
    if |t| == 0 then [] else (if t[0].StatusWrite? then [t[0].status] else []) + StatusWrites(t[1..])
  }

  const Checkpoints := [0, 20, 60, 80, 100]

  ghost predicate StrictlyIncreasing(m: seq<int>) {
    forall i, k :: 0 <= i < k < |m| ==> m[i] < m[k]
  }

  lemma CheckpointPrefixIncreasing(n: nat)
    requires n <= |Checkpoints|
    ensures StrictlyIncreasing(Checkpoints[..n])
  {
    assert forall i :: 0 <= i < |Checkpoints| - 1 ==> Checkpoints[i] < Checkpoints[i + 1];
    StepsIncreasing(Checkpoints[..n]);
  }

  /** Increasing step by step is increasing throughout. */
  lemma {:induction false} StepsIncreasing(m: seq<int>)
    requires forall i :: 0 <= i < |m| - 1 ==> m[i] < m[i + 1]
    ensures StrictlyIncreasing(m)
  {
    if |m| > 1 {
      var rest := m[1..];
      StepsIncreasing(rest);
      forall i, k | 0 <= i < k < |m| ensures m[i] < m[k] {
        if i > 0 {
          assert rest[i - 1] < rest[k - 1];
        } else if k > 1 {
          assert rest[0] < rest[k - 1];
        }
      }
    }
  }

  lemma Unfold(e: Event, t: seq<Event>)
    ensures Marks([e] + t) == (if e.Mark? then [e.progress] else []) + Marks(t)
    ensures StatusWrites([e] + t) == (if e.StatusWrite? then [e.status] else []) + StatusWrites(t)
  {
    assert ([e] + t)[1..] == t;
  }

  lemma FailureTraceParts(t: seq<Event>)
    requires FailureTrace(t)
    ensures 1 <= |Marks(t)| <= 3 && Marks(t) == Checkpoints[..|Marks(t)|]
    ensures StatusWrites(t) == [Failed]
  {
    var w := [StatusWrite(Failed)];
    Unfold(StatusWrite(Failed), []);
    Unfold(Mark(0), w);
    Unfold(Mark(20), w);
    Unfold(Mark(0), [Mark(20)] + w);
    Unfold(Mark(60), w);
    Unfold(Mark(20), [Mark(60)] + w);
    Unfold(Mark(0), [Mark(20)] + ([Mark(60)] + w));
    if t == [Mark(0), StatusWrite(Failed)] {
      assert t == [Mark(0)] + w;
      assert Marks(t) == [0] == Checkpoints[..1];
    } else if t == [Mark(0), Mark(20), StatusWrite(Failed)] {
      assert t == [Mark(0)] + ([Mark(20)] + w);
      assert Marks(t) == [0, 20] == Checkpoints[..2];
    } else {
      assert t == [Mark(0)] + ([Mark(20)] + ([Mark(60)] + w));
      assert Marks(t) == [0, 20, 60] == Checkpoints[..3];
    }
  }

  lemma SuccessTraceParts()
    ensures Marks(SuccessTrace) == Checkpoints
    ensures StatusWrites(SuccessTrace) == [Completed]
  {
    var t5 := [Mark(100)];
    var t4 := [StatusWrite(Completed)] + t5;
    var t3 := [Mark(80)] + t4;
    var t2 := [Mark(60)] + t3;
    var t1 := [Mark(20)] + t2;
    assert SuccessTrace == [Mark(0)] + t1;
    Unfold(Mark(100), []);
    Unfold(StatusWrite(Completed), t5);
    Unfold(Mark(80), t4);
    Unfold(Mark(60), t3);
    Unfold(Mark(20), t2);
    Unfold(Mark(0), t1);
  }

  /** Every run checkpoints a prefix of 0, 20, 60, 80, 100, so progress
      only moves forward, and a successful run reaches 100; every run
      writes exactly one file status, completed when it succeeds and
      failed otherwise. */
  lemma PipelineProgressMonotone(env: Env, j: Job, files: seq<FileDoc>, blobs: map<string, Bytes>, now: int)
    ensures var o := Pipeline(env, j, files, blobs, now);
      var m := Marks(o.run.trace);
      && 1 <= |m| <= |Checkpoints| && m == Checkpoints[..|m|] && StrictlyIncreasing(m)
      && (o.result.Ok? ==> m == Checkpoints)
      && StatusWrites(o.run.trace) == (if o.result.Ok? then [Completed] else [Failed])
  {
    var o := Pipeline(env, j, files, blobs, now);
    PipelineTraces(env, j, files, blobs, now);
    TraceProgress(o.run.trace, o.result.Ok?);
  }

  /** The checkpoint and status facts of the four trace shapes. */
  lemma TraceProgress(t: seq<Event>, ok: bool)
    requires ok ==> t == SuccessTrace
    requires !ok ==> FailureTrace(t)
    ensures var m := Marks(t);
      && 1 <= |m| <= |Checkpoints| && m == Checkpoints[..|m|] && StrictlyIncreasing(m)
      && (ok ==> m == Checkpoints)
      && StatusWrites(t) == (if ok then [Completed] else [Failed])
  {
    if ok {
      SuccessTraceParts();
    } else {
      FailureTraceParts(t);
    }
    CheckpointPrefixIncreasing(|Marks(t)|);
  }

  /** A successful run stores the serialized document under
      `converted/<fileId>/data.json`, marks the file completed and returns
      that path; a failed one passes the error on and marks the file
      failed. */
  lemma PipelineOutcome(env: Env, j: Job, files: seq<FileDoc>, blobs: map<string, Bytes>, now: int)
    ensures var o := Pipeline(env, j, files, blobs, now);
      var fileId := j.data.fileId;
      && (o.result.Ok? <==>
            && GetFile(files, fileId).Some?
            && GetFile(files, fileId).value.path in blobs
            && env.convert(blobs[GetFile(files, fileId).value.path]).Ok?
            && env.saveError.None?)
      && (o.result.Ok? ==>
            && o.result.value == JobQueue.JobResult("completed", Some(OutputPath(fileId)))
            && o.run.blobs == blobs[OutputPath(fileId) := env.convert(blobs[GetFile(files, fileId).value.path]).value]
            && o.run.files == SetStatus(files, fileId, Completed))
      && (o.result.Err? ==> o.run.blobs == blobs && o.run.files == SetStatus(files, fileId, Failed))
      && (GetFile(files, fileId).None? ==> o.result == Err(Plain("File not found: " + fileId)))
  {
  }

  /** How the checkpoint writes go does not change what a run does: only
      the job's recorded progress differs. */
  lemma CheckpointFaultsIrrelevant(env: Env, fault: int -> CheckpointFault, j: Job, files: seq<FileDoc>,
                                   blobs: map<string, Bytes>, now: int)
    ensures var a := Pipeline(env, j, files, blobs, now);
      var b := Pipeline(env.(fault := fault), j, files, blobs, now);
      a.result == b.result && a.run.files == b.run.files && a.run.blobs == b.run.blobs && a.run.trace == b.run.trace
  {
    var envB := env.(fault := fault);
    assert envB.convert == env.convert && envB.saveError == env.saveError;
    PipelineOutcome(env, j, files, blobs, now);
    PipelineOutcome(envB, j, files, blobs, now);
    PipelineTraces(env, j, files, blobs, now);
    PipelineTraces(envB, j, files, blobs, now);
  }

  /** With every checkpoint write going through, a successful run leaves
      the job at progress 100, in the queue's record and in its data. */
  lemma SuccessEndsAtHundred(env: Env, j: Job, files: seq<FileDoc>, blobs: map<string, Bytes>, now: int)
    requires forall p :: env.fault(p) == NoFault
    requires Pipeline(env, j, files, blobs, now).result.Ok?
    ensures var k := Pipeline(env, j, files, blobs, now).run.job;
      k.progress == 100 && k.data.progress == 100 && k.data.updatedAt == now
  {
  }

  /** After the worker converts the next waiting job successfully, the
      converted document can be downloaded through that job. */
  lemma ConvertThenDownload(svc: Service, env: Env, now: int)
    requires JobQueue.IdsUnique(svc.queue.jobs)
    requires NextWaiting(svc.queue.jobs).Some?
    requires var j := svc.queue.jobs[NextWaiting(svc.queue.jobs).value];
      && GetFile(svc.files, j.data.fileId).Some?
      && GetFile(svc.files, j.data.fileId).value.path in svc.blobs
      && env.convert(svc.blobs[GetFile(svc.files, j.data.fileId).value.path]).Ok?
      && env.saveError.None?
    ensures var j := svc.queue.jobs[NextWaiting(svc.queue.jobs).value];
      GetConvertedFile(Process(svc, env, now), j.id)
        == Returns(env.convert(svc.blobs[GetFile(svc.files, j.data.fileId).value.path]).value)
  {
    var k := NextWaiting(svc.queue.jobs).value;
    var j := svc.queue.jobs[k];
    var svc1 := Process(svc, env, now);
    PipelineOutcome(env, j.(state := JobQueue.Active), svc.files, svc.blobs, now);
    assert forall i :: 0 <= i < |svc1.queue.jobs| ==> svc1.queue.jobs[i].id == svc.queue.jobs[i].id;
    assert JobQueue.Find(svc1.queue.jobs, j.id) == Some(k);
    assert svc1.queue.jobs[k].state == JobQueue.Completed;
  }

  /** After `deleteConversion` the job is gone for every other call. */
  lemma DeleteThenNotFound(svc: Service, jobId: nat, unlinkError: Option<string>, again: Option<string>)
    requires DeleteConversion(svc, jobId, unlinkError).Returns?
    ensures var svc1 := DeleteConversion(svc, jobId, unlinkError).value;
      && JobQueue.GetJob(svc1.queue, jobId).None?
      && GetConversionStatus(svc1.queue, jobId).None?
      && GetConvertedFile(svc1, jobId) == Fails(Api(ApiError(404, "Conversion job not found")))
      && DeleteConversion(svc1, jobId, again) == Fails(Api(ApiError(404, "Conversion job not found")))
      && RetryConversion(svc1, jobId) == Fail(404, "Conversion job not found")
  {
  }

  /** A failed job is never deleted: `deleteConversion` throws its failure
      reason before reaching `job.remove()`, and so does a download. */
  lemma FailedJobNotDeleted(svc: Service, jobId: nat, unlinkError: Option<string>)
    requires JobQueue.GetJob(svc.queue, jobId).Some?
    requires JobQueue.GetJob(svc.queue, jobId).value.state == JobQueue.Failed
    ensures var reason := JobQueue.FailureReason(JobQueue.GetJob(svc.queue, jobId).value);
      && DeleteConversion(svc, jobId, unlinkError) == Fails(Plain(reason))
      && GetConvertedFile(svc, jobId) == Fails(Plain(reason))
  {
  }

  /** After start-up cleanup nothing is waiting or running, so the
      one-job-per-file rule holds, and cleaning again changes nothing. */
  lemma CleanLeavesOnlyCompleted(q: Queue)
    requires JobQueue.IdsUnique(q.jobs)
    ensures var r := CleanOldJobs(q);
      && (forall i :: 0 <= i < |r.jobs| ==> !InFlight(r.jobs[i]))
      && AtMostOneInFlight(r)
      && (forall x :: x in q.jobs && x.state == JobQueue.Completed ==> x in r.jobs)
  {
    var r := CleanOldJobs(q);
    assert forall i :: 0 <= i < |r.jobs| ==> r.jobs[i] in r.jobs;
  }

  /** The status call as written loses the progress: it reports 0 and
      overwrites the stored value with 0, where the read-only call reports
      what the worker last wrote. */
  lemma StatusAsWrittenLosesProgress(q: Queue, jobId: nat)
    requires JobQueue.IdsUnique(q.jobs)
    requires JobQueue.GetJob(q, jobId).Some?
    ensures var before := JobQueue.GetJob(q, jobId).value;
      var r := StatusAsWritten(q, jobId);
      && r.job.value.progress == 0
      && JobQueue.GetJob(r.queue, jobId).value.progress == 0
      && GetConversionStatus(q, jobId).value.progress == before.progress
  {
    var k := JobQueue.Find(q.jobs, jobId).value;
    var r := StatusAsWritten(q, jobId);
    assert JobQueue.Find(r.queue.jobs, jobId) == Some(k);
  }

  /** The `status` of a status reply names the job's queue state and no
      other: a client can tell the state from the reply. */
  lemma StatusNamesState(q: Queue, jobId: nat, s: JobQueue.JobState)
    requires GetConversionStatus(q, jobId).Some?
    ensures GetConversionStatus(q, jobId).value.status == JobQueue.StateName(s)
      <==> JobQueue.GetJob(q, jobId).value.state == s
  {
  }

  /** A concrete case: a job the worker left at 60 reads back as 0 and is
      stored as 0 afterwards. */
  lemma StatusAsWrittenExample()
    ensures var j := JobQueue.Job(7, JobQueue.JobData("f", "pending", 60, 0, 3, 0, 0),
                                 JobQueue.JobOptions(3, DefaultTimeout, None, false, false),
                                 JobQueue.Active, 60, 0, None, None);
      var q := JobQueue.Queue([j], 8);
      && StatusAsWritten(q, 7).job.value.progress == 0
      && StatusAsWritten(q, 7).queue.jobs[0].progress == 0
      && GetConversionStatus(q, 7).value.progress == 60
  {
  }
}

=== FILE: date_formatter.dfy ===
/** `toISOString` of src/utils/dateFormatter.ts: the ISO-8601 text of a
    date with its first `T` turned into a space and everything from the
    first `.` on (milliseconds and zone) dropped.  The Date itself is
    represented by the ISO text `Date.prototype.toISOString` gives for it. */
module DateFormatter {
  import opened Strings

  function ToIsoString(iso: string): (r: string)
    ensures NoChar(r, '.')
    ensures |r| == IndexOf(iso, '.') <= |iso|
    ensures forall i :: 0 <= i < |r| ==>
      r[i] == if i == IndexOf(iso, 'T') then ' ' else iso[i]
  {
    var spaced := ReplaceFirst(iso, "T", " ");
    ReplaceFirstChar(iso, 'T', ' ');
    assert forall i :: 0 <= i < |iso| ==> (spaced[i] == '.' <==> iso[i] == '.');
    FirstSegment(spaced, '.')
  }

  predicate IsDigit(c: char) { '0' <= c <= '9' }

  /** The shape `YYYY-MM-DDTHH:mm:ss.sssZ` that `toISOString` yields for
      every date with a four-digit year. */
  predicate IsIsoInstant(s: string) {
    && |s| == 24
    && (forall i :: i in {0, 1, 2, 3, 5, 6, 8, 9, 11, 12, 14, 15, 17, 18, 20, 21, 22} ==> 0 <= i < |s| && IsDigit(s[i]))
    && s[4] == '-' && s[7] == '-' && s[10] == 'T' && s[13] == ':' && s[16] == ':'
    && s[19] == '.' && s[23] == 'Z'
  }

  /** `2024-01-31T08:15:00.000Z` becomes `2024-01-31 08:15:00`. */
  lemma IsoInstantTrimmed(s: string)
    requires IsIsoInstant(s)
    ensures ToIsoString(s) == s[..10] + " " + s[11..19]
    ensures |ToIsoString(s)| == 19
  {
    assert forall j :: 0 <= j < 19 ==> s[j] != '.';
    assert forall j :: 0 <= j < 10 ==> s[j] != 'T';
    assert IndexOf(s, '.') == 19;
    assert IndexOf(s, 'T') == 10;
    var r := ToIsoString(s);
    assert forall i :: 0 <= i < 19 ==> r[i] == (s[..10] + " " + s[11..19])[i];
  }
}

=== FILE: error_handler.dfy ===
/** The final Express error handler of src/middleware/errorHandler.ts: an
    ApiError is answered with its own status and message, anything else
    with a fixed 500 that reveals nothing of the original error. */
module ErrorHandler {
  import opened Errors

  datatype Body = Body(success: bool, error: string)
  datatype Response = Response(status: int, body: Body)

  const InternalServerError := "Internal Server Error"

  function Handle(e: Thrown): (r: Response)
    ensures !r.body.success
    ensures e.Api? ==> r.status == e.error.statusCode && r.body.error == e.error.message
    ensures !e.Api? ==> r.status == 500 && r.body.error == InternalServerError
  {
    match e
    case Api(err) => Response(err.statusCode, Body(false, err.message))
    case _ => Response(500, Body(false, InternalServerError))
  }

  /** Two errors that are not ApiErrors get the very same response, so no
      part of their messages or codes reaches the client. */
  lemma NonApiErrorsIndistinguishable(e1: Thrown, e2: Thrown)
    requires !e1.Api? && !e2.Api?
    ensures Handle(e1) == Handle(e2)
  {
  }
}

=== FILE: errors.dfy ===
/** Values an operation can throw, and the result type every service call
    returns.  `ApiError` is the application's own error class: an HTTP status
    code and a message (src/utils/ApiError.ts). */
module Errors {

  datatype Option<+T> = None | Some(value: T)

  datatype ApiError = ApiError(statusCode: int, message: string)

  /** What a JavaScript `throw` can carry in this system: an ApiError, a
      multer upload error (with its `code`), or any other `Error`, of which
      only the message matters. */
  datatype Thrown =
    | Api(error: ApiError)
    | Multer(code: string, message: string)
    | Plain(message: string)
  {
    /** The `message` property of the thrown object. */
    function Message(): string {
      match this
      case Api(e) => e.message
      case Multer(_, m) => m
      case Plain(m) => m
    }
  }

  /** A call either returns a value or throws.  `:-` propagates the throw. */
  datatype Result<+T> = Ok(value: T) | Err(error: Thrown) {
    predicate IsFailure() { Err? }

    function PropagateFailure<U>(): Result<U>
      requires Err?
    {
      Err(error)
    }

    function Extract(): T
      requires Ok?
    {
      value
    }
  }

  /** `throw new ApiError(code, message)` */
  function Fail<T>(code: int, message: string): Result<T> {
    Err(Api(ApiError(code, message)))
  }

  /** JavaScript truthiness of an optional string: `undefined`, `null` and
      the empty string are falsy. */
  predicate Truthy(s: Option<string>) {
    s.Some? && s.value != ""
  }
}

=== FILE: files.dfy ===
/** The operations of src/services/file/FileService.ts over the file
    collection.  Each returns the new collection instead of writing it. */
module Files {
  import opened Errors
  import opened Models
  import Paging
  import Strings

  /** The fields of an uploaded multer file that `createFile` reads. */
  datatype Upload = Upload(originalname: string, mimetype: string, size: int)

  /** The `UploadedFile` shape `getFile`, `updateFileName` and `listFiles`
      hand back (src/types/file.ts). */
  datatype UploadedFile = UploadedFile(
    id: string, filename: string, originalname: string, mimetype: string, size: int,
    path: string, status: FileStatus, createdAt: int)

  datatype Created = Created(files: seq<FileDoc>, file: FileView)

  /** Some file of folder `folderId` is called `name`. */
  predicate NameTaken(files: seq<FileDoc>, folderId: string, name: string) {
    exists i :: 0 <= i < |files| && files[i].folderId == folderId && files[i].name == name
  }

  ghost predicate UniqueFileIds(files: seq<FileDoc>) {
    forall i, j :: 0 <= i < j < |files| ==> files[i].id != files[j].id
  }

  /** The paths of the file schema (src/services/file/FileService.ts)
      marked `required: true` that hold an empty string in `d`, in schema
      order; a required string path rejects `""`.  `size`, `status` and
      the timestamps are never empty. */
  function RequiredMissing(d: FileDoc): (missing: seq<string>)
    ensures |missing| == 0 <==>
      d.id != "" && d.name != "" && d.originalname != "" && d.mimetype != "" && d.path != "" && d.folderId != ""
    ensures "name" in missing <==> d.name == ""
    ensures "originalname" in missing <==> d.originalname == ""
    ensures "mimetype" in missing <==> d.mimetype == ""
  {
    (if d.id == "" then ["id"] else [])
    + (if d.name == "" then ["name"] else [])
    + (if d.originalname == "" then ["originalname"] else [])
    + (if d.mimetype == "" then ["mimetype"] else [])
    + (if d.path == "" then ["path"] else [])
    + (if d.folderId == "" then ["folderId"] else [])
  }

  /** The empty required paths of a document `createFile` builds, whose
      name is its original name. */
  lemma MissingFromUpload(d: FileDoc)
    ensures (d.id != "" && d.folderId != "" && d.path != "" && d.name == d.originalname) ==>
      && (d.name == "" && d.mimetype != "" ==> RequiredMissing(d) == ["name", "originalname"])
      && (d.name != "" && d.mimetype == "" ==> RequiredMissing(d) == ["mimetype"])
      && (d.name == "" && d.mimetype == "" ==> RequiredMissing(d) == ["name", "originalname", "mimetype"])
  {
  }

  function PathRequired(path: string): string {
    path + ": Path `" + path + "` is required."
  }

  /** The message of the validation error `FileModel.create` throws when
      the required paths `missing` are empty. */
  function FileValidation(missing: seq<string>): string {
    "File validation failed: " + Strings.Join(seq(|missing|, i requires 0 <= i < |missing| => PathRequired(missing[i])), ", ")
  }

  /** `createFile(file, folderId)`: `freshId` is the uuid drawn and `now`
      the creation time.  After the 404 and 400 guards, `FileModel.create`
      validates the document against the schema. */
  function CreateFile(folders: seq<Folder>, files: seq<FileDoc>, upload: Upload, folderId: string, freshId: string, now: int)
    : (r: Result<Created>)
    requires forall i :: 0 <= i < |files| ==> files[i].id != freshId
    ensures FindFolder(folders, folderId).None? ==> r == Fail(404, "Folder not found")
    ensures FindFolder(folders, folderId).Some? && NameTaken(files, folderId, upload.originalname) ==>
      r == Fail(400, "File with this name already exists in this folder")
    ensures (FindFolder(folders, folderId).Some? && !NameTaken(files, folderId, upload.originalname)
      && freshId != "" && folderId != "") ==>
      && (upload.originalname == "" && upload.mimetype != "" ==>
            r == Err(Plain(FileValidation(["name", "originalname"]))))
      && (upload.originalname != "" && upload.mimetype == "" ==>
            r == Err(Plain(FileValidation(["mimetype"]))))
      && (upload.originalname == "" && upload.mimetype == "" ==>
            r == Err(Plain(FileValidation(["name", "originalname", "mimetype"]))))
    ensures r.Ok? <==>
      && FindFolder(folders, folderId).Some? && !NameTaken(files, folderId, upload.originalname)
      && upload.originalname != "" && upload.mimetype != "" && freshId != "" && folderId != ""
    ensures r.Ok? ==> |r.value.files| == |files| + 1
    ensures r.Ok? ==>
      var d := r.value.files[|files|];
      && r.value.files == files + [d]
      && d.id == freshId && d.name == upload.originalname && d.originalname == upload.originalname
      && d.mimetype == upload.mimetype && d.size == upload.size
      && d.path == folders[FindFolder(folders, folderId).value].path + "/" + upload.originalname
      && d.folderId == folderId && d.status == Pending
      && d.createdAt == now && d.updatedAt == now
      && r.value.file == ViewOf(d)
  {
    match FindFolder(folders, folderId)
    case None => Fail(404, "Folder not found")
    case Some(k) =>
      if NameTaken(files, folderId, upload.originalname) then
        Fail(400, "File with this name already exists in this folder")
      else
        var d := FileDoc(freshId, upload.originalname, upload.originalname, upload.mimetype, upload.size,
          folders[k].path + "/" + upload.originalname, folderId, Pending, now, now);
        assert |d.path| > |folders[k].path|;
        var missing := RequiredMissing(d);
        MissingFromUpload(d);
        if |missing| > 0 then Err(Plain(FileValidation(missing)))
        else Ok(Created(files + [d], ViewOf(d)))
  }

  /** `mapToFile(doc)`: the stored name is reported as `filename`. */
  function MapToFile(d: FileDoc): (u: UploadedFile)
    ensures u.id == d.id && u.filename == d.name && u.originalname == d.originalname
    ensures u.mimetype == d.mimetype && u.size == d.size
    ensures u.path == d.path && u.status == d.status && u.createdAt == d.createdAt
  {
    UploadedFile(d.id, d.name, d.originalname, d.mimetype, d.size, d.path, d.status, d.createdAt)
  }

  /** `getFile(fileId)` */
  function GetFile(files: seq<FileDoc>, fileId: string): (r: Option<UploadedFile>)
    ensures r.None? <==> forall i :: 0 <= i < |files| ==> files[i].id != fileId
    ensures r.Some? ==> r.value.id == fileId
    ensures r.Some? ==> exists i :: 0 <= i < |files| && r.value == MapToFile(files[i])
  {
    match FindFile(files, fileId)
    case None => None
    case Some(k) => Some(MapToFile(files[k]))
  }

  datatype Updated = Updated(files: seq<FileDoc>, file: Option<UploadedFile>)

  /** `updateFileName(fileId, name)` at time `now`. */
  function UpdateFileName(files: seq<FileDoc>, fileId: string, name: string, now: int): (r: Updated)
    ensures |r.files| == |files|
    ensures r.file.None? <==> forall i :: 0 <= i < |files| ==> files[i].id != fileId
    ensures r.file.None? ==> r.files == files
    ensures r.file.Some? ==>
      var k := FindFile(files, fileId).value;
      && r.files[k] == files[k].(name := name, updatedAt := now)
      && (forall i :: 0 <= i < |files| && i != k ==> r.files[i] == files[i])
      && r.file.value == MapToFile(r.files[k])
  {
    match FindFile(files, fileId)
    case None => Updated(files, None)
    case Some(k) =>
      var d := files[k].(name := name, updatedAt := now);
      Updated(files[k := d], Some(MapToFile(d)))
  }

  /** `deleteFile(fileId)`: removes the file with that id, if any. */
  function DeleteFile(files: seq<FileDoc>, fileId: string): (r: seq<FileDoc>)
    ensures (forall i :: 0 <= i < |files| ==> files[i].id != fileId) ==> r == files
    ensures FindFile(files, fileId).Some? ==>
      var k := FindFile(files, fileId).value;
      r == files[..k] + files[k + 1..]
  {
    match FindFile(files, fileId)
    case None => files
    case Some(k) => files[..k] + files[k + 1..]
  }

  /** The query `folderId ? { folderId } : {}` that listing and counting
      share. */
  function Selection(files: seq<FileDoc>, folderId: Option<string>): (r: seq<FileDoc>)
    ensures !Truthy(folderId) ==> r == files
    ensures Truthy(folderId) ==> forall i :: 0 <= i < |r| ==> r[i] in files && r[i].folderId == folderId.value
    ensures Truthy(folderId) ==> forall i :: 0 <= i < |files| && files[i].folderId == folderId.value ==> files[i] in r
  {
    if Truthy(folderId) then Filter(files, (d: FileDoc) => d.folderId == folderId.value) else files
  }

  function CreatedAt(u: UploadedFile): int { u.createdAt }
  function DocCreatedAt(d: FileDoc): int { d.createdAt }

  function MapAll(docs: seq<FileDoc>): (us: seq<UploadedFile>)
    ensures |us| == |docs|
    ensures forall i :: 0 <= i < |docs| ==> us[i] == MapToFile(docs[i])
  {
    seq(|docs|, i requires 0 <= i < |docs| => MapToFile(docs[i]))
  }

  /** The selected documents in the order `.sort({ createdAt: -1 })`
      yields them; among equal times store order is kept. */
  function Newest(files: seq<FileDoc>, folderId: Option<string>): seq<FileDoc> {
    Paging.SortDescending(Selection(files, folderId), DocCreatedAt)
  }

  /** The selected documents, newest first, cut to the window. */
  function NewestPage(files: seq<FileDoc>, folderId: Option<string>, skip: int, limit: int): (r: Result<seq<FileDoc>>)
    ensures r.Err? <==> skip < 0
    ensures r.Ok? ==> |r.value| == Paging.WindowSize(|Selection(files, folderId)|, skip, limit)
    ensures r.Ok? ==> Paging.SortedDescending(r.value, DocCreatedAt)
    ensures r.Ok? ==> forall i :: 0 <= i < |r.value| ==> r.value[i] in Selection(files, folderId)
    ensures r.Ok? ==> Paging.IsWindow(r.value, Newest(files, folderId), skip, limit)
  {
    var selected := Selection(files, folderId);
    var sorted := Newest(files, folderId);
    var page :- Paging.Window(sorted, skip, limit);
    assert forall i :: 0 <= i < |page| ==> page[i] in multiset(selected) by {
      forall i | 0 <= i < |page| ensures page[i] in multiset(selected) {
        assert page[i] == sorted[skip + i];
      }
    }
    assert Paging.SortedDescending(page, DocCreatedAt) by {
      forall i | 0 < i < |page| ensures DocCreatedAt(page[i - 1]) >= DocCreatedAt(page[i]) {
        assert page[i - 1] == sorted[skip + i - 1] && page[i] == sorted[skip + i];
      }
    }
    Ok(page)
  }

  /** The mapped documents of a window are the same window of the mapped
      documents. */
  lemma MapAllOfWindow(page: seq<FileDoc>, docs: seq<FileDoc>, skip: int, limit: int)
    requires Paging.IsWindow(page, docs, skip, limit)
    ensures Paging.IsWindow(MapAll(page), MapAll(docs), skip, limit)
  {
    var all := MapAll(docs);
    assert forall i :: 0 <= i < |page| ==> MapAll(page)[i] == MapToFile(docs[skip + i]) == all[skip + i];
  }

  /** `listFiles(folderId, skip, limit)`: newest first, then the window.
      A negative `skip` is refused by the database driver. */
  function ListFiles(files: seq<FileDoc>, folderId: Option<string>, skip: int, limit: int): (r: Result<seq<UploadedFile>>)
    ensures r.Err? <==> skip < 0
    ensures r.Ok? ==> |r.value| == Paging.WindowSize(CountFiles(files, folderId), skip, limit)
    ensures r.Ok? ==> Paging.SortedDescending(r.value, CreatedAt)
    ensures r.Ok? ==> forall i :: 0 <= i < |r.value| ==>
      exists d :: d in files && (Truthy(folderId) ==> d.folderId == folderId.value) && r.value[i] == MapToFile(d)
    ensures r.Ok? ==> Paging.IsWindow(r.value, MapAll(Newest(files, folderId)), skip, limit)
  {
    var page :- NewestPage(files, folderId, skip, limit);
    MappedPage(files, folderId, page, skip, limit);
    Ok(MapAll(page))
  }

  /** What mapping a page of `NewestPage` keeps: its order, its origin and
      its place in the newest-first listing. */
  lemma MappedPage(files: seq<FileDoc>, folderId: Option<string>, page: seq<FileDoc>, skip: int, limit: int)
    requires NewestPage(files, folderId, skip, limit) == Ok(page)
    ensures Paging.SortedDescending(MapAll(page), CreatedAt)
    ensures forall i :: 0 <= i < |page| ==>
      exists d :: d in files && (Truthy(folderId) ==> d.folderId == folderId.value) && MapAll(page)[i] == MapToFile(d)
    ensures Paging.IsWindow(MapAll(page), MapAll(Newest(files, folderId)), skip, limit)
  {
    var us := MapAll(page);
    assert forall i :: 0 <= i < |us| ==> CreatedAt(us[i]) == DocCreatedAt(page[i]);
    forall i | 0 <= i < |page|
      ensures exists d :: d in files && (Truthy(folderId) ==> d.folderId == folderId.value) && us[i] == MapToFile(d)
    {
      assert page[i] in Selection(files, folderId);
      assert page[i] in files && (Truthy(folderId) ==> page[i].folderId == folderId.value);
      assert us[i] == MapToFile(page[i]);
    }
    MapAllOfWindow(page, Newest(files, folderId), skip, limit);
  }

  /** `countFiles(folderId)` */
  function CountFiles(files: seq<FileDoc>, folderId: Option<string>): (n: nat)
    ensures n <= |files|
    ensures !Truthy(folderId) ==> n == |files|
  {
    |Selection(files, folderId)|
  }

  // Properties relating the operations

  /** The first page with no limit lists every file the count counts. */
  lemma ListAllMatchesCount(files: seq<FileDoc>, folderId: Option<string>)
    ensures var r := ListFiles(files, folderId, 0, 0);
      && r.Ok? && |r.value| == CountFiles(files, folderId)
      && forall i :: 0 <= i < |files| && (Truthy(folderId) ==> files[i].folderId == folderId.value) ==>
           MapToFile(files[i]) in r.value
  {
    var selected := Selection(files, folderId);
    var sorted := Paging.SortDescending(selected, DocCreatedAt);
    var r := ListFiles(files, folderId, 0, 0).value;
    forall i | 0 <= i < |files| && (Truthy(folderId) ==> files[i].folderId == folderId.value)
      ensures MapToFile(files[i]) in r
    {
      assert files[i] in multiset(sorted);
      var j :| 0 <= j < |sorted| && sorted[j] == files[i];
      assert r[j] == MapToFile(sorted[j]);
    }
  }

  /** The files listed by pages 1 to `k` of `listFiles` with one positive
      `limit`, page `p` read with `skip = (p - 1) * limit`. */
  function ListedUploads(files: seq<FileDoc>, folderId: Option<string>, k: nat, limit: int): seq<UploadedFile>
    requires limit > 0
  {
    if k == 0 then []
    else
      assert (k - 1) * limit >= 0;
      ListedUploads(files, folderId, k - 1, limit) + ListFiles(files, folderId, (k - 1) * limit, limit).value
  }

  /** Reading one more page of `listFiles` appends the window of the newest
      first listing at `(k - 1) * limit`. */
  lemma ListedUploadsStep(files: seq<FileDoc>, folderId: Option<string>, k: nat, limit: int)
    requires k >= 1 && limit > 0
    ensures (k - 1) * limit >= 0
    ensures ListedUploads(files, folderId, k, limit)
      == ListedUploads(files, folderId, k - 1, limit)
         + Paging.Window(MapAll(Newest(files, folderId)), (k - 1) * limit, limit).value
  {
    var skip := (k - 1) * limit;
    assert skip >= 0;
    var page := ListFiles(files, folderId, skip, limit).value;
    Paging.WindowUnique(page, MapAll(Newest(files, folderId)), skip, limit);
  }

  /** Pages 1 to `k` of `listFiles` are pages 1 to `k` of the newest-first
      listing. */
  lemma {:induction false} ListedUploadsArePages(files: seq<FileDoc>, folderId: Option<string>, k: nat, limit: int)
    requires limit > 0
    ensures ListedUploads(files, folderId, k, limit) == Paging.Pages(MapAll(Newest(files, folderId)), k, limit)
  {
    if k > 0 {
      var listing := MapAll(Newest(files, folderId));
      var w := Paging.Window(listing, (k - 1) * limit, limit).value;
      calc {
        ListedUploads(files, folderId, k, limit);
      == { ListedUploadsStep(files, folderId, k, limit); }
        ListedUploads(files, folderId, k - 1, limit) + w;
      == { ListedUploadsArePages(files, folderId, k - 1, limit); }
        Paging.Pages(listing, k - 1, limit) + w;
      == { Paging.PagesStep(listing, k, limit); }
        Paging.Pages(listing, k, limit);
      }
    }
  }

  /** Reading pages 1 to `k` of `listFiles` lists the first `k * limit`
      selected files, newest first, none twice; once `k * limit` reaches
      `countFiles`, every selected file has been listed exactly once. */
  lemma PagesListAllUploads(files: seq<FileDoc>, folderId: Option<string>, k: nat, limit: int)
    requires limit > 0
    ensures var listing := MapAll(Newest(files, folderId));
      ListedUploads(files, folderId, k, limit) == listing[..Paging.Min(Paging.Capacity(k, limit), |listing|)]
    ensures Paging.Capacity(k, limit) >= CountFiles(files, folderId) ==>
      ListedUploads(files, folderId, k, limit) == MapAll(Newest(files, folderId))
  {
    var listing := MapAll(Newest(files, folderId));
    assert |listing| == CountFiles(files, folderId);
    ListedUploadsArePages(files, folderId, k, limit);
    Paging.PagesArePrefix(listing, k, limit);
  }

  /** A created file is found again by its id, as stored. */
  lemma CreateThenGet(folders: seq<Folder>, files: seq<FileDoc>, upload: Upload, folderId: string, freshId: string, now: int)
    requires forall i :: 0 <= i < |files| ==> files[i].id != freshId
    requires CreateFile(folders, files, upload, folderId, freshId, now).Ok?
    ensures var files' := CreateFile(folders, files, upload, folderId, freshId, now).value.files;
      var g := GetFile(files', freshId);
      && g.Some? && g.value.filename == upload.originalname && g.value.status == Pending
      && g.value.path == folders[FindFolder(folders, folderId).value].path + "/" + upload.originalname
  {
    var files' := CreateFile(folders, files, upload, folderId, freshId, now).value.files;
    assert FindFile(files', freshId) == Some(|files|);
  }

  /** Uploading the same name into the same folder twice is refused. */
  lemma CreateTwiceRejected(folders: seq<Folder>, files: seq<FileDoc>, upload: Upload, folderId: string,
                            id1: string, id2: string, now: int)
    requires forall i :: 0 <= i < |files| ==> files[i].id != id1 && files[i].id != id2
    requires id1 != id2
    requires CreateFile(folders, files, upload, folderId, id1, now).Ok?
    ensures var files' := CreateFile(folders, files, upload, folderId, id1, now).value.files;
      CreateFile(folders, files', upload, folderId, id2, now) == Fail(400, "File with this name already exists in this folder")
  {
    var files' := CreateFile(folders, files, upload, folderId, id1, now).value.files;
    assert files'[|files|].folderId == folderId && files'[|files|].name == upload.originalname;
  }

  /** A rename is visible through `getFile`, which still reports the
      original upload name. */
  lemma RenameThenGet(files: seq<FileDoc>, fileId: string, name: string, now: int)
    requires UniqueFileIds(files)
    requires UpdateFileName(files, fileId, name, now).file.Some?
    ensures var files' := UpdateFileName(files, fileId, name, now).files;
      var g := GetFile(files', fileId);
      && g.Some? && g.value.filename == name
      && g.value.originalname == files[FindFile(files, fileId).value].originalname
  {
    var k := FindFile(files, fileId).value;
    var files' := UpdateFileName(files, fileId, name, now).files;
    assert FindFile(files', fileId) == Some(k);
  }

  /** After `deleteFile` the id is gone, and deleting again changes
      nothing. */
  lemma DeleteThenGone(files: seq<FileDoc>, fileId: string)
    requires UniqueFileIds(files)
    ensures GetFile(DeleteFile(files, fileId), fileId).None?
    ensures DeleteFile(DeleteFile(files, fileId), fileId) == DeleteFile(files, fileId)
  {
    match FindFile(files, fileId)
    case None =>
    case Some(k) =>
      var r := DeleteFile(files, fileId);
      assert forall i :: 0 <= i < |r| ==> r[i] == files[if i < k then i else i + 1];
  }
}

=== FILE: folder_tree.dfy ===
/** The shape the folder collection keeps: every folder's path is its
    parent's path, a `/`, and its own name (`/` and the name at the root),
    and no two folders under one parent share a name.  The services keep
    this shape as long as no folder name contains a `/`. */
module FolderTree {
  import opened Errors
  import opened Strings
  import opened Models
  import opened Folders

  ghost predicate UniqueIds(fs: seq<Folder>) {
    forall i, j :: 0 <= i < j < |fs| ==> fs[i].id != fs[j].id
  }

  /** Folder `j` is the parent of folder `i`, and `i`'s path extends `j`'s. */
  ghost predicate ChildOf(fs: seq<Folder>, i: int, j: int)
    requires 0 <= i < |fs| && 0 <= j < |fs|
  {
    fs[i].parentId == Some(fs[j].id) && fs[i].path == fs[j].path + "/" + fs[i].name
  }

  ghost predicate Placed(fs: seq<Folder>, i: int)
    requires 0 <= i < |fs|
  {
    match fs[i].parentId
    case None => fs[i].path == "/" + fs[i].name
    case Some(p) => p != "" && exists j :: 0 <= j < |fs| && ChildOf(fs, i, j)
  }

  ghost predicate SiblingsDistinct(fs: seq<Folder>) {
    forall i, j :: 0 <= i < |fs| && 0 <= j < |fs| && i != j && fs[i].parentId == fs[j].parentId ==>
      fs[i].name != fs[j].name
  }

  ghost predicate SlashFreeNames(fs: seq<Folder>) {
    forall i :: 0 <= i < |fs| ==> NoChar(fs[i].name, '/')
  }

  ghost predicate Valid(fs: seq<Folder>) {
    && UniqueIds(fs)
    && (forall i :: 0 <= i < |fs| ==> Placed(fs, i))
    && SiblingsDistinct(fs)
    && SlashFreeNames(fs)
  }

  /** In `a/n` with a slash-free `n`, no `/` follows the one after `a`. */
  lemma LastSlash(a: string, n: string)
    requires NoChar(n, '/')
    ensures (a + "/" + n)[|a|] == '/'
    ensures forall i :: |a| < i < |a + "/" + n| ==> (a + "/" + n)[i] != '/'
  {
    var s := a + "/" + n;
    assert forall i :: |a| < i < |s| ==> s[i] == n[i - |a| - 1];
  }

  /** With slash-free last segments, `a/n` determines `a` and `n`. */
  lemma SplitAtLastSlash(a: string, n: string, b: string, m: string)
    requires NoChar(n, '/') && NoChar(m, '/')
    requires a + "/" + n == b + "/" + m
    ensures a == b && n == m
  {
    var s := a + "/" + n;
    LastSlash(a, n);
    LastSlash(b, m);
    assert |a| == |b|;
    assert a == s[..|a|] && b == s[..|b|];
    assert n == s[|a| + 1..] && m == s[|b| + 1..];
  }

  lemma PathNonEmpty(fs: seq<Folder>, i: int)
    requires 0 <= i < |fs| && Placed(fs, i)
    ensures |fs[i].path| > 0
  {
    match fs[i].parentId
    case None =>
    case Some(_) =>
      var j :| 0 <= j < |fs| && ChildOf(fs, i, j);
  }

  /** In a valid collection no two folders share a path, so a path names a
      folder. */
  lemma {:induction false} PathsUnique(fs: seq<Folder>, i: int, j: int)
    requires Valid(fs)
    requires 0 <= i < |fs| && 0 <= j < |fs|
    requires fs[i].path == fs[j].path
    ensures i == j
    decreases |fs[i].path|
  {
    assert Placed(fs, i) && Placed(fs, j);
    assert NoChar(fs[i].name, '/') && NoChar(fs[j].name, '/');
    match (fs[i].parentId, fs[j].parentId)
    case (None, None) =>
      assert "" + "/" + fs[i].name == fs[i].path && "" + "/" + fs[j].name == fs[j].path;
      SplitAtLastSlash("", fs[i].name, "", fs[j].name);
    case (None, Some(_)) =>
      var l :| 0 <= l < |fs| && ChildOf(fs, j, l);
      PathNonEmpty(fs, l);
      assert "" + "/" + fs[i].name == fs[i].path;
      SplitAtLastSlash("", fs[i].name, fs[l].path, fs[j].name);
    case (Some(_), None) =>
      var k :| 0 <= k < |fs| && ChildOf(fs, i, k);
      PathNonEmpty(fs, k);
      assert "" + "/" + fs[j].name == fs[j].path;
      SplitAtLastSlash(fs[k].path, fs[i].name, "", fs[j].name);
    case (Some(_), Some(_)) =>
      var k :| 0 <= k < |fs| && ChildOf(fs, i, k);
      var l :| 0 <= l < |fs| && ChildOf(fs, j, l);
      SplitAtLastSlash(fs[k].path, fs[i].name, fs[l].path, fs[j].name);
      PathsUnique(fs, k, l);
  }

  /** `FindFolder` lands on the one folder with that id. */
  lemma FindIsUnique(fs: seq<Folder>, id: string, j: int)
    requires UniqueIds(fs) && 0 <= j < |fs| && fs[j].id == id
    ensures FindFolder(fs, id) == Some(j)
  {
  }

  /** Appending a folder with a fresh id, a slash-free name no sibling
      has, and the path its parent dictates keeps the collection valid. */
  lemma {:induction false} AppendPreservesValid(fs: seq<Folder>, f: Folder)
    requires Valid(fs)
    requires forall i :: 0 <= i < |fs| ==> fs[i].id != f.id
    requires NoChar(f.name, '/')
    requires forall i :: 0 <= i < |fs| && fs[i].parentId == f.parentId ==> fs[i].name != f.name
    requires f.parentId.None? ==> f.path == "/" + f.name
    requires f.parentId.Some? ==>
      && f.parentId.value != ""
      && exists j :: 0 <= j < |fs| && fs[j].id == f.parentId.value && f.path == fs[j].path + "/" + f.name
    ensures Valid(fs + [f])
  {
    var fs' := fs + [f];
    forall i | 0 <= i < |fs'| ensures Placed(fs', i) {
      if i < |fs| {
        assert Placed(fs, i);
        match fs[i].parentId
        case None =>
        case Some(_) =>
          var j :| 0 <= j < |fs| && ChildOf(fs, i, j);
          assert ChildOf(fs', i, j);
      } else {
        match f.parentId
        case None =>
        case Some(p) =>
          var j :| 0 <= j < |fs| && fs[j].id == p && f.path == fs[j].path + "/" + f.name;
          assert ChildOf(fs', i, j);
      }
    }
  }

  /** `createFolder` keeps the collection valid when the new name holds no
      `/`. */
  lemma CreatePreservesValid(fs: seq<Folder>, dto: CreateFolderDto, freshId: string, now: int)
    requires Valid(fs)
    requires forall i :: 0 <= i < |fs| ==> fs[i].id != freshId
    requires NoChar(dto.name, '/')
    requires CreateFolder(fs, dto, freshId, now).Ok?
    ensures Valid(CreateFolder(fs, dto, freshId, now).value.folders)
  {
    var r := CreateFolder(fs, dto, freshId, now).value;
    var f := r.folder;
    assert !HasChild(fs, f.parentId, f.name);
    if f.parentId.Some? {
      var j := FindFolder(fs, f.parentId.value).value;
      assert fs[j].id == f.parentId.value && f.path == fs[j].path + "/" + f.name;
    }
    AppendPreservesValid(fs, f);
  }

  /** A path `a/n` with a slash-free `n` lies under `base/` exactly when `a`
      is `base` or itself lies under `base/`. */
  lemma ChildPathUnder(a: string, n: string, base: string)
    requires NoChar(n, '/') && |base| > 0
    ensures StartsWith(a + "/" + n, base + "/") <==> a == base || StartsWith(a, base + "/")
  {
    var s := a + "/" + n;
    var o := base + "/";
    if StartsWith(s, o) {
      LastSlash(a, n);
      assert s[|base|] == o[|base|] == '/';
      assert |base| <= |a|;
      if |base| == |a| {
        assert a == s[..|a|];
      } else {
        assert a[..|o|] == s[..|o|];
      }
    }
    if a == base {
      assert s[..|o|] == o;
    }
    if StartsWith(a, o) {
      assert s[..|o|] == a[..|o|];
    }
  }

  /** `fs'` is `fs` with folder `k` renamed to `name` at path `np`, and
      every path under the old one moved under `np`. */
  ghost predicate MovedUnder(fs: seq<Folder>, fs': seq<Folder>, k: int, name: string, np: string)
    requires 0 <= k < |fs|
  {
    && |fs'| == |fs|
    && fs'[k] == fs[k].(name := name, path := np, updatedAt := fs'[k].updatedAt)
    && forall i :: 0 <= i < |fs| && i != k ==> fs'[i] == RewritePath(fs[i], fs[k].path, np)
  }

  /** What a move of folder `k` needs: a slash-free name, a path its
      parent dictates, and no sibling already called `name`. */
  ghost predicate MoveAllowed(fs: seq<Folder>, k: int, name: string, np: string)
    requires 0 <= k < |fs|
  {
    && NoChar(name, '/')
    && (fs[k].parentId.None? ==> np == "/" + name)
    && (fs[k].parentId.Some? ==>
          exists w :: 0 <= w < |fs| && fs[w].id == fs[k].parentId.value && np == fs[w].path + "/" + name)
    && forall j :: 0 <= j < |fs| && j != k && fs[j].parentId == fs[k].parentId ==> fs[j].name != name
  }

  /** The moved folder itself sits under its unchanged parent. */
  lemma MovedFolderPlaced(fs: seq<Folder>, fs': seq<Folder>, k: int, name: string, np: string)
    requires Valid(fs) && 0 <= k < |fs|
    requires MovedUnder(fs, fs', k, name, np) && MoveAllowed(fs, k, name, np)
    ensures Placed(fs', k)
  {
    assert Placed(fs, k);
    match fs[k].parentId
    case None =>
    case Some(p) =>
      var w :| 0 <= w < |fs| && fs[w].id == p && np == fs[w].path + "/" + name;
      var v :| 0 <= v < |fs| && ChildOf(fs, k, v);
      assert w == v;
      assert |fs[w].path| < |fs[k].path|;
      assert fs'[w] == fs[w];
      assert ChildOf(fs', k, w);
  }

  /** A root folder other than the moved one is left alone. */
  lemma MovedRootPlaced(fs: seq<Folder>, fs': seq<Folder>, k: int, name: string, np: string, i: int)
    requires Valid(fs) && 0 <= k < |fs| && 0 <= i < |fs| && i != k
    requires fs[i].parentId.None?
    requires MovedUnder(fs, fs', k, name, np)
    ensures Placed(fs', i)
  {
    assert Placed(fs, i);
    PathNonEmpty(fs, k);
    assert NoChar(fs[i].name, '/');
    ChildPathUnder("", fs[i].name, fs[k].path);
    assert "" + "/" + fs[i].name == fs[i].path;
    assert fs'[i] == fs[i];
  }

  /** A child of the moved folder follows it to `np`. */
  lemma ChildOfMovedFollows(c: Folder, base: string, np: string)
    requires NoChar(c.name, '/') && |base| > 0
    requires c.path == base + "/" + c.name
    ensures RewritePath(c, base, np).path == np + "/" + c.name
  {
    ChildPathUnder(base, c.name, base);
    assert c.path[|base|..] == "/" + c.name;
  }

  /** A child of a folder under the moved one follows its parent. */
  lemma ChildOfDescendantFollows(c: Folder, parent: Folder, base: string, np: string)
    requires NoChar(c.name, '/') && |base| > 0
    requires c.path == parent.path + "/" + c.name
    requires StartsWith(parent.path, base + "/")
    ensures RewritePath(c, base, np).path == RewritePath(parent, base, np).path + "/" + c.name
  {
    ChildPathUnder(parent.path, c.name, base);
    assert c.path[|base|..] == parent.path[|base|..] + "/" + c.name;
  }

  /** A child of a folder outside the moved subtree stays where it is. */
  lemma ChildOutsideStays(c: Folder, parent: Folder, base: string, np: string)
    requires NoChar(c.name, '/') && |base| > 0
    requires c.path == parent.path + "/" + c.name
    requires parent.path != base && !StartsWith(parent.path, base + "/")
    ensures RewritePath(c, base, np) == c
  {
    ChildPathUnder(parent.path, c.name, base);
  }

  /** A child folder other than the moved one moves along with its parent
      exactly when its parent is the moved folder or lies under it. */
  lemma MovedChildPlaced(fs: seq<Folder>, fs': seq<Folder>, k: int, name: string, np: string, i: int)
    requires Valid(fs) && 0 <= k < |fs| && 0 <= i < |fs| && i != k
    requires fs[i].parentId.Some?
    requires MovedUnder(fs, fs', k, name, np)
    ensures Placed(fs', i)
  {
    var base := fs[k].path;
    assert Placed(fs, i);
    PathNonEmpty(fs, k);
    assert NoChar(fs[i].name, '/');
    var w :| 0 <= w < |fs| && ChildOf(fs, i, w);
    var c, parent := fs[i], fs[w];
    if parent.path == base {
      PathsUnique(fs, w, k);
      ChildOfMovedFollows(c, base, np);
    } else if StartsWith(parent.path, base + "/") {
      ChildOfDescendantFollows(c, parent, base, np);
    } else {
      ChildOutsideStays(c, parent, base, np);
    }
    assert ChildOf(fs', i, w);
  }

  /** A move of folder `k` that `MoveAllowed` permits keeps the collection
      valid. */
  lemma {:induction false} MovePreservesValid(fs: seq<Folder>, fs': seq<Folder>, k: int, name: string, np: string)
    requires Valid(fs) && 0 <= k < |fs|
    requires MovedUnder(fs, fs', k, name, np) && MoveAllowed(fs, k, name, np)
    ensures Valid(fs')
  {
    forall i | 0 <= i < |fs'| ensures Placed(fs', i) {
      if i == k {
        MovedFolderPlaced(fs, fs', k, name, np);
      } else if fs[i].parentId.None? {
        MovedRootPlaced(fs, fs', k, name, np, i);
      } else {
        MovedChildPlaced(fs, fs', k, name, np, i);
      }
    }
    assert forall i :: 0 <= i < |fs| ==> fs'[i].id == fs[i].id && fs'[i].parentId == fs[i].parentId;
    assert forall i :: 0 <= i < |fs| && i != k ==> fs'[i].name == fs[i].name;
  }

  /** `renameFolder` performs an allowed move. */
  lemma RenameIsMove(fs: seq<Folder>, folderId: string, name: string, now: int)
    requires Valid(fs)
    requires NoChar(name, '/')
    requires RenameFolder(fs, folderId, name, now).Ok?
    ensures var k := FindFolder(fs, folderId).value;
      var fs' := RenameFolder(fs, folderId, name, now).value.folders;
      && MovedUnder(fs, fs', k, name, fs'[k].path)
      && MoveAllowed(fs, k, name, fs'[k].path)
  {
    var k := FindFolder(fs, folderId).value;
    var fs' := RenameFolder(fs, folderId, name, now).value.folders;
    var np := fs'[k].path;
    assert Placed(fs, k);
    if fs[k].parentId.Some? {
      var w := FindFolder(fs, fs[k].parentId.value).value;
      assert fs[w].id == fs[k].parentId.value && np == fs[w].path + "/" + name;
    }
  }

  /** `renameFolder` keeps the collection valid when the new name holds no
      `/`. */
  lemma RenamePreservesValid(fs: seq<Folder>, folderId: string, name: string, now: int)
    requires Valid(fs)
    requires NoChar(name, '/')
    requires RenameFolder(fs, folderId, name, now).Ok?
    ensures Valid(RenameFolder(fs, folderId, name, now).value.folders)
  {
    var k := FindFolder(fs, folderId).value;
    var fs' := RenameFolder(fs, folderId, name, now).value.folders;
    RenameIsMove(fs, folderId, name, now);
    MovePreservesValid(fs, fs', k, name, fs'[k].path);
  }

  /** Folder `i` of the collection without folder `k` keeps its place
      when no folder sits under `k`. */
  lemma RemovedPlaced(fs: seq<Folder>, k: int, i: int)
    requires Valid(fs) && 0 <= k < |fs| && 0 <= i < |fs| - 1
    requires forall j :: 0 <= j < |fs| ==> fs[j].parentId != Some(fs[k].id)
    ensures Placed(fs[..k] + fs[k + 1..], i)
  {
    var fs' := fs[..k] + fs[k + 1..];
    var oi := if i < k then i else i + 1;
    assert fs'[i] == fs[oi];
    assert Placed(fs, oi);
    match fs[oi].parentId
    case None =>
    case Some(p) =>
      var w :| 0 <= w < |fs| && ChildOf(fs, oi, w);
      var nw := if w < k then w else w - 1;
      assert fs'[nw] == fs[w];
      assert ChildOf(fs', i, nw);
  }

  /** Dropping a folder nothing sits under keeps the collection valid. */
  lemma {:induction false} RemoveLeafPreservesValid(fs: seq<Folder>, k: int)
    requires Valid(fs) && 0 <= k < |fs|
    requires forall j :: 0 <= j < |fs| ==> fs[j].parentId != Some(fs[k].id)
    ensures Valid(fs[..k] + fs[k + 1..])
  {
    var fs' := fs[..k] + fs[k + 1..];
    assert forall i :: 0 <= i < |fs'| ==> fs'[i] == fs[if i < k then i else i + 1];
    forall i | 0 <= i < |fs'| ensures Placed(fs', i) {
      RemovedPlaced(fs, k, i);
    }
  }

  /** `deleteFolder` keeps the collection valid. */
  lemma DeletePreservesValid(fs: seq<Folder>, files: seq<FileDoc>, folderId: string)
    requires Valid(fs)
    requires DeleteFolder(fs, files, folderId).Ok?
    ensures Valid(DeleteFolder(fs, files, folderId).value)
  {
    var k := FindFolder(fs, folderId).value;
    RemoveLeafPreservesValid(fs, k);
  }

  /** Renaming root folder `n` to `m` leaves a sibling `n + s` alone when
      `s` does not start with `/` (so `/ab` survives renaming `/a`), and
      moves its child `x` to `/m/x`. */
  lemma SiblingWithSharedPrefixUntouched(n: string, s: string, x: string, m: string)
    requires |s| > 0 && s[0] != '/' && n + s != m
    ensures var fs := [Folder("1", n, "/" + n, None, 0, 0), Folder("2", n + s, "/" + (n + s), None, 0, 0),
                       Folder("3", x, "/" + n + "/" + x, Some("1"), 0, 0)];
      var r := RenameFolder(fs, "1", m, 5);
      && r.Ok? && |r.value.folders| == 3
      && r.value.folders[0] == Folder("1", m, "/" + m, None, 0, 5)
      && r.value.folders[1] == fs[1]
      && r.value.folders[2] == Folder("3", x, "/" + m + "/" + x, Some("1"), 0, 0)
  {
    var fs := [Folder("1", n, "/" + n, None, 0, 0), Folder("2", n + s, "/" + (n + s), None, 0, 0),
               Folder("3", x, "/" + n + "/" + x, Some("1"), 0, 0)];
    var base := "/" + n;
    assert FindFolder(fs, "1") == Some(0);
    assert ("/" + (n + s))[|base|] == s[0];
    assert !StartsWith(fs[1].path, base + "/") by {
      assert (base + "/")[|base|] == '/';
    }
    assert StartsWith(fs[2].path, base + "/") by {
      assert fs[2].path[..|base| + 1] == base + "/";
    }
    assert ("/" + m) + fs[2].path[|base|..] == "/" + m + "/" + x by {
      assert fs[2].path[|base|..] == "/" + x;
    }
  }

  /** Creating a root folder called `n/x` beside a root folder `n` is
      accepted. */
  lemma CreateSlashedName(n: string, x: string)
    requires NoChar(n, '/')
    ensures Valid([Folder("1", n, "/" + n, None, 0, 0)])
    ensures CreateFolder([Folder("1", n, "/" + n, None, 0, 0)], CreateFolderDto(n + "/" + x, None), "2", 0)
      == Ok(Saved([Folder("1", n, "/" + n, None, 0, 0), Folder("2", n + "/" + x, "/" + (n + "/" + x), None, 0, 0)],
                  Folder("2", n + "/" + x, "/" + (n + "/" + x), None, 0, 0)))
  {
    var fs := [Folder("1", n, "/" + n, None, 0, 0)];
    assert n != n + "/" + x by { assert |n| < |n + "/" + x|; }
    assert !HasChild(fs, None, n + "/" + x);
    assert Placed(fs, 0);
    var f := Folder("2", n + "/" + x, "/" + (n + "/" + x), None, 0, 0);
    assert fs + [f] == [fs[0], f];
  }

  /** Renaming root folder `n` to `m` then moves the root folder `n/x`. */
  lemma RenameMovesSlashedName(n: string, x: string, m: string)
    requires NoChar(m, '/')
    ensures var fs := [Folder("1", n, "/" + n, None, 0, 0), Folder("2", n + "/" + x, "/" + (n + "/" + x), None, 0, 0)];
      var r := RenameFolder(fs, "1", m, 1);
      && r.Ok? && |r.value.folders| == 2
      && r.value.folders[1] == Folder("2", n + "/" + x, "/" + m + "/" + x, None, 0, 0)
  {
    var fs := [Folder("1", n, "/" + n, None, 0, 0), Folder("2", n + "/" + x, "/" + (n + "/" + x), None, 0, 0)];
    var base := "/" + n;
    assert FindFolder(fs, "1") == Some(0);
    assert m != n + "/" + x by {
      assert (n + "/" + x)[|n|] == '/';
      if |m| > |n| { assert m[|n|] != '/'; }
    }
    assert fs[1].path == base + "/" + x;
    assert StartsWith(fs[1].path, base + "/") by {
      assert fs[1].path[..|base| + 1] == base + "/";
    }
    assert ("/" + m) + fs[1].path[|base|..] == "/" + m + "/" + x by {
      assert fs[1].path[|base|..] == "/" + x;
    }
  }

  /** A folder may be created with a `/` in its name, and then renaming
      another folder rewrites its path although it is not a descendant:
      the root folder `a/x` ends up at `/b/x`, no longer `/` plus its
      name. */
  lemma SlashInNameBreaksPaths(n: string, x: string, m: string)
    requires NoChar(n, '/') && NoChar(m, '/') && m != n
    ensures var fs := [Folder("1", n, "/" + n, None, 0, 0)];
      var c := CreateFolder(fs, CreateFolderDto(n + "/" + x, None), "2", 0);
      && c.Ok? && Valid(fs)
      && var r := RenameFolder(c.value.folders, "1", m, 1);
      && r.Ok?
      && r.value.folders[1].path == "/" + m + "/" + x
      && !Placed(r.value.folders, 1)
  {
    CreateSlashedName(n, x);
    RenameMovesSlashedName(n, x, m);
    SlashedPathMoved(n, x, m);
  }

  lemma SlashedPathMoved(n: string, x: string, m: string)
    requires NoChar(n, '/') && NoChar(m, '/') && m != n
    ensures "/" + m + "/" + x != "/" + (n + "/" + x)
  {
    if |m| == |n| {
      var i :| 0 <= i < |m| && m[i] != n[i];
      assert ("/" + m + "/" + x)[i + 1] == m[i];
      assert ("/" + (n + "/" + x))[i + 1] == n[i];
    } else if |m| < |n| {
      assert ("/" + m + "/" + x)[|m| + 1] == '/';
      assert ("/" + (n + "/" + x))[|m| + 1] == n[|m|];
    } else {
      assert ("/" + m + "/" + x)[|n| + 1] == m[|n|];
      assert ("/" + (n + "/" + x))[|n| + 1] == '/';
    }
  }
}

=== FILE: folders.dfy ===
/** The operations of src/services/folder/FolderService.ts over the folder
    collection (and, for the delete guard and the contents listing, the file
    collection).  Each returns the new collections instead of writing them. */
module Folders {
  import opened Errors
  import opened Strings
  import opened Models
  import Paging

  datatype CreateFolderDto = CreateFolderDto(name: string, parentId: Option<string>)

  /** Some folder under `parentId` (`None`: the root) is called `name`. */
  predicate HasChild(folders: seq<Folder>, parentId: Option<string>, name: string) {
    exists i :: 0 <= i < |folders| && folders[i].parentId == parentId && folders[i].name == name
  }

  /** `parentId` as stored: the given id when it is truthy, else null. */
  function StoredParent(parentId: Option<string>): Option<string> {
    if Truthy(parentId) then parentId else None
  }

  datatype Saved = Saved(folders: seq<Folder>, folder: Folder)

  /** What the folder schema's `name: { required: true }` throws when a
      document with an empty name is saved. */
  const NameRequired := "Folder validation failed: name: Path `name` is required."

  /** `createFolder(dto)`.  `freshId` is the uuid the service draws and
      `now` the creation time.  The guards run first; an empty name then
      fails the schema's validation when the document is created. */
  function CreateFolder(folders: seq<Folder>, dto: CreateFolderDto, freshId: string, now: int): (r: Result<Saved>)
    requires forall i :: 0 <= i < |folders| ==> folders[i].id != freshId
    ensures Truthy(dto.parentId) && FindFolder(folders, dto.parentId.value).None? ==>
      r == Fail(404, "Parent folder not found")
    ensures (Truthy(dto.parentId) && FindFolder(folders, dto.parentId.value).Some?
      && HasChild(folders, dto.parentId, dto.name)) ==>
      r == Fail(400, "Folder with this name already exists in this location")
    ensures !Truthy(dto.parentId) && HasChild(folders, None, dto.name) ==>
      r == Fail(400, "Folder with this name already exists in root directory")
    ensures ((!Truthy(dto.parentId) || FindFolder(folders, dto.parentId.value).Some?)
      && !HasChild(folders, StoredParent(dto.parentId), dto.name) && dto.name == "") ==>
      r == Err(Plain(NameRequired))
    ensures r.Ok? <==>
      (!Truthy(dto.parentId) || FindFolder(folders, dto.parentId.value).Some?)
      && !HasChild(folders, StoredParent(dto.parentId), dto.name)
      && dto.name != ""
    ensures r.Ok? ==>
      var f := r.value.folder;
      && r.value.folders == folders + [f]
      && f.id == freshId && f.name == dto.name && f.parentId == StoredParent(dto.parentId)
      && f.createdAt == now && f.updatedAt == now
      && (f.parentId.None? ==> f.path == "/" + dto.name)
      && (f.parentId.Some? ==> f.path == folders[FindFolder(folders, f.parentId.value).value].path + "/" + dto.name)
  {
    if Truthy(dto.parentId) then
      match FindFolder(folders, dto.parentId.value)
      case None => Fail(404, "Parent folder not found")
      case Some(k) =>
        if HasChild(folders, dto.parentId, dto.name) then
          Fail(400, "Folder with this name already exists in this location")
        else if dto.name == "" then Err(Plain(NameRequired))
        else
          var f := Folder(freshId, dto.name, folders[k].path + "/" + dto.name, dto.parentId, now, now);
          Ok(Saved(folders + [f], f))
    else if HasChild(folders, None, dto.name) then
      Fail(400, "Folder with this name already exists in root directory")
    else if dto.name == "" then Err(Plain(NameRequired))
    else
      var f := Folder(freshId, dto.name, "/" + dto.name, None, now, now);
      Ok(Saved(folders + [f], f))
  }

  /** `getParentPath(parentId)` */
  function ParentPath(folders: seq<Folder>, parentId: string): (r: Result<string>)
    ensures FindFolder(folders, parentId).None? <==> r == Fail(404, "Parent folder not found")
    ensures r.Ok? ==> r.value == folders[FindFolder(folders, parentId).value].path
  {
    match FindFolder(folders, parentId)
    case None => Fail(404, "Parent folder not found")
    case Some(k) => Ok(folders[k].path)
  }

  /** One document as `updateChildrenPaths(oldPath, newPath)` leaves it:
      a path that starts with `oldPath + "/"` has its first `oldPath`
      replaced by `newPath`.  The regular expression is taken as a literal
      prefix. */
  function RewritePath(f: Folder, oldPath: string, newPath: string): (g: Folder)
    ensures StartsWith(f.path, oldPath + "/") ==> g == f.(path := newPath + f.path[|oldPath|..])
    ensures !StartsWith(f.path, oldPath + "/") ==> g == f
  {
    if StartsWith(f.path, oldPath + "/") then
      assert StartsWith(f.path, oldPath) by { assert f.path[..|oldPath|] == (oldPath + "/")[..|oldPath|]; }
      ReplaceFirstPrefix(f.path, oldPath, newPath);
      f.(path := ReplaceFirst(f.path, oldPath, newPath))
    else f
  }

  /** `updateChildrenPaths(oldPath, newPath)`: only paths change, and only
      those under `oldPath + "/"`. */
  function UpdateChildrenPaths(folders: seq<Folder>, oldPath: string, newPath: string): (r: seq<Folder>)
    ensures |r| == |folders|
    ensures forall i :: 0 <= i < |folders| ==> r[i] == RewritePath(folders[i], oldPath, newPath)
    ensures forall i :: 0 <= i < |folders| ==>
      && r[i].id == folders[i].id && r[i].name == folders[i].name && r[i].parentId == folders[i].parentId
      && (!StartsWith(folders[i].path, oldPath + "/") ==> r[i] == folders[i])
  {
    seq(|folders|, i requires 0 <= i < |folders| => RewritePath(folders[i], oldPath, newPath))
  }

  /** Some other folder under `parentId` is already called `name`: the
      query `{ parentId, name, id: { $ne: folderId } }`. */
  predicate SiblingClash(folders: seq<Folder>, parentId: Option<string>, name: string, folderId: string) {
    exists j :: 0 <= j < |folders| && folders[j].parentId == parentId && folders[j].name == name && folders[j].id != folderId
  }

  /** The path a folder named `name` under `parentId` gets: the parent's
      path and the name, or `/` and the name at the root. */
  function NewPath(folders: seq<Folder>, parentId: Option<string>, name: string): (r: Result<string>)
    ensures !Truthy(parentId) ==> r == Ok("/" + name)
    ensures Truthy(parentId) && FindFolder(folders, parentId.value).None? ==> r == Fail(404, "Parent folder not found")
    ensures Truthy(parentId) && FindFolder(folders, parentId.value).Some? ==>
      r == Ok(folders[FindFolder(folders, parentId.value).value].path + "/" + name)
  {
    if Truthy(parentId) then
      var p :- ParentPath(folders, parentId.value);
      Ok(p + "/" + name)
    else Ok("/" + name)
  }

  /** `renameFolder(folderId, { name })` at time `now`. */
  function RenameFolder(folders: seq<Folder>, folderId: string, name: string, now: int): (r: Result<Saved>)
    ensures FindFolder(folders, folderId).None? ==> r == Fail(404, "Folder not found")
    ensures FindFolder(folders, folderId).Some? ==>
      var f := folders[FindFolder(folders, folderId).value];
      && (SiblingClash(folders, f.parentId, name, folderId) ==>
            r == Fail(400, "Folder with this name already exists in this location"))
      && (!SiblingClash(folders, f.parentId, name, folderId) && NewPath(folders, f.parentId, name).Err? ==>
            r == Fail(404, "Parent folder not found"))
      && (r.Ok? <==> !SiblingClash(folders, f.parentId, name, folderId) && NewPath(folders, f.parentId, name).Ok?)
    ensures r.Ok? ==>
      var k := FindFolder(folders, folderId).value;
      var f := folders[k];
      var g := r.value.folder;
      && g == f.(name := name, path := NewPath(folders, f.parentId, name).value, updatedAt := now)
      && r.value.folders == UpdateChildrenPaths(folders, f.path, g.path)[k := g]
  {
    match FindFolder(folders, folderId)
    case None => Fail(404, "Folder not found")
    case Some(k) =>
      var f := folders[k];
      if SiblingClash(folders, f.parentId, name, folderId) then
        Fail(400, "Folder with this name already exists in this location")
      else
        var newPath :- NewPath(folders, f.parentId, name);
        var g := f.(name := name, path := newPath, updatedAt := now);
        Ok(Saved(UpdateChildrenPaths(folders, f.path, newPath)[k := g], g))
  }

  /** `deleteFolder(folderId)`; `files` is the file collection, consulted
      for the "holds files" guard. */
  function DeleteFolder(folders: seq<Folder>, files: seq<FileDoc>, folderId: string): (r: Result<seq<Folder>>)
    ensures FindFolder(folders, folderId).None? ==> r == Fail(404, "Folder not found")
    ensures FindFolder(folders, folderId).Some? && (exists i :: 0 <= i < |folders| && folders[i].parentId == Some(folderId)) ==>
      r == Fail(400, "Cannot delete folder with subfolders")
    ensures (FindFolder(folders, folderId).Some?
      && !(exists i :: 0 <= i < |folders| && folders[i].parentId == Some(folderId))
      && (exists i :: 0 <= i < |files| && files[i].folderId == folderId)) ==>
      r == Fail(400, "Cannot delete folder with files")
    ensures r.Ok? <==>
      && FindFolder(folders, folderId).Some?
      && !(exists i :: 0 <= i < |folders| && folders[i].parentId == Some(folderId))
      && !(exists i :: 0 <= i < |files| && files[i].folderId == folderId)
    ensures r.Ok? ==>
      var k := FindFolder(folders, folderId).value;
      r.value == folders[..k] + folders[k + 1..]
  {
    match FindFolder(folders, folderId)
    case None => Fail(404, "Folder not found")
    case Some(k) =>
      if exists i :: 0 <= i < |folders| && folders[i].parentId == Some(folderId) then
        Fail(400, "Cannot delete folder with subfolders")
      else if exists i :: 0 <= i < |files| && files[i].folderId == folderId then
        Fail(400, "Cannot delete folder with files")
      else Ok(folders[..k] + folders[k + 1..])
  }

  datatype Pagination = Pagination(page: int, limit: int, totalFolders: nat, totalFiles: nat, total: nat)
  datatype Contents = Contents(folders: seq<Folder>, files: seq<FileView>, pagination: Pagination)

  function FolderName(f: Folder): string { f.name }
  function FileName(d: FileDoc): string { d.name }
  function ViewName(v: FileView): string { v.name }

  /** The sub-folders of `folderId`: the query `{ parentId: folderId }`. */
  function Children(folders: seq<Folder>, folderId: Option<string>): seq<Folder> {
    Filter(folders, (f: Folder) => f.parentId == folderId)
  }

  /** The files of `folderId`: the query `{ folderId }`. */
  function HeldFiles(files: seq<FileDoc>, folderId: Option<string>): seq<FileDoc> {
    Filter(files, (d: FileDoc) => Some(d.folderId) == folderId)
  }

  /** The sub-folders in the order `.sort({ name: 1 })` yields them; among
      equal names store order is kept. */
  function SortedChildren(folders: seq<Folder>, folderId: Option<string>): seq<Folder> {
    Paging.SortByName(Children(folders, folderId), FolderName)
  }

  /** The files in the order `.sort({ name: 1 })` yields them. */
  function SortedFiles(files: seq<FileDoc>, folderId: Option<string>): seq<FileDoc> {
    Paging.SortByName(HeldFiles(files, folderId), FileName)
  }

  /** The sub-folders of `folderId`, sorted by name, in the page window. */
  function FolderPage(folders: seq<Folder>, folderId: Option<string>, skip: int, limit: int): (r: Result<seq<Folder>>)
    ensures r.Err? <==> skip < 0
    ensures r.Ok? ==> Paging.SortedByName(r.value, FolderName)
    ensures r.Ok? ==> forall i :: 0 <= i < |r.value| ==> r.value[i] in folders && r.value[i].parentId == folderId
    ensures r.Ok? && limit != 0 ==> |r.value| <= Paging.Abs(limit)
    ensures r.Ok? ==> |r.value| == Paging.WindowSize(|Children(folders, folderId)|, skip, limit)
    ensures r.Ok? ==> Paging.IsWindow(r.value, SortedChildren(folders, folderId), skip, limit)
  {
    var children := Children(folders, folderId);
    var sorted := SortedChildren(folders, folderId);
    var page :- Paging.Window(sorted, skip, limit);
    Paging.SortedWindow(page, sorted, skip, limit, FolderName);
    Ok(page)
  }

  /** The files of `folderId`, sorted by name, in the page window. */
  function FilePage(files: seq<FileDoc>, folderId: Option<string>, skip: int, limit: int): (r: Result<seq<FileDoc>>)
    ensures r.Err? <==> skip < 0
    ensures r.Ok? ==> Paging.SortedByName(r.value, FileName)
    ensures r.Ok? ==> forall i :: 0 <= i < |r.value| ==> r.value[i] in files && Some(r.value[i].folderId) == folderId
    ensures r.Ok? && limit != 0 ==> |r.value| <= Paging.Abs(limit)
    ensures r.Ok? ==> |r.value| == Paging.WindowSize(|HeldFiles(files, folderId)|, skip, limit)
    ensures r.Ok? ==> Paging.IsWindow(r.value, SortedFiles(files, folderId), skip, limit)
  {
    var held := HeldFiles(files, folderId);
    var sorted := SortedFiles(files, folderId);
    var page :- Paging.Window(sorted, skip, limit);
    Paging.SortedWindow(page, sorted, skip, limit, FileName);
    Ok(page)
  }

  /** The `File` views of some documents, in the same order. */
  function Views(docs: seq<FileDoc>): (views: seq<FileView>)
    ensures |views| == |docs|
    ensures forall i :: 0 <= i < |docs| ==> views[i] == ViewOf(docs[i])
    ensures Paging.SortedByName(docs, FileName) ==> Paging.SortedByName(views, ViewName)
  {
    var views := seq(|docs|, i requires 0 <= i < |docs| => ViewOf(docs[i]));
    assert forall i :: 0 <= i < |docs| ==> ViewName(views[i]) == FileName(docs[i]);
    views
  }

  /** The views of a window are the same window of the views. */
  lemma ViewsOfWindow(page: seq<FileDoc>, docs: seq<FileDoc>, skip: int, limit: int)
    requires Paging.IsWindow(page, docs, skip, limit)
    ensures Paging.IsWindow(Views(page), Views(docs), skip, limit)
  {
    var all := Views(docs);
    assert forall i :: 0 <= i < |page| ==> Views(page)[i] == ViewOf(docs[skip + i]) == all[skip + i];
  }

  /** `getFolderContents(folderId, page, limit)`: the sub-folders and the
      files of one folder (`None`: the root), each sorted by name and cut to
      the window that starts at `(page - 1) * limit`, with the totals of
      both. */
  function GetFolderContents(folders: seq<Folder>, files: seq<FileDoc>, folderId: Option<string>, page: int, limit: int)
    : (r: Result<Contents>)
    ensures r.Err? <==> (page - 1) * limit < 0
    ensures r.Ok? ==>
      var c := r.value;
      && Paging.SortedByName(c.folders, FolderName) && Paging.SortedByName(c.files, ViewName)
      && (forall i :: 0 <= i < |c.folders| ==> c.folders[i] in folders && c.folders[i].parentId == folderId)
      && (forall i :: 0 <= i < |c.files| ==> exists d :: d in files && Some(d.folderId) == folderId && c.files[i] == ViewOf(d))
      && (limit != 0 ==> |c.folders| <= Paging.Abs(limit) && |c.files| <= Paging.Abs(limit))
      && c.pagination.totalFolders == |Children(folders, folderId)|
      && c.pagination.totalFiles == |HeldFiles(files, folderId)|
      && c.pagination.total == c.pagination.totalFolders + c.pagination.totalFiles
      && c.pagination.page == page && c.pagination.limit == limit
    ensures r.Ok? ==>
      var c := r.value;
      var skip := (page - 1) * limit;
      && |c.folders| == Paging.WindowSize(|Children(folders, folderId)|, skip, limit)
      && |c.files| == Paging.WindowSize(|HeldFiles(files, folderId)|, skip, limit)
      && Paging.IsWindow(c.folders, SortedChildren(folders, folderId), skip, limit)
      && Paging.IsWindow(c.files, Views(SortedFiles(files, folderId)), skip, limit)
  {
    var skip := (page - 1) * limit;
    if skip < 0 then Err(Plain(Paging.NegativeSkip)) else
    var folderPage := FolderPage(folders, folderId, skip, limit).value;
    var filePage := FilePage(files, folderId, skip, limit).value;
    var views := Views(filePage);
    assert forall i :: 0 <= i < |views| ==> filePage[i] in files && views[i] == ViewOf(filePage[i]);
    ViewsOfWindow(filePage, SortedFiles(files, folderId), skip, limit);
    var totalFolders := |Children(folders, folderId)|;
    var totalFiles := |HeldFiles(files, folderId)|;
    Ok(Contents(folderPage, views,
      Pagination(page, limit, totalFolders, totalFiles, totalFolders + totalFiles)))
  }

  /** The sub-folders listed by pages 1 to `k` of one positive `limit`. */
  function ListedFolders(folders: seq<Folder>, files: seq<FileDoc>, folderId: Option<string>, k: nat, limit: int): seq<Folder>
    requires limit > 0
  {
    if k == 0 then []
    else
      assert (k - 1) * limit >= 0;
      ListedFolders(folders, files, folderId, k - 1, limit) + GetFolderContents(folders, files, folderId, k, limit).value.folders
  }

  /** The files listed by pages 1 to `k` of one positive `limit`. */
  function ListedFiles(folders: seq<Folder>, files: seq<FileDoc>, folderId: Option<string>, k: nat, limit: int): seq<FileView>
    requires limit > 0
  {
    if k == 0 then []
    else
      assert (k - 1) * limit >= 0;
      ListedFiles(folders, files, folderId, k - 1, limit) + GetFolderContents(folders, files, folderId, k, limit).value.files
  }

  /** Page `page` of `getFolderContents` is the window of the sorted
      sub-folders and of the sorted file views at `(page - 1) * limit`. */
  lemma ContentsAreWindows(folders: seq<Folder>, files: seq<FileDoc>, folderId: Option<string>, page: nat, limit: int)
    requires page >= 1 && limit > 0
    ensures var skip := (page - 1) * limit;
      var r := GetFolderContents(folders, files, folderId, page, limit);
      && r.Ok?
      && r.value.folders == Paging.Window(SortedChildren(folders, folderId), skip, limit).value
      && r.value.files == Paging.Window(Views(SortedFiles(files, folderId)), skip, limit).value
  {
    var skip := (page - 1) * limit;
    assert skip >= 0;
    var c := GetFolderContents(folders, files, folderId, page, limit).value;
    Paging.WindowUnique(c.folders, SortedChildren(folders, folderId), skip, limit);
    Paging.WindowUnique(c.files, Views(SortedFiles(files, folderId)), skip, limit);
  }

  /** Listing one more page of sub-folders appends its window. */
  lemma ListedFoldersStep(folders: seq<Folder>, files: seq<FileDoc>, folderId: Option<string>, k: nat, limit: int)
    requires k >= 1 && limit > 0
    ensures (k - 1) * limit >= 0
    ensures ListedFolders(folders, files, folderId, k, limit)
      == ListedFolders(folders, files, folderId, k - 1, limit)
         + Paging.Window(SortedChildren(folders, folderId), (k - 1) * limit, limit).value
  {
    ContentsAreWindows(folders, files, folderId, k, limit);
  }

  /** Listing one more page of files appends its window. */
  lemma ListedFilesStep(folders: seq<Folder>, files: seq<FileDoc>, folderId: Option<string>, k: nat, limit: int)
    requires k >= 1 && limit > 0
    ensures (k - 1) * limit >= 0
    ensures ListedFiles(folders, files, folderId, k, limit)
      == ListedFiles(folders, files, folderId, k - 1, limit)
         + Paging.Window(Views(SortedFiles(files, folderId)), (k - 1) * limit, limit).value
  {
    ContentsAreWindows(folders, files, folderId, k, limit);
  }

  /** The sub-folders listed by pages 1 to `k` of `getFolderContents` are
      pages 1 to `k` of the sorted sub-folders. */
  lemma {:induction false} ListedFoldersArePages(folders: seq<Folder>, files: seq<FileDoc>, folderId: Option<string>, k: nat, limit: int)
    requires limit > 0
    ensures ListedFolders(folders, files, folderId, k, limit) == Paging.Pages(SortedChildren(folders, folderId), k, limit)
  {
    if k > 0 {
      var sorted := SortedChildren(folders, folderId);
      var w := Paging.Window(sorted, (k - 1) * limit, limit).value;
      calc {
        ListedFolders(folders, files, folderId, k, limit);
      == { ListedFoldersStep(folders, files, folderId, k, limit); }
        ListedFolders(folders, files, folderId, k - 1, limit) + w;
      == { ListedFoldersArePages(folders, files, folderId, k - 1, limit); }
        Paging.Pages(sorted, k - 1, limit) + w;
      == { Paging.PagesStep(sorted, k, limit); }
        Paging.Pages(sorted, k, limit);
      }
    }
  }

  /** The files listed by pages 1 to `k` of `getFolderContents` are pages
      1 to `k` of the sorted file views. */
  lemma {:induction false} ListedFilesArePages(folders: seq<Folder>, files: seq<FileDoc>, folderId: Option<string>, k: nat, limit: int)
    requires limit > 0
    ensures ListedFiles(folders, files, folderId, k, limit) == Paging.Pages(Views(SortedFiles(files, folderId)), k, limit)
  {
    if k > 0 {
      var sorted := Views(SortedFiles(files, folderId));
      var w := Paging.Window(sorted, (k - 1) * limit, limit).value;
      calc {
        ListedFiles(folders, files, folderId, k, limit);
      == { ListedFilesStep(folders, files, folderId, k, limit); }
        ListedFiles(folders, files, folderId, k - 1, limit) + w;
      == { ListedFilesArePages(folders, files, folderId, k - 1, limit); }
        Paging.Pages(sorted, k - 1, limit) + w;
      == { Paging.PagesStep(sorted, k, limit); }
        Paging.Pages(sorted, k, limit);
      }
    }
  }

  /** Reading pages 1 to `k` of `getFolderContents` lists the first
      `k * limit` sub-folders in name order, none twice; once `k * limit`
      reaches `totalFolders`, every sub-folder has been listed exactly once. */
  lemma PagesListAllFolders(folders: seq<Folder>, files: seq<FileDoc>, folderId: Option<string>, k: nat, limit: int)
    requires limit > 0
    ensures var sorted := SortedChildren(folders, folderId);
      ListedFolders(folders, files, folderId, k, limit) == sorted[..Paging.Min(Paging.Capacity(k, limit), |sorted|)]
    ensures Paging.Capacity(k, limit) >= |Children(folders, folderId)| ==>
      multiset(ListedFolders(folders, files, folderId, k, limit)) == multiset(Children(folders, folderId))
  {
    var sorted := SortedChildren(folders, folderId);
    assert |sorted| == |Children(folders, folderId)|;
    ListedFoldersArePages(folders, files, folderId, k, limit);
    Paging.PagesArePrefix(sorted, k, limit);
  }

  /** Reading pages 1 to `k` of `getFolderContents` lists the first
      `k * limit` files in name order, none twice; once `k * limit` reaches
      `totalFiles`, every file has been listed exactly once. */
  lemma PagesListAllFiles(folders: seq<Folder>, files: seq<FileDoc>, folderId: Option<string>, k: nat, limit: int)
    requires limit > 0
    ensures var views := Views(SortedFiles(files, folderId));
      ListedFiles(folders, files, folderId, k, limit) == views[..Paging.Min(Paging.Capacity(k, limit), |views|)]
    ensures Paging.Capacity(k, limit) >= |HeldFiles(files, folderId)| ==>
      ListedFiles(folders, files, folderId, k, limit) == Views(SortedFiles(files, folderId))
  {
    var views := Views(SortedFiles(files, folderId));
    assert |views| == |HeldFiles(files, folderId)|;
    ListedFilesArePages(folders, files, folderId, k, limit);
    Paging.PagesArePrefix(views, k, limit);
  }
}

=== FILE: job_queue.dfy ===
/** The part of the Bull queue the conversion service uses (the `Job` and
    `Queue` surface of src/types/bull.d.ts), as a store of job records.
    Job ids are drawn from a counter, as Bull draws them; within one state
    the store keeps insertion order.  Scheduling, locks, timeouts and
    priorities are not modelled. */
module JobQueue {
  import opened Errors

  datatype JobState = Waiting | Delayed | Active | Completed | Failed

  /** The job data the service enqueues (`ConversionJob` of
      src/types/conversion.ts without the id). */
  datatype JobData = JobData(
    fileId: string, status: string, progress: int, attempts: int, maxAttempts: int,
    createdAt: int, updatedAt: int)

  datatype JobOptions = JobOptions(
    attempts: int, timeout: int, priority: Option<int>, removeOnComplete: bool, removeOnFail: bool)

  /** What the processing function returns for a finished conversion. */
  datatype JobResult = JobResult(status: string, outputPath: Option<string>)

  datatype Job = Job(
    id: nat, data: JobData, opts: JobOptions, state: JobState, progress: int,
    attemptsMade: nat, returnValue: Option<JobResult>, failedReason: Option<string>)

  datatype Queue = Queue(jobs: seq<Job>, nextId: nat)

  /** Ids are unique and below the counter. */
  ghost predicate Valid(q: Queue) {
    && IdsUnique(q.jobs)
    && (forall i :: 0 <= i < |q.jobs| ==> q.jobs[i].id < q.nextId)
  }

  ghost predicate IdsUnique(jobs: seq<Job>) {
    forall i, j :: 0 <= i < j < |jobs| ==> jobs[i].id != jobs[j].id
  }

  /** The name `job.getState()` reports: each state has its own. */
  function StateName(s: JobState): (n: string)
    ensures n == "waiting" <==> s == Waiting
    ensures n == "delayed" <==> s == Delayed
    ensures n == "active" <==> s == Active
    ensures n == "completed" <==> s == Completed
    ensures n == "failed" <==> s == Failed
  {
    match s
    case Waiting => "waiting"
    case Delayed => "delayed"
    case Active => "active"
    case Completed => "completed"
    case Failed => "failed"
  }

  datatype Added = Added(queue: Queue, job: Job)

  /** `queue.add(data, opts)`: a new waiting job with the next id. */
  function Add(q: Queue, data: JobData, opts: JobOptions): (r: Added)
    ensures r.queue.jobs == q.jobs + [r.job]
    ensures r.queue.nextId == q.nextId + 1
    ensures r.job.id == q.nextId && r.job.data == data && r.job.opts == opts
    ensures r.job.state == Waiting && r.job.progress == 0 && r.job.attemptsMade == 0
    ensures r.job.returnValue.None? && r.job.failedReason.None?
    ensures Valid(q) ==> Valid(r.queue)
  {
    var job := Job(q.nextId, data, opts, Waiting, 0, 0, None, None);
    Added(Queue(q.jobs + [job], q.nextId + 1), job)
  }

  /** Where the job with this id sits, if anywhere. */
  function Find(jobs: seq<Job>, id: nat): (k: Option<nat>)
    ensures k.None? <==> forall i :: 0 <= i < |jobs| ==> jobs[i].id != id
    ensures k.Some? ==> k.value < |jobs| && jobs[k.value].id == id
    ensures k.Some? ==> forall i :: 0 <= i < k.value ==> jobs[i].id != id
  {
    if |jobs| == 0 then None
    else if jobs[0].id == id then Some(0)
    else match Find(jobs[1..], id)
      case None => None
      case Some(k) => Some(k + 1)
  }

  /** `queue.getJob(id)` */
  function GetJob(q: Queue, id: nat): (r: Option<Job>)
    ensures r.None? <==> forall i :: 0 <= i < |q.jobs| ==> q.jobs[i].id != id
    ensures r.Some? ==> r.value.id == id && r.value in q.jobs
  {
    match Find(q.jobs, id)
    case None => None
    case Some(k) => Some(q.jobs[k])
  }

  /** The jobs in state `s`, in store order. */
  function InState(jobs: seq<Job>, s: JobState): (r: seq<Job>)
    ensures |r| <= |jobs|
    ensures forall x :: x in r <==> x in jobs && x.state == s
  {
    if |jobs| == 0 then []
    else (if jobs[0].state == s then [jobs[0]] else []) + InState(jobs[1..], s)
  }

  /** `queue.getJobs(states)`: the jobs of each listed state, state by
      state. */
  function GetJobs(q: Queue, states: seq<JobState>): (r: seq<Job>)
    ensures forall x :: x in r <==> x in q.jobs && x.state in states
  {
    if |states| == 0 then []
    else InState(q.jobs, states[0]) + GetJobs(q, states[1..])
  }

  /** Replaces the job with this id through `f`; other jobs stay. */
  function Update(q: Queue, id: nat, f: Job -> Job): (r: Queue)
    ensures |r.jobs| == |q.jobs| && r.nextId == q.nextId
    ensures forall i :: 0 <= i < |q.jobs| ==>
      r.jobs[i] == if q.jobs[i].id == id then f(q.jobs[i]) else q.jobs[i]
  {
    Queue(seq(|q.jobs|, i requires 0 <= i < |q.jobs| =>
      if q.jobs[i].id == id then f(q.jobs[i]) else q.jobs[i]), q.nextId)
  }

  /** `job.remove()` */
  function Remove(q: Queue, id: nat): (r: Queue)
    ensures r.nextId == q.nextId
    ensures forall x :: x in r.jobs <==> x in q.jobs && x.id != id
    ensures Valid(q) ==> Valid(r)
    ensures GetJob(r, id).None?
  {
    var jobs := RemoveAll(q.jobs, id);
    Queue(jobs, q.nextId)
  }

  function RemoveAll(jobs: seq<Job>, id: nat): (r: seq<Job>)
    ensures |r| <= |jobs|
    ensures forall x :: x in r <==> x in jobs && x.id != id
    ensures IdsUnique(jobs) ==> IdsUnique(r)
  {
    if |jobs| == 0 then []
    else if jobs[0].id == id then RemoveAll(jobs[1..], id)
    else
      var rest := RemoveAll(jobs[1..], id);
      assert IdsUnique(jobs) ==> forall i :: 0 <= i < |rest| ==> rest[i].id != jobs[0].id by {
        if IdsUnique(jobs) {
          forall i | 0 <= i < |rest| ensures rest[i].id != jobs[0].id {
            assert rest[i] in jobs[1..];
          }
        }
      }
      [jobs[0]] + rest
  }

  const NotFailedMessage := "Couldn't retry job: The job has been already retried or has not failed"

  /** `job.retry()`: a failed job goes back to waiting with its failure
      cleared; any other job is refused. */
  function Retry(q: Queue, id: nat): (r: Result<Queue>)
    requires GetJob(q, id).Some?
    ensures r.Err? <==> GetJob(q, id).value.state != Failed
    ensures r.Err? ==> r.error == Plain(NotFailedMessage)
    ensures r.Ok? ==> r.value == Update(q, id, (j: Job) => j.(state := Waiting, failedReason := None))
  {
    if GetJob(q, id).value.state != Failed then Err(Plain(NotFailedMessage))
    else Ok(Update(q, id, (j: Job) => j.(state := Waiting, failedReason := None)))
  }

  /** How `job.finished()` settles: with the return value of a completed
      job, rejecting with the reason of a failed one, or not yet. */
  datatype Finished = Resolved(value: Option<JobResult>) | Rejected(reason: string) | Pending

  /** The message `finished()` rejects with for a failed job. */
  function FailureReason(j: Job): string {
    if j.failedReason.Some? then j.failedReason.value else ""
  }

  function Finish(j: Job): (f: Finished)
    ensures f.Resolved? <==> j.state == Completed
    ensures f.Rejected? <==> j.state == Failed
    ensures f.Resolved? ==> f.value == j.returnValue
    ensures f.Rejected? ==> f.reason == FailureReason(j)
  {
    match j.state
    case Completed => Resolved(j.returnValue)
    case Failed => Rejected(FailureReason(j))
    case _ => Pending
  }

  /** An active job after its processing function returned `value`. */
  function Complete(j: Job, value: JobResult): (k: Job)
    ensures k == j.(state := Completed, returnValue := Some(value))
    ensures Finish(k) == Resolved(Some(value))
  {
    j.(state := Completed, returnValue := Some(value))
  }

  /** An active job after its processing function threw `reason`: it counts
      the attempt and waits for another one while attempts remain. */
  function FailAttempt(j: Job, reason: string): (k: Job)
    ensures k.attemptsMade == j.attemptsMade + 1
    ensures k.state == Waiting <==> j.attemptsMade + 1 < j.opts.attempts
    ensures k.state == Failed <==> j.attemptsMade + 1 >= j.opts.attempts
    ensures k.state == Failed ==> k.failedReason == Some(reason)
    ensures k.id == j.id && k.data == j.data && k.opts == j.opts
  {
    var made := j.attemptsMade + 1;
    if made < j.opts.attempts then j.(attemptsMade := made, state := Waiting)
    else j.(attemptsMade := made, state := Failed, failedReason := Some(reason))
  }

  /** The attempts a job gets: at least one. */
  function Budget(opts: JobOptions): nat {
    if opts.attempts < 1 then 1 else opts.attempts
  }

  /** A job whose every attempt throws, run `n` times or until it fails. */
  function FailRepeatedly(j: Job, reason: string, n: nat): Job
    decreases n
  {
    if n == 0 || j.state == Failed then j
    else FailRepeatedly(FailAttempt(j, reason), reason, n - 1)
  }

  /** A new job whose every attempt throws is retried exactly until its
      attempt budget is spent, and then stays failed. */
  lemma {:induction false} AttemptsExhausted(j: Job, reason: string, n: nat)
    requires j.state == Waiting && j.attemptsMade < Budget(j.opts)
    ensures var k := FailRepeatedly(j, reason, n);
      && k.attemptsMade == (if j.attemptsMade + n < Budget(j.opts) then j.attemptsMade + n else Budget(j.opts))
      && (k.state == Failed <==> j.attemptsMade + n >= Budget(j.opts))
      && (k.state == Failed ==> k.failedReason == Some(reason))
    decreases n
  {
    if n > 0 {
      var j' := FailAttempt(j, reason);
      if j'.state != Failed {
        AttemptsExhausted(j', reason, n - 1);
      }
    }
  }
}

=== FILE: libre_dwg_converter.dfy ===
/** The table mappings of src/services/converter/LibreDWGConverter.ts: how
    a parsed DWG document (header and layer, line-type and text-style
    tables) becomes the intermediate format the service stores.  Numbers
    are modelled as integers; bounding boxes are not modelled. */
module LibreDwgConverter {
  import opened Errors
  import opened Strings

  datatype DwgLayer = DwgLayer(name: string, frozen: bool, color: int, lineType: string, lineWeight: int)
  datatype DwgLineType = DwgLineType(name: string, pattern: seq<int>, description: string)
  datatype DwgStyle = DwgStyle(name: string, font: string, height: int, bold: bool, italic: bool)
  datatype DwgDocument = DwgDocument(
    measurement: bool, layers: seq<DwgLayer>, lineTypes: seq<DwgLineType>, styles: seq<DwgStyle>)

  datatype Layer = Layer(id: string, name: string, visible: bool, color: string, lineType: string, lineWeight: int)
  datatype LineType = LineType(id: string, name: string, pattern: seq<int>, description: string)
  datatype TextStyle = TextStyle(id: string, name: string, fontFamily: string, fontSize: int, bold: bool, italic: bool)
  datatype Geometry = Geometry(id: string, layerId: string, styleId: string)
  datatype Attribute = Attribute(id: string, tag: string, value: string)
  datatype Block = Block(id: string, name: string)
  datatype Metadata = Metadata(originalFile: string, units: string)
  datatype IntermediateFormat = IntermediateFormat(
    version: string, metadata: Metadata, layers: seq<Layer>,
    geometries: seq<Geometry>, attributes: seq<Attribute>, blocks: seq<Block>,
    lineTypes: seq<LineType>, textStyles: seq<TextStyle>)

  function ExtractUnits(doc: DwgDocument): (units: string)
    ensures units == "Metric" <==> doc.measurement
    ensures units == "Imperial" <==> !doc.measurement
  {
    if doc.measurement then "Metric" else "Imperial"
  }

  /** The AutoCAD colour index as hex: only 1, 2 and 3 are mapped. */
  function ConvertColor(colorNumber: int): (hex: string)
    ensures colorNumber == 1 <==> hex == "#FF0000"
    ensures colorNumber == 2 <==> hex == "#FFFF00"
    ensures colorNumber == 3 <==> hex == "#00FF00"
    ensures colorNumber !in {1, 2, 3} <==> hex == "#FFFFFF"
  {
    if colorNumber == 1 then "#FF0000"
    else if colorNumber == 2 then "#FFFF00"
    else if colorNumber == 3 then "#00FF00"
    else "#FFFFFF"
  }

  /** Every colour is a seven-character `#RRGGBB` text. */
  lemma ColorIsHex(colorNumber: int)
    ensures var hex := ConvertColor(colorNumber);
      |hex| == 7 && hex[0] == '#' && forall i :: 1 <= i < 7 ==> hex[i] in "0F"
  {
  }

  function ExtractLayers(table: seq<DwgLayer>): (layers: seq<Layer>)
    ensures |layers| == |table|
    ensures forall i :: 0 <= i < |table| ==>
      && layers[i].id == table[i].name && layers[i].name == table[i].name
      && layers[i].visible == !table[i].frozen
      && layers[i].color == ConvertColor(table[i].color)
      && layers[i].lineType == table[i].lineType && layers[i].lineWeight == table[i].lineWeight
  {
    if |table| == 0 then []
    else
      var l := table[0];
      [Layer(l.name, l.name, !l.frozen, ConvertColor(l.color), l.lineType, l.lineWeight)]
        + ExtractLayers(table[1..])
  }

  function ExtractLineTypes(table: seq<DwgLineType>): (lineTypes: seq<LineType>)
    ensures |lineTypes| == |table|
    ensures forall i :: 0 <= i < |table| ==>
      && lineTypes[i].id == table[i].name && lineTypes[i].name == table[i].name
      && lineTypes[i].pattern == table[i].pattern && lineTypes[i].description == table[i].description
  {
    if |table| == 0 then []
    else
      var t := table[0];
      [LineType(t.name, t.name, t.pattern, t.description)] + ExtractLineTypes(table[1..])
  }

  function ExtractTextStyles(table: seq<DwgStyle>): (styles: seq<TextStyle>)
    ensures |styles| == |table|
    ensures forall i :: 0 <= i < |table| ==>
      && styles[i].id == table[i].name && styles[i].name == table[i].name
      && styles[i].fontFamily == table[i].font && styles[i].fontSize == table[i].height
      && styles[i].bold == table[i].bold && styles[i].italic == table[i].italic
  {
    if |table| == 0 then []
    else
      var s := table[0];
      [TextStyle(s.name, s.name, s.font, s.height, s.bold, s.italic)] + ExtractTextStyles(table[1..])
  }

  /** What reading the DWG file through libredwg gave: a document, a thrown
      `Error` with its message, or some other thrown value. */
  datatype ReadOutcome = Read(doc: DwgDocument) | ThrewError(message: string) | ThrewOther

  const ConvertFailure := "Failed to convert DWG file"

  /** `convert(filePath)`, with the file read and parse as the parameter
      `read`. */
  function Convert(filePath: string, read: string -> ReadOutcome): (r: Result<IntermediateFormat>)
    ensures r.Ok? <==> read(filePath).Read?
    ensures r.Ok? ==>
      && r.value.version == "1.0"
      && r.value.metadata == Metadata(filePath, ExtractUnits(read(filePath).doc))
      && r.value.geometries == [] && r.value.attributes == [] && r.value.blocks == []
    ensures r.Ok? ==>
      var doc := read(filePath).doc;
      && r.value.layers == ExtractLayers(doc.layers)
      && r.value.lineTypes == ExtractLineTypes(doc.lineTypes)
      && r.value.textStyles == ExtractTextStyles(doc.styles)
    ensures r.Err? ==> r.error.Plain? && StartsWith(r.error.message, ConvertFailure)
    ensures read(filePath).ThrewError? ==> r == Err(Plain(ConvertFailure + ": " + read(filePath).message))
    ensures read(filePath).ThrewOther? ==> r == Err(Plain(ConvertFailure))
  {
    match read(filePath)
    case Read(doc) =>
      Ok(IntermediateFormat("1.0", Metadata(filePath, ExtractUnits(doc)), ExtractLayers(doc.layers),
        [], [], [], ExtractLineTypes(doc.lineTypes), ExtractTextStyles(doc.styles)))
    case ThrewError(m) => Err(Plain(ConvertFailure + ": " + m))
    case ThrewOther => Err(Plain(ConvertFailure))
  }

  function LayerNames(layers: seq<Layer>): seq<string> {
    if |layers| == 0 then [] else [layers[0].name] + LayerNames(layers[1..])
  }

  function TableNames(table: seq<DwgLayer>): seq<string> {
    if |table| == 0 then [] else [table[0].name] + TableNames(table[1..])
  }

  /** The converted document lists exactly the table's layer names, in the
      table's order. */
  lemma {:induction false} LayerNamesPreserved(table: seq<DwgLayer>)
    ensures LayerNames(ExtractLayers(table)) == TableNames(table)
  {
    if |table| > 0 {
      var layers := ExtractLayers(table);
      assert layers[1..] == ExtractLayers(table[1..]);
      LayerNamesPreserved(table[1..]);
    }
  }

  /** A successful conversion keeps every table of the document, entry for
      entry: each layer, line type and text style is the table entry under
      the converter's field mapping, in the table's order.  A failure
      carries the reader's message behind the prefix. */
  lemma ConvertKeepsTables(filePath: string, read: string -> ReadOutcome)
    ensures read(filePath).Read? ==>
      var doc := read(filePath).doc;
      var f := Convert(filePath, read).value;
      && LayerNames(f.layers) == TableNames(doc.layers)
      && |f.layers| == |doc.layers| && |f.lineTypes| == |doc.lineTypes| && |f.textStyles| == |doc.styles|
      && (forall i :: 0 <= i < |doc.layers| ==>
            f.layers[i] == Layer(doc.layers[i].name, doc.layers[i].name, !doc.layers[i].frozen,
              ConvertColor(doc.layers[i].color), doc.layers[i].lineType, doc.layers[i].lineWeight))
      && (forall i :: 0 <= i < |doc.lineTypes| ==>
            f.lineTypes[i] == LineType(doc.lineTypes[i].name, doc.lineTypes[i].name,
              doc.lineTypes[i].pattern, doc.lineTypes[i].description))
      && (forall i :: 0 <= i < |doc.styles| ==>
            f.textStyles[i] == TextStyle(doc.styles[i].name, doc.styles[i].name, doc.styles[i].font,
              doc.styles[i].height, doc.styles[i].bold, doc.styles[i].italic))
    ensures read(filePath).ThrewError? ==>
      Convert(filePath, read) == Err(Plain(ConvertFailure + ": " + read(filePath).message))
    ensures read(filePath).ThrewOther? ==> Convert(filePath, read) == Err(Plain(ConvertFailure))
  {
    if read(filePath).Read? {
      LayerNamesPreserved(read(filePath).doc.layers);
    }
  }
}

=== FILE: models.dfy ===
/** The folder and file documents the services keep in MongoDB
    (src/models/folder.model.ts, the file schema of
    src/services/file/FileService.ts) and the views they hand back
    (src/types/folder.ts, src/types/file.ts).  Timestamps are integers
    supplied by the caller. */
module Models {
  import opened Errors

  datatype Folder = Folder(
    id: string, name: string, path: string, parentId: Option<string>,
    createdAt: int, updatedAt: int)

  datatype FileStatus = Pending | Processing | Completed | Failed

  datatype FileDoc = FileDoc(
    id: string, name: string, originalname: string, mimetype: string, size: int,
    path: string, folderId: string, status: FileStatus, createdAt: int, updatedAt: int)

  /** The `File` shape returned by `createFile` and listed by
      `getFolderContents`. */
  datatype FileView = FileView(
    id: string, name: string, path: string, folderId: string, createdAt: int, updatedAt: int)

  function ViewOf(d: FileDoc): (v: FileView)
    ensures v.id == d.id && v.name == d.name && v.path == d.path && v.folderId == d.folderId
    ensures v.createdAt == d.createdAt && v.updatedAt == d.updatedAt
  {
    FileView(d.id, d.name, d.path, d.folderId, d.createdAt, d.updatedAt)
  }

  /** `findOne({ id })`: the first document whose id, as `idOf` reads it,
      is `id`. */
  function FindById<T>(xs: seq<T>, id: string, idOf: T -> string): (k: Option<nat>)
    ensures k.None? <==> forall i :: 0 <= i < |xs| ==> idOf(xs[i]) != id
    ensures k.Some? ==> k.value < |xs| && idOf(xs[k.value]) == id
    ensures k.Some? ==> forall i :: 0 <= i < k.value ==> idOf(xs[i]) != id
  {
    if |xs| == 0 then None
    else if idOf(xs[0]) == id then Some(0)
    else match FindById(xs[1..], id, idOf)
      case None => None
      case Some(j) => Some(j + 1)
  }

  function FolderId(f: Folder): string { f.id }
  function FileId(d: FileDoc): string { d.id }

  /** `FolderModel.findOne({ id })` */
  function FindFolder(folders: seq<Folder>, id: string): (k: Option<nat>)
    ensures k.None? <==> forall i :: 0 <= i < |folders| ==> folders[i].id != id
    ensures k.Some? ==> k.value < |folders| && folders[k.value].id == id
    ensures k.Some? ==> forall i :: 0 <= i < k.value ==> folders[i].id != id
  {
    FindById(folders, id, FolderId)
  }

  /** `FileModel.findOne({ id })` */
  function FindFile(files: seq<FileDoc>, id: string): (k: Option<nat>)
    ensures k.None? <==> forall i :: 0 <= i < |files| ==> files[i].id != id
    ensures k.Some? ==> k.value < |files| && files[k.value].id == id
    ensures k.Some? ==> forall i :: 0 <= i < k.value ==> files[i].id != id
  {
    FindById(files, id, FileId)
  }

  /** The documents matching a query, in store order. */
  function Filter<T>(xs: seq<T>, keep: T -> bool): (r: seq<T>)
    ensures |r| <= |xs|
    ensures forall i :: 0 <= i < |r| ==> r[i] in xs && keep(r[i])
    ensures forall i :: 0 <= i < |xs| && keep(xs[i]) ==> xs[i] in r
    ensures multiset(r) <= multiset(xs)
  {
    if |xs| == 0 then []
    else
      assert xs == [xs[0]] + xs[1..];
      (if keep(xs[0]) then [xs[0]] else []) + Filter(xs[1..], keep)
  }
}

=== FILE: paging.dfy ===
/** Sorting and `skip`/`limit` windows as a MongoDB query applies them to
    the documents that match a filter.  Strings are ordered by character
    code; documents with equal keys may come out in either order. */
module Paging {
  import opened Errors

  /** Lexicographic order by character code. */
  predicate StrLe(a: string, b: string)
    decreases |a|
  {
    |a| == 0 || (|b| > 0 && (a[0] < b[0] || (a[0] == b[0] && StrLe(a[1..], b[1..]))))
  }

  lemma {:induction false} StrLeTotal(a: string, b: string)
    ensures StrLe(a, b) || StrLe(b, a)
    decreases |a|
  {
    if |a| > 0 && |b| > 0 && a[0] == b[0] {
      StrLeTotal(a[1..], b[1..]);
    }
  }

  /** Ascending by a string key, as `.sort({ key: 1 })`. */
  ghost predicate SortedByName<T>(xs: seq<T>, key: T -> string) {
    forall i :: 0 < i < |xs| ==> StrLe(key(xs[i - 1]), key(xs[i]))
  }

  /** Descending by an integer key, as `.sort({ key: -1 })`. */
  ghost predicate SortedDescending<T>(xs: seq<T>, key: T -> int) {
    forall i :: 0 < i < |xs| ==> key(xs[i - 1]) >= key(xs[i])
  }

  function InsertByName<T>(x: T, xs: seq<T>, key: T -> string): (r: seq<T>)
    requires SortedByName(xs, key)
    ensures SortedByName(r, key)
    ensures multiset(r) == multiset(xs) + multiset{x}
    ensures |r| == |xs| + 1 && (r[0] == x || (|xs| > 0 && r[0] == xs[0]))
  {
    if |xs| == 0 then [x]
    else if StrLe(key(x), key(xs[0])) then [x] + xs
    else
      StrLeTotal(key(x), key(xs[0]));
      var rest := InsertByName(x, xs[1..], key);
      assert xs == [xs[0]] + xs[1..];
      [xs[0]] + rest
  }

  function SortByName<T>(xs: seq<T>, key: T -> string): (r: seq<T>)
    ensures SortedByName(r, key)
    ensures multiset(r) == multiset(xs)
    ensures |r| == |xs|
  {
    if |xs| == 0 then []
    else
      assert xs == [xs[0]] + xs[1..];
      InsertByName(xs[0], SortByName(xs[1..], key), key)
  }

  function InsertDescending<T>(x: T, xs: seq<T>, key: T -> int): (r: seq<T>)
    requires SortedDescending(xs, key)
    ensures SortedDescending(r, key)
    ensures multiset(r) == multiset(xs) + multiset{x}
    ensures |r| == |xs| + 1 && (r[0] == x || (|xs| > 0 && r[0] == xs[0]))
  {
    if |xs| == 0 then [x]
    else if key(x) >= key(xs[0]) then [x] + xs
    else
      var rest := InsertDescending(x, xs[1..], key);
      assert xs == [xs[0]] + xs[1..];
      [xs[0]] + rest
  }

  function SortDescending<T>(xs: seq<T>, key: T -> int): (r: seq<T>)
    ensures SortedDescending(r, key)
    ensures multiset(r) == multiset(xs)
    ensures |r| == |xs|
  {
    if |xs| == 0 then []
    else
      assert xs == [xs[0]] + xs[1..];
      InsertDescending(xs[0], SortDescending(xs[1..], key), key)
  }

  function Abs(n: int): nat { if n < 0 then -n else n }

  /** How many documents a cursor of `n` matches yields after `skip`, under
      `limit`: 0 means no limit, a negative limit counts as its absolute
      value. */
  function WindowSize(n: nat, skip: nat, limit: int): nat {
    var left := if skip <= n then n - skip else 0;
    if limit == 0 || left <= Abs(limit) then left else Abs(limit)
  }

  const NegativeSkip := "skip must be non-negative"

  /** `.skip(skip).limit(limit)`; the database refuses a negative skip. */
  function Window<T>(xs: seq<T>, skip: int, limit: int): (r: Result<seq<T>>)
    ensures r.Err? <==> skip < 0
    ensures r.Ok? ==> |r.value| == WindowSize(|xs|, skip, limit)
    ensures r.Ok? ==> forall i :: 0 <= i < |r.value| ==> r.value[i] == xs[skip + i]
    ensures r.Ok? ==> IsWindow(r.value, xs, skip, limit)
  {
    if skip < 0 then Err(Plain(NegativeSkip))
    else if skip >= |xs| then Ok([])
    else
      var end := if limit == 0 || |xs| - skip <= Abs(limit) then |xs| else skip + Abs(limit);
      Ok(xs[skip..end])
  }

  /** `page` is what `.skip(skip).limit(limit)` yields from `xs`: the
      documents from position `skip` on, as many as the window allows. */
  ghost predicate IsWindow<T>(page: seq<T>, xs: seq<T>, skip: int, limit: int) {
    && skip >= 0
    && |page| == WindowSize(|xs|, skip, limit)
    && forall i :: 0 <= i < |page| ==> page[i] == xs[skip + i]
  }

  /** Only one sequence is a given window. */
  lemma WindowUnique<T>(page: seq<T>, xs: seq<T>, skip: int, limit: int)
    requires IsWindow(page, xs, skip, limit)
    ensures Window(xs, skip, limit) == Ok(page)
  {
    var w := Window(xs, skip, limit).value;
    assert forall i :: 0 <= i < |w| ==> w[i] == page[i];
    assert w == page;
  }

  /** A window of documents sorted by name is sorted, and holds only
      documents from them. */
  lemma SortedWindow<T>(page: seq<T>, xs: seq<T>, skip: int, limit: int, key: T -> string)
    requires IsWindow(page, xs, skip, limit) && SortedByName(xs, key)
    ensures SortedByName(page, key)
    ensures forall i :: 0 <= i < |page| ==> page[i] in multiset(xs)
  {
    forall i | 0 < i < |page| ensures StrLe(key(page[i - 1]), key(page[i])) {
      assert page[i - 1] == xs[skip + i - 1] && page[i] == xs[skip + i];
    }
    forall i | 0 <= i < |page| ensures page[i] in multiset(xs) {
      assert page[i] == xs[skip + i];
    }
  }

  function Min(a: int, b: int): (m: int)
    ensures m <= a && m <= b && (m == a || m == b)
  {
    if a <= b then a else b
  }

  /** How many documents pages 1 to `k` of one positive `limit` can hold. */
  function Capacity(k: nat, limit: int): nat
    requires limit > 0
  {
    k * limit
  }

  /** Pages 1 to `k` of one positive `limit`, read one after the other:
      page `p` is the window that starts at `(p - 1) * limit`. */
  function Pages<T>(xs: seq<T>, k: nat, limit: int): seq<T>
    requires limit > 0
  {
    if k == 0 then []
    else
      assert (k - 1) * limit >= 0;
      Pages(xs, k - 1, limit) + Window(xs, (k - 1) * limit, limit).value
  }

  /** Reading one more page appends the window that starts where the
      previous pages stop. */
  lemma PagesStep<T>(xs: seq<T>, k: nat, limit: int)
    requires k >= 1 && limit > 0
    ensures (k - 1) * limit >= 0
    ensures Pages(xs, k, limit) == Pages(xs, k - 1, limit) + Window(xs, (k - 1) * limit, limit).value
  {
  }

  /** The documents before `skip`, then the window at `skip`, are the
      documents before `skip + limit`. */
  lemma WindowExtends<T>(xs: seq<T>, skip: nat, limit: nat)
    requires limit > 0
    ensures xs[..Min(skip, |xs|)] + Window(xs, skip, limit).value == xs[..Min(skip + limit, |xs|)]
  {
    var lo := Min(skip, |xs|);
    var hi := Min(skip + limit, |xs|);
    var w := Window(xs, skip, limit).value;
    assert |w| == hi - lo;
    assert w == xs[lo..hi] by {
      forall i | 0 <= i < |w| ensures w[i] == xs[lo..hi][i] {
        assert w[i] == xs[skip + i];
      }
    }
    assert xs[..hi] == xs[..lo] + xs[lo..hi];
  }

  /** Reading pages 1 to `k` yields the first `k * limit` documents in
      order, each exactly once; once `k * limit` reaches the count, that is
      every document. */
  lemma {:induction false} PagesArePrefix<T>(xs: seq<T>, k: nat, limit: int)
    requires limit > 0
    ensures Pages(xs, k, limit) == xs[..Min(Capacity(k, limit), |xs|)]
    ensures Capacity(k, limit) >= |xs| ==> Pages(xs, k, limit) == xs
  {
    if k > 0 {
      PagesArePrefix(xs, k - 1, limit);
      var skip := Capacity(k - 1, limit);
      assert Capacity(k, limit) == skip + limit;
      WindowExtends(xs, skip, limit);
    }
  }

  /** A window never holds more than `limit` documents, and successive
      pages of one limit tile the sorted documents without overlap. */
  lemma WindowsTile<T>(xs: seq<T>, page: int, limit: int)
    requires page >= 1 && limit > 0
    ensures var w := Window(xs, (page - 1) * limit, limit);
      w.Ok? && |w.value| <= limit
    ensures var w1 := Window(xs, (page - 1) * limit, limit).value;
      var w2 := Window(xs, page * limit, limit).value;
      |w1| < limit ==> w2 == []
  {
    assert (page - 1) * limit >= 0;
    assert page * limit == (page - 1) * limit + limit;
  }
}

=== FILE: strings.dfy ===
/** The JavaScript string operations the services rely on, over `seq<char>`:
    `split(c)[0]`, `split(c).pop()`, `replace(pattern, replacement)` with a
    string pattern, `startsWith`, `toLowerCase` and `join`. */
module Strings {

  predicate NoChar(s: string, c: char) {
    forall i :: 0 <= i < |s| ==> s[i] != c
  }

  predicate StartsWith(s: string, prefix: string) {
    |prefix| <= |s| && s[..|prefix|] == prefix
  }

  predicate OccursAt(s: string, pat: string, k: int) {
    0 <= k && k + |pat| <= |s| && s[k..k + |pat|] == pat
  }

  /** `pat` occurs at `k` and nowhere before `k`. */
  predicate FirstOccurrence(s: string, pat: string, k: int) {
    OccursAt(s, pat, k) && forall j :: 0 <= j < k ==> !OccursAt(s, pat, j)
  }

  /** Index of the first `c` in `s`, or `|s|` when there is none. */
  function IndexOf(s: string, c: char): (r: nat)
    ensures r <= |s|
    ensures forall j :: 0 <= j < r ==> s[j] != c
    ensures r < |s| ==> s[r] == c
  {
    if |s| == 0 then 0
    else if s[0] == c then 0
    else 1 + IndexOf(s[1..], c)
  }

  /** `s.split(c)[0]`: the text before the first `c`, or all of `s`. */
  function FirstSegment(s: string, c: char): (r: string)
    ensures NoChar(r, c)
    ensures StartsWith(s, r)
    ensures |r| < |s| ==> s[|r|] == c
  {
    s[..IndexOf(s, c)]
  }

  /** `s.split(c).pop()`: the text after the last `c`, or all of `s` when
      it holds no `c`. */
  function LastSegment(s: string, c: char): (r: string)
    ensures |r| <= |s| && r == s[|s| - |r|..]
    ensures NoChar(r, c)
    ensures |r| < |s| ==> s[|s| - |r| - 1] == c
    ensures NoChar(s, c) ==> r == s
  {
    if |s| == 0 then ""
    else if s[|s| - 1] == c then ""
    else
      var init := s[..|s| - 1];
      var r := LastSegment(init, c) + [s[|s| - 1]];
      assert init[|init| - |r| + 1..] + [s[|s| - 1]] == s[|s| - |r|..];
      assert NoChar(s, c) ==> NoChar(init, c);
      r
  }

  /** `s.indexOf(pat)`: where `pat` first occurs, or -1 when it does not. */
  function IndexOfString(s: string, pat: string): (k: int)
    ensures -1 <= k <= |s|
    ensures k == -1 <==> forall j :: 0 <= j <= |s| ==> !OccursAt(s, pat, j)
    ensures k != -1 ==> FirstOccurrence(s, pat, k)
    decreases |s|
  {
    if |s| < |pat| then -1
    else if s[..|pat|] == pat then assert OccursAt(s, pat, 0); 0
    else
      var t := s[1..];
      var k' := IndexOfString(t, pat);
      assert forall j :: 1 <= j <= |s| ==> (OccursAt(s, pat, j) <==> OccursAt(t, pat, j - 1)) by {
        forall j | 1 <= j <= |s| ensures OccursAt(s, pat, j) <==> OccursAt(t, pat, j - 1) {
          OccursAtShift(s, pat, j);
        }
      }
      if k' == -1 then -1 else assert OccursAt(s, pat, k' + 1); k' + 1
  }

  lemma OccursAtShift(s: string, pat: string, j: int)
    requires 1 <= j <= |s|
    ensures OccursAt(s, pat, j) <==> OccursAt(s[1..], pat, j - 1)
  {
    if j + |pat| <= |s| {
      assert s[1..][j - 1..j - 1 + |pat|] == s[j..j + |pat|];
    }
  }

  /** `s.replace(pat, rep)` with a string pattern: only the first
      occurrence is replaced.  The `$` substitution patterns JavaScript
      recognises in `rep` are not modelled. */
  function ReplaceFirst(s: string, pat: string, rep: string): (r: string)
    ensures (forall j :: 0 <= j <= |s| ==> !OccursAt(s, pat, j)) ==> r == s
    ensures forall k :: FirstOccurrence(s, pat, k) ==> r == s[..k] + rep + s[k + |pat|..]
  {
    var k := IndexOfString(s, pat);
    if k == -1 then s else s[..k] + rep + s[k + |pat|..]
  }

  /** A string that starts with `pat` has that prefix replaced. */
  lemma ReplaceFirstPrefix(s: string, pat: string, rep: string)
    requires StartsWith(s, pat)
    ensures ReplaceFirst(s, pat, rep) == rep + s[|pat|..]
  {
    assert OccursAt(s, pat, 0);
  }

  /** With a one-character pattern `replace` swaps the first `c` for `d`
      and leaves every other position alone. */
  lemma ReplaceFirstChar(s: string, c: char, d: char)
    ensures |ReplaceFirst(s, [c], [d])| == |s|
    ensures forall i :: 0 <= i < |s| ==>
      ReplaceFirst(s, [c], [d])[i] == if i == IndexOf(s, c) then d else s[i]
  {
    var n := IndexOf(s, c);
    CharIndex(s, c);
    if n < |s| {
      var r := s[..n] + [d] + s[n + 1..];
      assert ReplaceFirst(s, [c], [d]) == r;
      assert forall i :: 0 <= i < |s| ==> r[i] == if i == n then d else s[i];
    }
  }

  /** Searching for a one-character string finds the first occurrence of
      that character. */
  lemma CharIndex(s: string, c: char)
    ensures IndexOfString(s, [c]) == if IndexOf(s, c) < |s| then IndexOf(s, c) else -1
  {
    CharOccurrence(s, c);
    var n := IndexOf(s, c);
    var k := IndexOfString(s, [c]);
    if n < |s| {
      assert OccursAt(s, [c], n);
      assert k == n;
    } else {
      assert k == -1;
    }
  }

  /** A one-character pattern occurs exactly where that character is. */
  lemma CharOccurrence(s: string, c: char)
    ensures forall j :: 0 <= j < |s| ==> (OccursAt(s, [c], j) <==> s[j] == c)
  {
    forall j | 0 <= j < |s| ensures OccursAt(s, [c], j) <==> s[j] == c {
      if s[j] == c { assert s[j..j + 1] == [c]; }
    }
  }

  /** `String.prototype.toLowerCase` restricted to ASCII letters. */
  function Lower(c: char): (d: char)
    ensures 'A' <= c <= 'Z' ==> 'a' <= d <= 'z' && d as int == c as int + 32
    ensures !('A' <= c <= 'Z') ==> d == c
  {
    if 'A' <= c <= 'Z' then (c as int + 32) as char else c
  }

  function ToLower(s: string): (r: string)
    ensures |r| == |s|
    ensures forall i :: 0 <= i < |s| ==> r[i] == Lower(s[i])
  {
    seq(|s|, i requires 0 <= i < |s| => Lower(s[i]))
  }

  /** `xs.join(sep)` */
  function Join(xs: seq<string>, sep: string): (r: string)
    ensures |xs| == 0 ==> r == ""
    ensures |xs| == 1 ==> r == xs[0]
    ensures |xs| > 0 ==> StartsWith(r, xs[0])
    ensures |r| == Lengths(xs) + (if |xs| == 0 then 0 else (|xs| - 1) * |sep|)
  {
    if |xs| == 0 then ""
    else if |xs| == 1 then xs[0]
    else xs[0] + sep + Join(xs[1..], sep)
  }

  /** The total length of the strings in `xs`. */
  function Lengths(xs: seq<string>): nat {
    if |xs| == 0 then 0 else |xs[0]| + Lengths(xs[1..])
  }

  /** Joining from the other end: appending one more entry adds the
      separator and the entry at the end. */
  lemma {:induction false} JoinAppend(xs: seq<string>, x: string, sep: string)
    ensures Join(xs + [x], sep) == if |xs| == 0 then x else Join(xs, sep) + sep + x
    decreases |xs|
  {
    if |xs| > 1 {
      assert (xs + [x])[1..] == xs[1..] + [x];
      JoinAppend(xs[1..], x, sep);
    } else if |xs| == 1 {
      assert (xs + [x])[1..] == [x];
    } else {
      assert xs + [x] == [x];
    }
  }
}

=== FILE: upload.dfy ===
/** The upload middleware of src/middleware/multer.ts: multer configured
    with in-memory storage, a 50 MiB size limit, a single file in field
    `file`, and a filter that admits only `.dwg` and `.dxf` names; then the
    wrapper that turns every upload error into a 400 ApiError. */
module Upload {
  import opened Errors
  import opened ValidateFileType

  const MaxFileSize: nat := 50 * 1024 * 1024
  const AllowedExtensions: seq<string> := ["dwg", "dxf"]
  const InvalidTypeMessage := "Invalid file type. Only .dwg and .dxf files are allowed."
  const BadEncodingMessage := "Invalid file name encoding"

  /** One file part of a multipart request. */
  datatype Part = Part(field: string, originalname: string, size: nat)

  datatype Verdict = Accept(originalname: string) | Reject(error: Thrown)

  /** The `fileFilter` callback.  `decode` stands for re-reading the latin1
      name as UTF-8; `None` is a decode that throws. */
  function FileFilter(decode: string -> Option<string>, originalname: string): (v: Verdict)
    ensures decode(originalname).None? ==> v == Reject(Plain(BadEncodingMessage))
    ensures decode(originalname).Some? ==>
      (v.Accept? <==> Extension(decode(originalname).value) in AllowedExtensions)
    ensures decode(originalname).Some? && v.Reject? ==> v.error == Plain(InvalidTypeMessage)
    ensures v.Accept? ==> v.originalname == decode(originalname).value
  {
    match decode(originalname)
    case None => Reject(Plain(BadEncodingMessage))
    case Some(decoded) =>
      var ext := Extension(decoded);
      assert "" !in AllowedExtensions by {
        assert |AllowedExtensions[0]| == 3 && |AllowedExtensions[1]| == 3;
      }
      if ext == "" || ext !in AllowedExtensions then Reject(Plain(InvalidTypeMessage))
      else Accept(decoded)
  }

  /** What multer hands to its completion callback: an error, or the
      stored file (if any). */
  datatype Received = Received(error: Option<Thrown>, file: Option<Part>)

  const UnexpectedFile := Multer("LIMIT_UNEXPECTED_FILE", "Unexpected field")
  const FileTooLarge := Multer("LIMIT_FILE_SIZE", "File too large")

  /** A part multer stores when no file is stored yet: in field `file`,
      admitted by the filter, and within the size limit. */
  predicate Storable(decode: string -> Option<string>, p: Part) {
    p.field == "file" && FileFilter(decode, p.originalname).Accept? && p.size <= MaxFileSize
  }

  /** The parts multer looks at: a file part whose file name is empty is
      drained and dropped before its field is counted or the filter runs,
      which is what a form sends when no file was chosen. */
  function Named(parts: seq<Part>): (n: seq<Part>)
    ensures |n| <= |parts|
    ensures forall p :: p in n <==> p in parts && p.originalname != ""
  {
    if |parts| == 0 then []
    else if parts[0].originalname == "" then Named(parts[1..])
    else [parts[0]] + Named(parts[1..])
  }

  /** `multer({..}).single('file')` over the parts of a request, in order.
      A nameless part is skipped.  Of the others, a part in another field,
      or a second file, is multer's LIMIT_UNEXPECTED_FILE error; a
      filtered-out name is the filter's error; a file of more than
      `MaxFileSize` bytes is LIMIT_FILE_SIZE.  The error messages of the
      last two codes are multer's own. */
  function Receive(decode: string -> Option<string>, parts: seq<Part>, stored: Option<Part>): (r: Received)
    requires stored.Some? ==> stored.value.field == "file" && stored.value.size <= MaxFileSize
    ensures r.error.None? && r.file.Some? ==> r.file.value.field == "file" && r.file.value.size <= MaxFileSize
    ensures r.error.None? ==> (r.file.None? <==> stored.None? && |Named(parts)| == 0)
    ensures r.error.None? <==>
      |Named(parts)| == 0 || (stored.None? && |Named(parts)| == 1 && Storable(decode, Named(parts)[0]))
    ensures r.error.Some? ==> r.file.None?
    ensures |Named(parts)| == 0 ==> r == Received(None, stored)
    ensures stored.None? && |Named(parts)| == 1 && Storable(decode, Named(parts)[0]) ==>
      r == Received(None, Some(Named(parts)[0].(originalname := FileFilter(decode, Named(parts)[0].originalname).originalname)))
    // the error of the first named part that breaks a rule
    ensures |Named(parts)| > 0 && (stored.Some? || Named(parts)[0].field != "file") ==> r.error == Some(UnexpectedFile)
    ensures (|Named(parts)| > 0 && stored.None? && Named(parts)[0].field == "file"
      && FileFilter(decode, Named(parts)[0].originalname).Reject?) ==>
      r.error == Some(FileFilter(decode, Named(parts)[0].originalname).error)
    ensures (|Named(parts)| > 0 && stored.None? && Named(parts)[0].field == "file"
      && FileFilter(decode, Named(parts)[0].originalname).Accept?
      && Named(parts)[0].size > MaxFileSize) ==> r.error == Some(FileTooLarge)
    ensures |Named(parts)| > 1 && stored.None? && Storable(decode, Named(parts)[0]) ==> r.error == Some(UnexpectedFile)
    // an oversized named part never gets through, wherever it stands
    ensures (exists i :: 0 <= i < |parts| && parts[i].originalname != "" && parts[i].size > MaxFileSize) ==> r.error.Some?
    decreases |parts|
  {
    if |parts| == 0 then Received(None, stored)
    else
      var p := parts[0];
      if p.originalname == "" then Receive(decode, parts[1..], stored)
      else if p.field != "file" || stored.Some? then Received(Some(UnexpectedFile), None)
      else match FileFilter(decode, p.originalname)
        case Reject(e) => Received(Some(e), None)
        case Accept(name) =>
          if p.size > MaxFileSize then Received(Some(FileTooLarge), None)
          else Receive(decode, parts[1..], Some(p.(originalname := name)))
  }

  /** Nameless parts make no difference anywhere in a request: multer
      answers as if only the named parts had been sent. */
  lemma {:induction false} NamelessPartsIgnored(decode: string -> Option<string>, parts: seq<Part>, stored: Option<Part>)
    requires stored.Some? ==> stored.value.field == "file" && stored.value.size <= MaxFileSize
    ensures Receive(decode, parts, stored) == Receive(decode, Named(parts), stored)
    decreases |parts|
  {
    if |parts| > 0 {
      var p := parts[0];
      if p.originalname == "" {
        NamelessPartsIgnored(decode, parts[1..], stored);
        assert Named(parts) == Named(parts[1..]);
        assert Named(Named(parts[1..])) == Named(parts[1..]) by { NamedIdempotent(parts[1..]); }
      } else {
        var n := Named(parts);
        assert n == [p] + Named(parts[1..]);
        assert n[0] == p && n[1..] == Named(parts[1..]);
        if p.field == "file" && stored.None? && FileFilter(decode, p.originalname).Accept? && p.size <= MaxFileSize {
          var q := p.(originalname := FileFilter(decode, p.originalname).originalname);
          NamelessPartsIgnored(decode, parts[1..], Some(q));
          NamedIdempotent(parts[1..]);
        }
      }
    }
  }

  lemma {:induction false} NamedIdempotent(parts: seq<Part>)
    ensures Named(Named(parts)) == Named(parts)
    decreases |parts|
  {
    if |parts| > 0 {
      NamedIdempotent(parts[1..]);
      if parts[0].originalname != "" {
        var n := Named(parts);
        assert n[0] == parts[0] && n[1..] == Named(parts[1..]);
      }
    }
  }

  datatype Outcome = Proceed(file: Part) | Forward(error: ApiError)

  /** `uploadMiddleware`: any error becomes `ApiError(400, err.message)`,
      a request without a file becomes 400 "No file uploaded", and
      otherwise `next()` is called with the stored file on the request. */
  function UploadMiddleware(decode: string -> Option<string>, parts: seq<Part>): (o: Outcome)
    ensures o.Forward? ==> o.error.statusCode == 400
    ensures o.Proceed? ==> o.file.field == "file" && o.file.size <= MaxFileSize
    ensures |Named(parts)| == 0 ==> o == Forward(ApiError(400, "No file uploaded"))
    ensures var r := Receive(decode, parts, None);
      && (r.error.Some? ==> o == Forward(ApiError(400, r.error.value.Message())))
      && (r.error.None? && r.file.Some? ==> o == Proceed(r.file.value))
    ensures o.Proceed? <==> |Named(parts)| == 1 && Storable(decode, Named(parts)[0])
    ensures o.Proceed? ==> o.file == Named(parts)[0].(originalname := FileFilter(decode, Named(parts)[0].originalname).originalname)
  {
    var r := Receive(decode, parts, None);
    match r.error
    case Some(e) => Forward(ApiError(400, e.Message()))
    case None =>
      match r.file
      case None => Forward(ApiError(400, "No file uploaded"))
      case Some(f) => Proceed(f)
  }

  /** A single `.dwg`/`.dxf` part is accepted exactly when it carries a
      file name and is within the size limit, and then travels on under its
      decoded name; without a name it is no file at all.  A nameless part
      in front of it changes nothing. */
  lemma {:induction false} SinglePartAccepted(decode: string -> Option<string>, p: Part)
    requires p.field == "file"
    requires decode(p.originalname).Some?
    requires Extension(decode(p.originalname).value) in AllowedExtensions
    ensures UploadMiddleware(decode, [p]).Proceed? <==> p.originalname != "" && p.size <= MaxFileSize
    ensures p.originalname != "" && p.size <= MaxFileSize ==>
      UploadMiddleware(decode, [p]) == Proceed(p.(originalname := decode(p.originalname).value))
    ensures p.originalname != "" && p.size > MaxFileSize ==>
      UploadMiddleware(decode, [p]) == Forward(ApiError(400, "File too large"))
    ensures p.originalname == "" ==> UploadMiddleware(decode, [p]) == Forward(ApiError(400, "No file uploaded"))
    ensures UploadMiddleware(decode, [Part("file", "", 0), p]) == UploadMiddleware(decode, [p])
  {
    var name := decode(p.originalname).value;
    var v := FileFilter(decode, p.originalname);
    assert v == Accept(name);
    assert [p][1..] == [];
    var r := Receive(decode, [p], None);
    if p.originalname == "" {
      assert Named([p]) == [];
    } else if p.size <= MaxFileSize {
      var q := p.(originalname := name);
      assert Receive(decode, [], Some(q)) == Received(None, Some(q));
      assert r == Received(None, Some(q));
    } else {
      assert r == Received(Some(FileTooLarge), None);
    }
    var two := [Part("file", "", 0), p];
    assert two[1..] == [p];
    assert Receive(decode, two, None) == r;
    assert Named(two) == Named([p]);
  }

  /** Whatever else a request holds, a file whose extension is not `dwg` or
      `dxf` never reaches the next handler. */
  lemma {:induction false} WrongExtensionNeverProceeds(decode: string -> Option<string>, parts: seq<Part>, stored: Option<Part>)
    requires stored.Some? ==> stored.value.field == "file" && stored.value.size <= MaxFileSize
    requires stored.Some? ==> Extension(stored.value.originalname) in AllowedExtensions
    ensures var r := Receive(decode, parts, stored);
      r.error.None? && r.file.Some? ==> Extension(r.file.value.originalname) in AllowedExtensions
    decreases |parts|
  {
    if |parts| > 0 && parts[0].originalname == "" {
      WrongExtensionNeverProceeds(decode, parts[1..], stored);
    } else if |parts| > 0 && parts[0].field == "file" && stored.None? {
      var p := parts[0];
      match FileFilter(decode, p.originalname)
      case Reject(_) =>
      case Accept(name) =>
        if p.size <= MaxFileSize {
          WrongExtensionNeverProceeds(decode, parts[1..], Some(p.(originalname := name)));
        }
    }
  }
}

=== FILE: upload_error_handler.dfy ===
/** `uploadErrorHandler` of src/middleware/uploadErrorHandler.ts: classifies
    an upload error into the ApiError handed to `next`. */
module UploadErrorHandler {
  import opened Errors
  import ErrorHandler

  const FileTooLarge := "File too large"
  const TooManyFiles := "Too many files"
  const UnexpectedFile := "Invalid file field name. Please use \"file\" as the field name."
  const UploadInternal := "Internal server error during file upload"

  /** The argument passed to `next`: `None` for a bare `next()`. */
  function Classify(err: Option<Thrown>): (next: Option<ApiError>)
    ensures err.None? <==> next.None?
    ensures err.Some? && err.value.Multer? ==> next.value.statusCode == 400
    ensures err.Some? && err.value.Api? ==> next == Some(err.value.error)
    ensures err.Some? && err.value.Plain? ==> next == Some(ApiError(500, UploadInternal))
  {
    match err
    case None => None
    case Some(Multer(code, message)) =>
      if code == "LIMIT_FILE_SIZE" then Some(ApiError(400, FileTooLarge))
      else if code == "LIMIT_FILE_COUNT" then Some(ApiError(400, TooManyFiles))
      else if code == "LIMIT_UNEXPECTED_FILE" then Some(ApiError(400, UnexpectedFile))
      else Some(ApiError(400, "File upload error: " + message))
    case Some(Api(e)) => Some(e)
    case Some(Plain(_)) => Some(ApiError(500, UploadInternal))
  }

  /** The message of a multer error: a fixed text for the three known
      codes, otherwise multer's own message behind a prefix. */
  lemma MulterMessages(code: string, message: string)
    ensures var next := Classify(Some(Multer(code, message))).value;
      && (code == "LIMIT_FILE_SIZE" ==> next.message == FileTooLarge)
      && (code == "LIMIT_FILE_COUNT" ==> next.message == TooManyFiles)
      && (code == "LIMIT_UNEXPECTED_FILE" ==> next.message == UnexpectedFile)
      && (code !in {"LIMIT_FILE_SIZE", "LIMIT_FILE_COUNT", "LIMIT_UNEXPECTED_FILE"} ==>
            next.message == "File upload error: " + message)
  {
  }

  /** Chained before the final error handler, every upload error reaches
      the client as a 400 (multer), its own status (ApiError) or a 500
      (anything else); only multer's own message ever shows through, and
      only for codes other than the three known ones. */
  lemma ResponseStatus(err: Thrown)
    ensures var r := ErrorHandler.Handle(Api(Classify(Some(err)).value));
      && (err.Multer? ==> r.status == 400)
      && (err.Api? ==> r.status == err.error.statusCode && r.body.error == err.error.message)
      && (err.Plain? ==> r.status == 500 && r.body.error == UploadInternal)
  {
  }
}

=== FILE: validate_file_type.dfy ===
/** The `validateFileType(allowedTypes)` middleware factory of
    src/middleware/validateFileType.ts, and the file-extension rule it
    shares with the upload filter: the text after the last `.` of the name,
    lower-cased, or the whole name when it holds no `.`. */
module ValidateFileType {
  import opened Errors
  import opened Strings

  /** `e` is the text after the last dot of `name` (all of `name` when it
      has no dot), lower-cased. */
  predicate LoweredTailOf(e: string, name: string) {
    && |e| <= |name|
    && NoChar(e, '.')
    && (forall i :: 0 <= i < |e| ==> e[i] == Lower(name[|name| - |e| + i]))
    && (|e| < |name| ==> name[|name| - |e| - 1] == '.')
  }

  /** `name.split('.').pop()?.toLowerCase()` */
  function Extension(name: string): (e: string)
    ensures LoweredTailOf(e, name)
  {
    LoweredTail(name);
    ToLower(LastSegment(name, '.'))
  }

  lemma LoweredTail(name: string)
    ensures LoweredTailOf(ToLower(LastSegment(name, '.')), name)
  {
    var last := LastSegment(name, '.');
    var e := ToLower(last);
    assert |e| == |last| <= |name|;
    assert last == name[|name| - |e|..];
    forall i | 0 <= i < |e| ensures e[i] == Lower(name[|name| - |e| + i]) && e[i] != '.'
    {
      assert e[i] == Lower(last[i]) && last[i] != '.';
      assert last[i] == name[|name| - |e| + i];
    }
    assert LoweredTailOf(e, name);
  }

  /** What the middleware did with one request: how many times it called
      `next()`, and the ApiError it threw, if any. */
  datatype Handled = Handled(nextCalls: nat, thrown: Option<ApiError>)

  function InvalidTypeMessage(allowedTypes: seq<string>): string {
    "Invalid file type. Allowed types: " + Join(allowedTypes, ", ")
  }

  /** The middleware returned by `validateFileType(allowedTypes)`, applied
      to a request whose uploaded file, if any, has name `originalname`. */
  function Validate(allowedTypes: seq<string>, originalname: Option<string>): (h: Handled)
    ensures h.nextCalls <= 1
    ensures h.nextCalls == 1 <==> h.thrown.None?
    ensures originalname.None? ==> h.thrown == Some(ApiError(400, "No file uploaded"))
    ensures originalname.Some? ==>
      (h.nextCalls == 1 <==> Extension(originalname.value) != "" && Extension(originalname.value) in allowedTypes)
    ensures originalname.Some? && h.nextCalls == 0 ==>
      h.thrown == Some(ApiError(400, InvalidTypeMessage(allowedTypes)))
  {
    match originalname
    case None => Handled(0, Some(ApiError(400, "No file uploaded")))
    case Some(name) =>
      var ext := Extension(name);
      if ext == "" || ext !in allowedTypes then Handled(0, Some(ApiError(400, InvalidTypeMessage(allowedTypes))))
      else Handled(1, None)
  }

  /** A name is accepted exactly when it splits into a stem that is empty or
      ends in `.`, and a non-empty dot-free tail whose lower-case form is
      allowed: the extension does not depend on anything before the last
      dot. */
  lemma {:induction false} AcceptedIffAllowedTail(allowedTypes: seq<string>, name: string)
    ensures Validate(allowedTypes, Some(name)).nextCalls == 1 <==>
      exists k :: 0 <= k < |name| && (k == 0 || name[k - 1] == '.') && NoChar(name[k..], '.')
        && ToLower(name[k..]) in allowedTypes
  {
    var last := LastSegment(name, '.');
    var m := |name| - |last|;
    assert last == name[m..];
    assert Extension(name) == ToLower(last);
    if Validate(allowedTypes, Some(name)).nextCalls == 1 {
      assert 0 <= m < |name| && (m == 0 || name[m - 1] == '.') && NoChar(name[m..], '.')
        && ToLower(name[m..]) in allowedTypes;
    }
    forall k | 0 <= k < |name| && (k == 0 || name[k - 1] == '.') && NoChar(name[k..], '.')
      ensures name[k..] == last
    {
      TailStartsAfterLastDot(name, k);
    }
  }

  /** A dot-free tail that starts the name or follows a dot is the text
      after the last dot. */
  lemma TailStartsAfterLastDot(name: string, k: int)
    requires 0 <= k < |name| && (k == 0 || name[k - 1] == '.') && NoChar(name[k..], '.')
    ensures name[k..] == LastSegment(name, '.')
  {
    var last := LastSegment(name, '.');
    var m := |name| - |last|;
    assert last == name[m..];
    assert k == m;
  }

  /** The comparison ignores case: `X.DWG` passes when `dwg` is allowed,
      whatever precedes the last dot. */
  lemma UpperCaseExtensionAccepted(stem: string)
    ensures Validate(["dwg"], Some(stem + ".DWG")).nextCalls == 1
  {
    var name := stem + ".DWG";
    var k := |stem| + 1;
    assert name[k..] == "DWG" && name[k - 1] == '.';
    assert NoChar(name[k..], '.');
    assert ToLower(name[k..]) == "dwg";
    AcceptedIffAllowedTail(["dwg"], name);
  }

  /** A name ending in `.` has an empty extension and is always refused. */
  lemma TrailingDotRejected(allowedTypes: seq<string>, stem: string)
    ensures Validate(allowedTypes, Some(stem + ".")).nextCalls == 0
  {
    assert LastSegment(stem + ".", '.') == "";
  }

  /** A name without any `.` is its own extension: a file called `dwg`
      passes when `dwg` is allowed. */
  lemma NoDotNameIsExtension(allowedTypes: seq<string>, name: string)
    requires NoChar(name, '.')
    ensures Extension(name) == ToLower(name)
    ensures name == "dwg" && "dwg" in allowedTypes ==> Validate(allowedTypes, Some(name)).nextCalls == 1
  {
    if name == "dwg" {
      assert ToLower(name) == name;
    }
  }
}
